=== FILE: README.md ===
# TRPG-World game-master core in Dafny

This project models the rules engine behind TRPG-World, a tabletop role-playing
backend in which an AI game master judges player actions with d20 rolls and
narrates the result. It covers these parts:

- **D20 rules** (`dice_system.dfy`): ability modifiers, status-effect modifiers, and the four-way outcome of a roll.
- **Schemas and records** (`schemas.dfy`, `models.dfy`): action types, outcomes, dice results, the judgment row with its phase field, and the in-memory database `Db`. The database holds sessions, participants, characters, story logs and judgments, with one id counter.
- **Judgment node** (`judgment_node.dfy`): per-action modifiers, and parsing the judge's DC reply. A DC is clamped to 5..30, and any failure falls back to DC 15. It also covers which story history the judge is shown.
- **Game-master service**, the judgment phase machine: phase 0 is pre-rolled, phase 1 analysed, phase 2 confirmed by the player, and phase 3 narrated.
  - `gm_service.dfy`: judging dice results with their explanations, and pre-rolling.
  - `gm_analysis.dfy`: the phase-1 analysis, from validation and the game context to the pre-roll and a fresh stream buffer.
  - `gm_narration.dfy`: revealing a pre-rolled die, the background producer, and saving the narrative.
  - `gm_delivery.dfy`: the streaming loop, which yields the buffer's tokens while the producer may still be adding to them, and the legacy non-streaming path.
- **Stream buffers** (`stream_buffer.dfy`): one token buffer per session, with a size cap, completion and error states, and age-based clean-up.
- **Round tracking** (`session_state.dfy`): the in-memory round state and its database-backed twin, which records who has rolled.
- **Context loader** (`context_loader.dfy`): turning stored characters into character sheets, and the newest-first story history.
- **Socket server** (`socket_server.dfy`): chat validation, the participant upsert, and the per-session action queue (submit, edit, reorder, delete, commit). It also covers the single-action judgment path and the "all dice rolled" gate.
- **Routes**:
  - `story_logs.dfy`: judgments attached to story logs.
  - `sessions.dfy`: the session lifecycle.
  - `characters.dfy`: character records.
- **Start-up configuration** (`config.dfy`).

Python built-ins the code relies on are written out in three modules:

- `text.dfy`: `str.strip` with Python's whitespace set, `find`, `replace`, `join` and `str(int)`.
- `json.dfy`: JSON values, with dict lookup where the last duplicate key wins.
- `sorting.dfy`: a stable `sorted`.

Side effects become explicit inputs and outputs:

- **Database**: every operation takes a `Db` value and returns the new one.
- **Randomness**: dice are inputs in 1..20.
- **Clocks**: times are integer inputs.
- **External calls**: the language-model judge and narrator are functions passed in as parameters, and so is `json.loads`.
- **Errors**: a raised `HTTPException` or error event is an `Err` value that carries its status and text.

## Model

| member | source | states |
|---|---|---|
| DiceSystem.RollD20 | backend/app/services/dice_system.py:33-40 | whatever the random draw, the roll is a d20 face between 1 and 20 |
| DiceSystem.RollD20Onto | backend/app/services/dice_system.py:33-40 | every face from 1 to 20 can come up |
| DiceSystem.AbilityModifier | backend/app/services/dice_system.py:43-61 | the modifier is the floor of (score - 10) / 2, so it rounds toward minus infinity for low scores |
| DiceSystem.AbilityModifierUnique | backend/app/services/dice_system.py:43-61 | only one integer satisfies the floor-division bounds, so the modifier is determined by them |
| DiceSystem.AbilityModifierExamples | backend/app/services/dice_system.py:55-61 | the documented examples hold: 10 gives 0, 14 gives +2, 18 gives +4, 8 gives -1; also 7 gives -2 and 1 gives -5 |
| DiceSystem.AbilityModifierMonotone | backend/app/services/dice_system.py:43-61 | a higher ability score never gives a lower modifier |
| DiceSystem.AsInt | backend/app/services/dice_system.py:101-102 | only ints and booleans can be added to the running modifier; any other effect value raises |
| DiceSystem.GetAbilityScore | backend/app/services/dice_system.py:64-78 | the data must be a dict; a missing ability key reads as 10, and a present key gives its stored value |
| DiceSystem.AccumulateSpec | backend/app/services/dice_system.py:96-104 | the loop over status effects raises iff some effect cannot be added, and otherwise adds every effect's delta to the base |
| DiceSystem.ApplyStatusEffects | backend/app/services/dice_system.py:81-104 | no status_effects key leaves the base modifier unchanged; otherwise the result is the base plus the sum of the dict effects' modifiers, or a TypeError when one of them is not numeric |
| DiceSystem.NonDictEffectsAddNothing | backend/app/services/dice_system.py:98-102 | effects that are not dicts, such as plain strings, add nothing and never raise |
| DiceSystem.EffectOrderIrrelevant | backend/app/services/dice_system.py:98-104 | reordering the status effects changes neither the total nor whether the loop raises |
| DiceSystem.CalculateModifier | backend/app/services/dice_system.py:107-139 | a modifier is only computed for dict data |
| DiceSystem.CalculateModifierSpec | backend/app/services/dice_system.py:107-139 | for an int (or missing, read as 10) ability score and numeric effects, the total is the ability modifier plus the effects' deltas, with skill bonus 0 |
| DiceSystem.MissingAbilityGivesZero | backend/app/services/dice_system.py:107-139 | a character with neither the ability nor status effects has modifier 0 |
| DiceSystem.DetermineOutcome | backend/app/services/dice_system.py:142-180 | a natural 1 is a critical failure and a natural 20 a critical success; otherwise success iff die plus modifier reaches the DC |
| DiceSystem.CriticalIffNatural | backend/app/services/dice_system.py:166-172 | the outcome is critical iff the die shows 1 or 20, whatever the modifier and DC |
| DiceSystem.OutcomeMonotone | backend/app/services/dice_system.py:174-180 | for the same die, a larger modifier or a lower DC never gives a worse outcome |
| Schemas.ParseActionType | backend/app/schemas.py:11-23 | a string parses to an action type only when it is exactly that type's value |
| Schemas.ActionTypeRoundTrip | backend/app/schemas.py:11-23 | parsing the value of any of the six action types gives that type back |
| Schemas.ParseOutcome | backend/app/schemas.py:26-40 | a string parses to an outcome only when it is exactly that outcome's value |
| Schemas.OutcomeRoundTrip | backend/app/schemas.py:26-40 | parsing the value of any of the four outcomes gives that outcome back |
| Schemas.NewDiceResult | backend/app/schemas.py:81-100 | a dice result is accepted iff the roll is within 1 to 20 and the DC within 5 to 30, and then keeps every field given |
| Schemas.NewStoryLogEntry | backend/app/schemas.py:189-201 | a story entry is accepted iff its role is exactly USER or AI, and then keeps the role, content and time |
| Models.NewActionJudgment | backend/app/models.py:143-160 | a judgment row created with only the required columns starts in phase 1 with every nullable column empty |
| Models.NewDiceRollState | backend/app/models.py:182-191 | a dice-state row starts not rolled, with no result and no judgment |
| Models.FindSession | backend/app/models.py:43-51 | the primary-key lookup finds the first session with the id, and finds nothing iff no session has it |
| Models.FindCharacter | backend/app/models.py:66-72 | the primary-key lookup finds the first character with the id, and finds nothing iff no character has it |
| Models.FindFirst | backend/app/models.py:43-51 | the lookup by integer key that both primary keys share: the position found holds the key and no earlier row does, and there is none iff no row has the key |
| JudgmentNode.CalculateModifier | backend/app/services/ai_nodes/judgment_node.py:110-135 | the modifier is the floor of (score - 10) / 2 for the ability the action type selects, and lies in -5..10 for a sheet whose scores are within 1..30 |
| JudgmentNode.LookupSheet | backend/app/services/ai_nodes/judgment_node.py:50-55 | a character is found iff some sheet has its id, and the sheet found carries that id |
| JudgmentNode.Kept | backend/app/services/ai_nodes/judgment_node.py:53-72 | actions whose character is not loaded are skipped; every action whose character is loaded is kept, and everything kept is one of the input actions |
| JudgmentNode.KeptAppend | backend/app/services/ai_nodes/judgment_node.py:53-72 | the skip is decided for each action on its own and keeps input order: the kept actions of two lists joined are the kept actions of the first list followed by those of the second |
| JudgmentNode.KeptOne | backend/app/services/ai_nodes/judgment_node.py:53-72 | a single action is kept exactly when its character is loaded |
| JudgmentNode.ItemInfo | backend/app/services/ai_nodes/judgment_node.py:290-293 | a missing difficulty defaults to 15; the reasoning is the `reasoning` value when that is truthy and `difficulty_reasoning` otherwise |
| JudgmentNode.BuildDcMap | backend/app/services/ai_nodes/judgment_node.py:286-293 | the map only gains keys, and every new key is the id of some dict item in the judge's list |
| JudgmentNode.ItemWithoutIdDropped | backend/app/services/ai_nodes/judgment_node.py:288-289 | an item whose `character_id` is missing or null adds nothing to the map |
| JudgmentNode.LaterItemWins | backend/app/services/ai_nodes/judgment_node.py:287-293 | when the judge lists a character twice, the later item's DC and reasoning are the ones kept |
| JudgmentNode.DcMapOf | backend/app/services/ai_nodes/judgment_node.py:283-296 | a decoded value that is not a list yields no DCs |
| JudgmentNode.CleanedWithoutFence | backend/app/services/ai_nodes/judgment_node.py:270-272 | a reply without a Markdown code fence is only stripped of surrounding whitespace |
| JudgmentNode.Slice | backend/app/services/ai_nodes/judgment_node.py:282 | Python slicing with a start beyond the stop gives the empty text |
| JudgmentNode.ArraySlice | backend/app/services/ai_nodes/judgment_node.py:274-282 | no slice is taken iff the text lacks `[` or `]`; otherwise it runs from the first `[` to the last `]`, both included, and is empty when the last `]` comes first |
| JudgmentNode.ParseDcResponse | backend/app/services/ai_nodes/judgment_node.py:247-304 | parsing never raises: a reply without a bracketed array, or one that does not decode, gives the empty map, and otherwise the map built from the decoded list |
| JudgmentNode.ParseDecodesOnlySlice | backend/app/services/ai_nodes/judgment_node.py:282-283 | only the extracted bracketed slice is decoded: two decoders that agree on it give the same DCs |
| JudgmentNode.Clamp | backend/app/services/ai_nodes/judgment_node.py:96 | clamping accepts ints and booleans only, always lands in 5..30, keeps a DC already in range, lifts low values to 5 and caps high ones at 30; any other value raises the comparison TypeError naming its type |
| JudgmentNode.ApplyOne | backend/app/services/ai_nodes/judgment_node.py:90-96 | an applied DC is valid and leaves the character, action text, type and modifier alone; for a character the judge mentioned, the update succeeds iff its difficulty converts to an integer, the DC is that integer clamped to 5..30 and the reasoning is the judge's (or the default), and a failure carries the conversion's error; a character the judge did not mention gets DC 15 and the default reasoning |
| JudgmentNode.ApplyDc | backend/app/services/ai_nodes/judgment_node.py:90-98 | on success every analysis is judged as ApplyOne judges it, in order; the loop fails only when some analysis fails |
| JudgmentNode.Fallback | backend/app/services/ai_nodes/judgment_node.py:100-105 | when the DC step raises, every analysis keeps its action and modifier and gets DC 15 with the error in its reasoning |
| JudgmentNode.RecentHistory | backend/app/services/ai_nodes/judgment_node.py:186-187 | as written: the last five entries (or all of them when fewer) of the history list |
| JudgmentNode.NewestHistory | backend/app/services/ai_nodes/judgment_node.py:185-187 | corrected: the first five entries (or all of them when fewer) of a newest-first history, that is the five most recent |
| JudgmentNode.RecentHistoryMissesNewest | backend/app/services/ai_nodes/judgment_node.py:186-187 | on a newest-first history longer than five, the as-written slice omits the newest entry while the corrected one includes it |
| JudgmentNode.RecentHistoryCounterexample | backend/app/services/ai_nodes/judgment_node.py:186-187 | for the ten newest entries 9 down to 0 the as-written slice keeps 4..0, the corrected one 9..5 |
| JudgmentNode.DifficultyStep | backend/app/services/ai_nodes/judgment_node.py:79-105 | every action keeps its identity and modifier and ends with a valid DC; when the judge replied and the DC loop goes through, the result is exactly the judge's DCs applied to the actions; a failed call, a failed setup, or a raising DC loop all fall back to DC 15 with the error text |
| JudgmentNode.ApplyDcSucceeds | backend/app/services/ai_nodes/judgment_node.py:90-96 | the DC loop cannot raise when every difficulty the judge gave for a kept character is an integer |
| JudgmentNode.AbsentCharacterGetsDefault | backend/app/services/ai_nodes/judgment_node.py:91-93 | a kept character missing from the judge's reply ends with DC 15 and the default reasoning |
| JudgmentNode.Initials | backend/app/services/ai_nodes/judgment_node.py:60-72 | each kept action gets its analysis before the judge runs, in order |
| JudgmentNode.AnalyzeAndJudge | backend/app/services/ai_nodes/judgment_node.py:20-107 | raises "No valid actions to analyze" iff no action's character is loaded; otherwise one valid analysis per kept action, in order, with the sheet's modifier for its action type, and the analyses are the judge's reply (to a request built from the world, the sheets, the newest history and the actions) applied to the initial analyses |
| JudgmentNode.JudgeDcReachesAnalysis | backend/app/services/ai_nodes/judgment_node.py:89-96 | when the judge replies with integer difficulties, a kept action whose character was given difficulty d ends with DC max(5, min(30, d)) and the judge's reasoning |
| JudgmentNode.AnalysesForSubmitted | backend/app/services/ai_nodes/judgment_node.py:53-72 | every analysis returned is about the character of a submitted action whose sheet is loaded |
| ContextLoader.AbilityField | backend/app/services/context_loader.py:259-264 | a missing ability reads as 10; a stored value is accepted iff it validates as an int (an int, a bool, or a decimal string) within 1..30, and the score is then that int |
| ContextLoader.IntField | backend/app/schemas.py:169-181 | an int field accepts an int as itself, a bool as 0 or 1, and a string iff it is in plain decimal form, reading the number it spells; every other value fails validation |
| ContextLoader.AbilityFromText | backend/app/schemas.py:176-181 | an ability stored as the text of a number reads back as that number when it is a legal score, and fails validation otherwise |
| ContextLoader.SkillEntry | backend/app/services/context_loader.py:229-235 | a dict skill value keeps its own `name` when it has one and gets the key as name otherwise; a plain value becomes the skill's `bonus` |
| ContextLoader.Skills | backend/app/services/context_loader.py:225-238 | a dict of skills becomes one skill per key, in order; a list is accepted iff every item is a dict; any other value gives no skills |
| ContextLoader.StringList | backend/app/services/context_loader.py:241 | the weaknesses are accepted iff they are a list of strings, and then kept in order |
| ContextLoader.EffectTexts | backend/app/services/context_loader.py:244-251 | when every effect is a string, the texts are those strings in the same order; items that are neither strings nor dicts give no text; never more texts than effects |
| ContextLoader.EffectText | backend/app/services/context_loader.py:246-251 | a string effect gives itself; a dict gives its truthy `name`, else its `description`, else "Unknown effect", and fails validation unless that label is a string; any other item gives nothing |
| ContextLoader.EffectTextsAppend | backend/app/services/context_loader.py:246-251 | each effect is handled on its own and in order: the texts of two lists joined are the texts of the first then of the second, and the conversion fails iff either part fails |
| ContextLoader.CharacterToSheet | backend/app/services/context_loader.py:203-268 | a converted sheet carries the character's id and name and passes every field bound of the sheet; only dict (or empty) data converts |
| ContextLoader.SheetReadsData | backend/app/services/context_loader.py:219-268 | a character converts iff its data (or `{}`) is an object with an object `ability_scores` and every field validates; each field of the sheet is then the value read from the data: the six abilities, skills, weaknesses, status effects, age, race and concept |
| ContextLoader.SheetRoundTrip | backend/app/services/context_loader.py:203-268 | a valid sheet written back as character data in the layout the loader reads converts back to the very same sheet |
| ContextLoader.EmptyDataGivesDefaults | backend/app/services/context_loader.py:219 | empty or null data reads as `{}`: every ability 10 and no age, race, concept, skills, weaknesses or effects |
| ContextLoader.TopLevelAbilitiesIgnored | backend/app/services/context_loader.py:222 | data without an `ability_scores` entry, which is how the character routes store abilities, gives every ability 10 |
| ContextLoader.LoadSession | backend/app/services/context_loader.py:90-111 | the session loads iff a row has the id; otherwise the error is "Session <id> not found" |
| ContextLoader.ParticipantCharacterIds | backend/app/services/context_loader.py:136-143 | exactly the character ids of the session's participant rows |
| ContextLoader.ConvertAll | backend/app/services/context_loader.py:149-159 | the sheets are exactly those of the characters that convert; the others are skipped without failing the load |
| ContextLoader.CharactersWithIds | backend/app/services/context_loader.py:146 | exactly the character rows whose id is among the given ids |
| ContextLoader.LoadCharacters | backend/app/services/context_loader.py:114-163 | no participants gives no sheets; otherwise the sheets are exactly the converted participant characters, each valid |
| ContextLoader.NewestFirst | backend/app/services/context_loader.py:188 | the logs are a permutation of the input ordered newest first |
| ContextLoader.SessionLogs | backend/app/services/context_loader.py:187 | exactly the logs of the session |
| ContextLoader.ToEntries | backend/app/services/context_loader.py:194-196 | conversion succeeds iff every role is USER or AI, and keeps each log's role, content and time in order |
| ContextLoader.TopHistory | backend/app/services/context_loader.py:185-191 | the query returns min(20, number of session logs) of the session's logs, newest first; they are a sub-multiset of the session's logs, and no session log left out is newer than one returned |
| ContextLoader.NewestPrefix | backend/app/services/context_loader.py:188-191 | the first n of a newest-first list are a sub-multiset of it, and nothing left out is newer than anything kept |
| ContextLoader.LoadStoryHistory | backend/app/services/context_loader.py:166-200 | succeeds iff every selected log's role is USER or AI; then one entry per selected log in the same order, with its role, content and time: min(20, number of session logs) entries, newest first, each from a log of the session |
| ContextLoader.EntriesKeepTop | backend/app/services/context_loader.py:194-196 | entries made one per selected log keep the newest-first order, and each is the entry of a log of the session |
| ContextLoader.ShortHistoryKeepsAll | backend/app/services/context_loader.py:184-191 | a session with at most 20 logs has all of them in its history |
| ContextLoader.LoadGameContext | backend/app/services/context_loader.py:30-87 | fails iff the session is missing or a log has a bad role, always with the "Failed to load game context: " prefix, and a bad role reports the story history's own error after it; otherwise the context holds the given system prompt, the session's world prompt and AI summary, its loaded characters and its history |
| StreamBuffer.NewBuffer | backend/app/services/stream_buffer.py:37-52 | a new buffer is empty, incomplete and error-free, with the given session, cap and creation time |
| StreamBuffer.AddToken | backend/app/services/stream_buffer.py:56-92 | a finished or errored buffer refuses every token unchanged; a token that would pass the cap is refused and completes the buffer; otherwise it is appended; true iff the token was appended, and the count never passes the cap |
| StreamBuffer.FillToCapAccepted | backend/app/services/stream_buffer.py:80 | a token that brings the count exactly to the cap is still accepted |
| StreamBuffer.GetTokens | backend/app/services/stream_buffer.py:94-112 | a negative start gives every token; a start inside the list gives the suffix from there; a start past the end gives nothing |
| StreamBuffer.MarkComplete | backend/app/services/stream_buffer.py:114-124 | completing changes nothing but the completion flag: the session, creation time, size cap, tokens and error are kept |
| StreamBuffer.MarkError | backend/app/services/stream_buffer.py:126-140 | an error records its message and completes the buffer, keeping the tokens, the session, the creation time and the size cap |
| StreamBuffer.GetFullText | backend/app/services/stream_buffer.py:142-149 | the full text is as long as the running count, which never exceeds the cap |
| StreamBuffer.AddExtendsText | backend/app/services/stream_buffer.py:88-92 | an accepted token extends the full text by exactly that token |
| StreamBuffer.CreateBuffer | backend/app/services/stream_buffer.py:196-219 | the session gets a fresh empty buffer for that session with the given size cap, created now and holding no characters, replacing any old one, and every other session's buffer is kept |
| StreamBuffer.GetBuffer | backend/app/services/stream_buffer.py:221-233 | a buffer is returned iff the session has one, and it is that buffer |
| StreamBuffer.RemoveBuffer | backend/app/services/stream_buffer.py:235-252 | true iff the session had a buffer; only that session's buffer is removed |
| StreamBuffer.CleanupOldBuffers | backend/app/services/stream_buffer.py:254-281 | exactly the buffers that are complete and older than the age limit are removed; the rest are kept unchanged |
| StreamBuffer.IncompleteNeverSwept | backend/app/services/stream_buffer.py:273 | a buffer still streaming survives every sweep, however old |
| StreamBuffer.CleanupIdempotent | backend/app/services/stream_buffer.py:254-281 | a second sweep at the same time removes nothing more |
| StreamBuffer.ClearAll | backend/app/services/stream_buffer.py:341-352 | no buffer is left |
| SessionState.SetOf | backend/app/services/session_state_manager.py:103 | the pending set holds exactly the listed character ids |
| SessionState.InitializeRound | backend/app/services/session_state_manager.py:74-116 | the session's counter goes up by one (from 0 when absent) and is returned; the new round has every listed character pending, none rolled, no results, the given analyses (empty when none), and other sessions are untouched |
| SessionState.RoundIdsIncrease | backend/app/services/session_state_manager.py:95-98 | a later round of the same session always gets a larger id |
| SessionState.RoundIdsCountFromOne | backend/app/services/session_state_manager.py:95-98 | a session without a counter gets round ids 1, 2, …, n from n initialisations |
| SessionState.GetRoundState | backend/app/services/session_state_manager.py:291-301 | the state is returned iff the session has one |
| SessionState.RecordDiceRoll | backend/app/services/session_state_manager.py:118-163 | a roll is recorded iff the session has a round and the character is pending; a refused roll changes nothing; a recorded one moves the character from pending to rolled and stores its result, leaving other sessions and the counters alone |
| SessionState.RecordPreservesInv | backend/app/services/session_state_manager.py:143-150 | recording a roll keeps pending and rolled a split of the round's characters with results exactly for those who rolled |
| SessionState.DuplicateRollKeepsFirst | backend/app/services/session_state_manager.py:139-141 | a second roll of the same character is refused and the first result stays |
| SessionState.CheckAllRolled | backend/app/services/session_state_manager.py:211-238 | an unknown session is never all-rolled; a known one is all-rolled iff nobody is pending |
| SessionState.AllRolledIffCastRolled | backend/app/services/session_state_manager.py:211-238 | while the round keeps its invariant, the session is all-rolled iff the rolled set is the whole cast the round started with |
| SessionState.AllRolledMeansAllResults | backend/app/services/session_state_manager.py:211-238 | when nobody is pending, every character of the round has a result |
| SessionState.GetDiceResults | backend/app/services/session_state_manager.py:240-257 | an unknown session gives no results; a known one gives its results |
| SessionState.GetPendingCharacters | backend/app/services/session_state_manager.py:259-273 | an unknown session has no pending characters; a known one gives its pending set |
| SessionState.GetRolledCharacters | backend/app/services/session_state_manager.py:275-289 | an unknown session has no rolled characters; a known one gives its rolled set |
| SessionState.GetAnalysis | backend/app/services/session_state_manager.py:303-318 | an analysis is returned iff the session is known and holds one for the character |
| SessionState.SetAnalysis | backend/app/services/session_state_manager.py:320-338 | storing succeeds iff the session is known, after which the analysis reads back; nothing else changes |
| SessionState.ResetRound | backend/app/services/session_state_manager.py:340-361 | true iff the session had a round; the round is dropped and the counters are kept |
| SessionState.ClearSession | backend/app/services/session_state_manager.py:363-393 | true iff the session had a round or a counter; both are dropped and nothing else changes |
| SessionState.ResetKeepsCounterClearRestarts | backend/app/services/session_state_manager.py:340-393 | after a reset the next round id still exceeds the old one; after a clear round ids start again at 1 |
| SessionState.FindRow | backend/app/services/session_state_manager.py:179-190 | the lookup finds a row of (session, round, character) iff one exists, and it is the first such row in table order: no earlier row matches |
| SessionState.PersistDiceRoll | backend/app/services/session_state_manager.py:165-209 | afterwards the (session, round, character) row exists, is marked rolled with the result, and every other row is unchanged; when a row existed only its dice result and rolled flag change and the id counter is kept; otherwise one row is appended with the next id, no judgment, the result, the rolled flag and the given time, and the counter steps by one |
| SessionState.RecordDiceRollPersisted | backend/app/services/session_state_manager.py:118-163 | the in-memory outcome is the same with or without a database; the table changes only for a recorded roll with a database, and then holds the rolled row |
| SessionState.AddIfMissing | backend/app/services/session_state_manager.py:429-447 | the existing rows are kept, a participant of the session ends with a row of the round, and lookups that already succeeded are unaffected |
| SessionState.InitializeRoundFromDb | backend/app/services/session_state_manager.py:413-459 | existing rows are kept in place and new rows only appended |
| SessionState.InitializeRoundFromDbSpec | backend/app/services/session_state_manager.py:413-459 | afterwards every participant of the session has a row of the round; each added row is unrolled and is the only row of its character; rows that existed still answer lookups |
| SessionState.CheckAllRolledFromDb | backend/app/services/session_state_manager.py:461-492 | true iff no row of the round is still unrolled, so also when the round has no rows |
| SessionState.PendingCount | backend/app/services/session_state_manager.py:475-487 | the count of unrolled rows of the round is zero iff all of them have rolled |
| SessionState.GetDiceResultsFromDb | backend/app/services/session_state_manager.py:494-527 | a record is listed iff it is the character, result and judgment of a rolled row of the round; never more records than rows |
| SessionState.DiceResultsAppend | backend/app/services/session_state_manager.py:507-522 | the rows are visited in table order: the records of two tables joined are the records of the first then of the second |
| SessionState.DiceResultsOne | backend/app/services/session_state_manager.py:507-522 | a single row gives its record exactly when it belongs to the round and has rolled |
| SessionState.ResetRoundInDb | backend/app/services/session_state_manager.py:529-555 | exactly the rows of the round are deleted; every other row stays |
| SessionState.ResetThenAllRolled | backend/app/services/session_state_manager.py:461-555 | after a reset, the round's readiness check is true |
| GmService.ReasonKindOf | backend/app/services/ai_gm_service_v2.py:309-325 | a critical failure gets the natural-1 text iff the die shows 1 and the far-below text otherwise; likewise for a critical success and 20; failures and successes get their own texts |
| GmService.ReasonKindNamesOutcome | backend/app/services/ai_gm_service_v2.py:309-325 | the explanation chosen always describes the outcome it was chosen for |
| GmService.MarginTextsUnreachable | backend/app/services/ai_gm_service_v2.py:309-323 | with outcomes from the dice rules, the two "10 or more beyond the DC" texts are never chosen, and the natural-1 and natural-20 texts appear exactly for those dice |
| GmService.Judge | backend/app/services/ai_gm_service_v2.py:259-283 | a judgment keeps the character, action, die, modifier and DC, has final value die plus modifier, the outcome of the dice rules, and an explanation naming that outcome |
| GmService.JudgeDiceResults | backend/app/services/ai_gm_service_v2.py:243-292 | one valid judgment per dice result, in order, with the result's character, action, die, modifier and DC |
| GmService.PreRollRecord | backend/app/services/ai_gm_service_v2.py:382-394 | a pre-rolled row is in phase 0, unlinked, with the die, final value die plus modifier, and the analysis's DC reasoning |
| GmService.PreRollRecords | backend/app/services/ai_gm_service_v2.py:352-395 | one pre-rolled row per analysis, in order, with consecutive fresh ids |
| GmService.PreRollDice | backend/app/services/ai_gm_service_v2.py:327-414 | fails (and stores nothing) iff some analysis has an out-of-range DC; otherwise one judgment per analysis carrying its action text, modifier and DC with the given die and its outcome, and one phase-0 row per analysis appended |
| GmService.PreRollStoresOutcome | backend/app/services/ai_gm_service_v2.py:380-395 | each stored outcome string parses back to the returned judgment's outcome, and the row has the next fresh id |
| GmService.PreRollKeepsIdsFresh | backend/app/services/ai_gm_service_v2.py:382-405 | pre-rolling keeps every stored id below the id counter |
| GmAnalysis.PreRollAndOpen | backend/app/services/ai_gm_service_v2.py:137-141 | the pre-rolled rows are appended in order for the session, logs are untouched, and the session gets a fresh stream buffer |
| GmAnalysis.PreRollAndOpenTables | backend/app/services/ai_gm_service_v2.py:137-140 | the database after the step is exactly what the pre-roll of the first rolls leaves: only the judgments table and the id counter change, the counter steps once per analysis, and the appended rows carry consecutive ids from the old counter |
| GmAnalysis.PreRollAndOpenBuffers | backend/app/services/ai_gm_service_v2.py:141 | the registry after the step is the old one with only this session's buffer replaced by a new empty buffer of the default size; every other session's buffer is untouched |
| GmAnalysis.AnalyzeActions | backend/app/services/ai_gm_service_v2.py:81-163 | no actions is an error; a context failure is reported with its prefix; otherwise the result is that of the analysis step on the loaded context, and it succeeds iff the context loads and some action belongs to a loaded character |
| GmAnalysis.AnalyzeInContext | backend/app/services/ai_gm_service_v2.py:125-163 | succeeds iff some action belongs to a loaded character, and otherwise reports "No valid actions to analyze" with the analysis-failure prefix; on success the analyses are exactly the judgment node's, pre-rolled with a buffer opened, and every new judgment row is for a submitted, loaded character |
| GmNarration.LatestInPhase | backend/app/services/ai_gm_service_v2.py:500-504 | the row found is the character's row in that phase with the largest id, and none is found iff the character has no such row |
| GmNarration.ConfirmDiceRoll | backend/app/services/ai_gm_service_v2.py:472-533 | no pre-rolled row is an error that changes nothing; otherwise the newest pre-rolled row moves to phase 2, and the stored values are revealed iff the die is within 1..20 and the DC within 5..30 |
| GmNarration.PreRollThenConfirm | backend/app/services/ai_gm_service_v2.py:472-528 | confirming right after a pre-roll reveals exactly the pre-rolled die and action, and judging the revealed result reproduces the pre-rolled judgment |
| StreamBuffer.Feed | backend/app/services/ai_gm_service_v2.py:449-462 | the tokens are offered in order until one is refused: the buffer receives a prefix of them, all of them when none is refused |
| StreamBuffer.FeedFits | backend/app/services/ai_gm_service_v2.py:449-462 | a buffer with room for every token accepts all of them |
| GmNarration.Produce | backend/app/services/ai_gm_service_v2.py:446-470 | the background producer always leaves the buffer complete, holding a prefix of the stream, and records a failure with the "이야기 생성 실패: " prefix |
| GmNarration.ProduceFits | backend/app/services/ai_gm_service_v2.py:446-470 | with room for everything, the buffer holds the whole stream, its full text is the stream joined, and it reports exactly the failure that happened |
| GmNarration.GenerateNarrativeBackground | backend/app/services/ai_gm_service_v2.py:416-470 | with no buffer for the session nothing happens; otherwise only that session's buffer changes |
| GmNarration.AiLog | backend/app/services/ai_gm_service_v2.py:614-619 | the saved narrative is an AI log of the session |
| GmNarration.LinkConfirmed | backend/app/services/ai_gm_service_v2.py:624-631 | exactly the session's phase-2 rows are linked to the log and moved to phase 3; every other row is kept |
| GmNarration.SaveNarrativeToDatabase | backend/app/services/ai_gm_service_v2.py:599-644 | one AI log is added and the session's confirmed rows point at it; sessions, characters and participants are untouched |
| GmNarration.SaveNarrativeLeavesNoConfirmed | backend/app/services/ai_gm_service_v2.py:624-631 | afterwards no row of the session is in phase 2, and rows in other phases are unchanged |
| GmDelivery.FirstComplete | backend/app/services/ai_gm_service_v2.py:585-587 | the poll that ends streaming is the first that sees the buffer complete; no earlier check saw it complete, and it is past the end only when no check does |
| GmDelivery.StreamNarrative | backend/app/services/ai_gm_service_v2.py:535-597 | as written: no buffer or an errored buffer is an error that saves nothing; otherwise the yielded tokens are those read on the first pass whose check sees the buffer complete, and the saved narrative is the full text at that check, of which the streamed text is a prefix |
| GmDelivery.StreamPolls | backend/app/services/ai_gm_service_v2.py:568-597 | the loop yields each pass's new tokens exactly once, in order, and stops on the first pass that sees the buffer complete, having yielded all that pass read |
| GmDelivery.StreamLoop | backend/app/services/ai_gm_service_v2.py:571-587 | resumed at any pass before the first complete one, with the tokens read by the previous pass already yielded, the loop ends having yielded exactly what the first complete pass read |
| GmDelivery.LateTokensNotStreamed | backend/app/services/ai_gm_service_v2.py:571-593 | a token the producer appends between the last read and the completing check is saved but never streamed: the pass reads "a", the check sees "a", "b" complete, and "ab" is saved |
| GmDelivery.StreamNarrativeDrained | backend/app/services/ai_gm_service_v2.py:568-597 | corrected: after the completing check the loop drains the buffer once more, so the streamed tokens are all the buffer holds and the saved narrative is exactly their concatenation |
| GmDelivery.NarratedRecord | backend/app/services/ai_gm_service_v2.py:671-683 | a saved judgment row is in phase 3, linked to the log, with the die, final value and outcome string, and no action type or DC reasoning |
| GmDelivery.SaveResults | backend/app/services/ai_gm_service_v2.py:646-694 | one AI log, then one narrated row per judgment, in order, linked to it; earlier rows are kept |
| GmDelivery.SavedOutcomesParse | backend/app/services/ai_gm_service_v2.py:680 | every stored outcome string parses back to the judgment's outcome |
| GmDelivery.GenerateNarrative | backend/app/services/ai_gm_service_v2.py:165-241 | no dice results is an error; a context failure is reported with its prefix; otherwise a narrator failure is reported with its prefix, and a narration succeeds with exactly that text as the full narrative; on success the judgments are those of the dice rules, the result is complete, and the narrative is saved with them |
| GmDelivery.SavedRowsFollowRules | backend/app/services/ai_gm_service_v2.py:646-694 | the saved AI log holds the narrative, and each die submitted gets a row linked to it with its character, die, die plus modifier, and an outcome string that parses back to the outcome the dice rules give |
| SocketServer.ValidateChatMessage | backend/app/socket_server.py:344-368 | a message is valid iff it is not empty or all whitespace and has at most 500 characters; all-whitespace text gets the empty-message error, and the separate whitespace-only error is never produced |
| SocketServer.LengthCountsWhitespace | backend/app/socket_server.py:357-366 | the 500-character limit counts surrounding whitespace: 500 letters followed by a space are rejected as too long |
| SocketServer.FindParticipant | backend/app/socket_server.py:73-77 | finds the first row for this (session, user) pair, or reports that there is none |
| SocketServer.ParticipantCount | backend/app/socket_server.py:126-137 | the count is zero exactly when no participant row belongs to the session |
| SocketServer.AddParticipant | backend/app/socket_server.py:53-94 | an existing (session, user) row only gets a new character and join time; otherwise one new row with a fresh id is appended |
| SocketServer.AddParticipantSeats | backend/app/socket_server.py:73-94 | the upsert keeps at most one row per (session, user) and leaves the user seated; a repeat join leaves the session's count unchanged, and a new user raises it by one |
| SocketServer.RemoveParticipant | backend/app/socket_server.py:97-123 | reports true iff the user had a row in the session; otherwise the data is unchanged; on success exactly one of the user's rows in the session is cut out of the table, nothing else changes, and the user is no longer seated |
| SocketServer.JoinThenLeave | backend/app/socket_server.py:53-123 | a new user who joins and then leaves is removed, and the session's head count is back to its earlier value |
| SocketServer.WithoutSession | backend/app/socket_server.py:203-206 | deleting a session's participants removes exactly that session's rows and keeps every other row |
| SocketServer.CheckAndDeactivateSession | backend/app/socket_server.py:164-233 | reports true iff the session has no participants and exists and is active; in that case the only change is that session's active flag turning false; otherwise nothing changes |
| SocketServer.VerifyHostAuthorization | backend/app/socket_server.py:316-341 | authorised iff the session exists and the user hosts it; a missing session gives "Session not found", and any other refusal the host-only message |
| SocketServer.SubmitAction | backend/app/socket_server.py:688-742 | text that is blank after stripping is rejected; otherwise the stripped text is appended to that session's queue, with the next counter value as id and the old queue length as order; other queues are untouched |
| SocketServer.SubmitKeepsWellFormed | backend/app/socket_server.py:706-728 | submitting keeps every queue free of duplicate ids and numbered 0..n-1, with every id at most the counter |
| SocketServer.GetQueue | backend/app/socket_server.py:746-769 | returns the session's queue, or an empty one that is then registered; no queue's contents change |
| SocketServer.EditAction | backend/app/socket_server.py:1350-1398 | host only; blank new text is rejected; otherwise each entry with that id gets the stripped text, every other entry and every other queue is unchanged, and the length stays the same |
| SocketServer.LastIndex | backend/app/socket_server.py:1431-1441 | the last position holding the id, or -1 exactly when the id is absent |
| SocketServer.FindLast | backend/app/socket_server.py:1431 | the id-to-action map yields a queued entry with that id iff the id is queued |
| SocketServer.Rebuild | backend/app/socket_server.py:1431-1441 | the rebuilt queue holds the listed ids that are queued, in listed order; each entry is that id's queued action with order set to the id's last listed position |
| SocketServer.ReorderActions | backend/app/socket_server.py:1402-1451 | host only; the new queue's ids are exactly the listed ids that are queued, in listed order (unlisted actions are dropped); each entry is that id's queued action with its order set to the id's last listed position; other queues and the counter are unchanged |
| SocketServer.ReorderFullListing | backend/app/socket_server.py:1429-1441 | listing every queued id exactly once yields that order, numbered 0..n-1 |
| SocketServer.ReorderKeepsListed | backend/app/socket_server.py:1429-1441 | a listed, queued action survives the reorder with all fields except its order unchanged |
| SocketServer.WithoutId | backend/app/socket_server.py:1482-1483 | removes exactly the entries with the id and keeps every other entry |
| SocketServer.WithoutIdAppend | backend/app/socket_server.py:1482-1483 | the filter keeps order: filtering two lists joined gives the filtered first list followed by the filtered second |
| SocketServer.WithoutIdOne | backend/app/socket_server.py:1482-1483 | a single entry is kept exactly when its id differs |
| SocketServer.WithoutIdAbsent | backend/app/socket_server.py:1482-1483 | a queue without the id is left exactly as it is |
| SocketServer.Renumber | backend/app/socket_server.py:1486-1487 | keeps the entries and sets each entry's order to the last position of its id |
| SocketServer.RenumberUnique | backend/app/socket_server.py:1486-1487 | on a queue without duplicate ids every entry's order becomes its position |
| SocketServer.DeleteAction | backend/app/socket_server.py:1455-1501 | host only; the session's queue becomes the old queue without the entries of that id, in their old order, renumbered; other queues and the counter are unchanged |
| SocketServer.DeleteRenumbers | backend/app/socket_server.py:1482-1487 | on a queue without duplicate ids, a delete leaves a queue without duplicate ids, numbered 0..n-1 |
| SocketServer.Lines | backend/app/socket_server.py:1557 | one "name: text" line per queued action, in the same order |
| SocketServer.CommitActions | backend/app/socket_server.py:1536-1567 | host only; an empty queue gives "No actions to commit"; otherwise the queue is emptied and one USER log is appended whose content is the "name: text" lines of the actions sorted by order (stably: actions with equal order keep queue order), joined with newlines; nothing else in the database changes |
| SocketServer.CommitNumberedInQueueOrder | backend/app/socket_server.py:1554-1558 | a queue numbered 0..n-1 is committed in submission order |
| SocketServer.LowerAscii | backend/app/socket_server.py:856 | lower-cases the ASCII capitals, keeps every other character, and keeps the length |
| SocketServer.ActionTypeOf | backend/app/socket_server.py:854-863 | a known action-type name maps to its type, and every other name to DEXTERITY |
| SocketServer.SubmitPlayerAction | backend/app/socket_server.py:778-947 | missing ids and blank text are rejected in that order, and so are missing sessions and characters; on success the session was active, and exactly two judgment rows are appended for the character: a phase-0 row holding the die, then a phase-1 row with the lower-cased type name and the analysis's DC, whose id is returned |
| SocketServer.AnalyzeOne | backend/app/socket_server.py:876-896 | phase 1 of one action adds its pre-rolled phase-0 row, then the phase-1 row carrying the analysis's modifier, DC and reasoning; the analysis is valid and about the same character and action type |
| SocketServer.AddAnalyzedRow | backend/app/socket_server.py:884-896 | appends exactly one phase-1 judgment row, built from the analysis, with the next id; no earlier row changes |
| SocketServer.PhaseOneAnalysis | backend/app/services/ai_gm_service_v2.py:81-163 | a successful phase 1 for one action returns exactly one valid analysis of that action and appends one phase-0 row for its character holding the die |
| SocketServer.RollDice | backend/app/socket_server.py:951-1073 | missing ids are rejected with no change; otherwise the database is what the confirm left, a roll is reported iff the confirm succeeds, a failed confirm is reported as a rejection with its error, and a reported roll carries the character's name and the id, die, modifier, final value, DC and outcome stored on the character's newest phase-2 row (not the confirm's own result); all_dice_rolled holds iff no phase-0 row of the session remains; the "Judgment not found" reply never occurs |
| SocketServer.CharacterName | backend/app/socket_server.py:1015-1017 | the broadcast name is that of the character with the id, or "Character " and the id when there is none |
| SocketServer.FirstRollReportsConfirmed | backend/app/socket_server.py:1000-1038 | on a character's first roll (no phase-2 row yet) the broadcast is the row just confirmed: its id, and the confirm's die, modifier and DC |
| SocketServer.SecondRollReportsOtherRow | backend/app/socket_server.py:1000-1038 | with pre-rolled rows 5 (die 3) and 7 (die 17), the second roll confirms row 5 with die 3 yet broadcasts row 7 and die 17 |
| SocketServer.RollDiceConfirmed | backend/app/socket_server.py:951-1073 | the corrected handler: as RollDice, but a reported roll carries the stored columns of the row the confirm just moved to phase 2, whose die, modifier and DC are the confirm's result |
| SocketServer.ConfirmErrors | backend/app/services/ai_gm_service_v2.py:472-533 | a failed confirm reports either the missing-row error or the validation error |
| SocketServer.PendingCount | backend/app/socket_server.py:1045-1058 | the number of phase-0 rows of the session is zero exactly when none remains |
| StoryLogs.LastWithId | backend/app/routes/story_logs.py:124-125 | the name map keeps the last character row with a given id: the position found holds that id and no later row does, and there is none iff no row has the id |
| StoryLogs.CharacterName | backend/app/routes/story_logs.py:124-125 | an unknown character id reads "Unknown"; otherwise the name is that of the last row with the id |
| StoryLogs.Summary | backend/app/routes/story_logs.py:152-163 | a judgment's summary carries its id, character id, action text and type, die, modifier, final value, DC and outcome unchanged, and the character name read from the last character row with that id, or "Unknown" |
| StoryLogs.Linked | backend/app/routes/story_logs.py:146 | exactly the judgments whose story-log id is the given log, each taken from the table |
| StoryLogs.LinkedAppend | backend/app/routes/story_logs.py:146 | the query keeps table order: the judgments linked in two tables joined are those of the first followed by those of the second |
| StoryLogs.LinkedOne | backend/app/routes/story_logs.py:146 | a single judgment is linked exactly when it points at the log |
| StoryLogs.NextAi | backend/app/routes/story_logs.py:136-140 | the first AI log after the given position: it is later, has role AI, and no log between is an AI log; none iff no later log is an AI log |
| StoryLogs.Attached | backend/app/routes/story_logs.py:131-166 | only USER logs carry judgments; a USER log carries a non-empty list iff there is a later AI log with linked judgments, and then the list summarises exactly the judgments linked to the first later AI log, one per judgment in table order; an empty list is never shown |
| StoryLogs.Chronological | backend/app/routes/story_logs.py:121 | exactly the session's logs, as a permutation, ordered by creation time |
| StoryLogs.GetStoryLogs | backend/app/routes/story_logs.py:95-186 | a missing session gives 404; otherwise one entry per session log in ascending creation order, carrying the log's id, role, content and time and the judgments attached to it; AI logs never carry judgments |
| StoryLogs.UserShowsFollowingAi | backend/app/routes/story_logs.py:134-166 | a USER log directly followed by an AI log with linked judgments shows exactly those judgments, summarised in table order |
| Sessions.ActiveOnly | backend/app/routes/sessions.py:85 | keeps exactly the active sessions |
| Sessions.ActiveOnlyAppend | backend/app/routes/sessions.py:85 | filtering a concatenation filters each part and concatenates the results |
| Sessions.ActiveOnlyOne | backend/app/routes/sessions.py:85 | a single session is kept iff it is active |
| Sessions.HostedBy | backend/app/routes/sessions.py:256 | keeps exactly the sessions of the given host |
| Sessions.HostedByAppend | backend/app/routes/sessions.py:256 | filtering a concatenation by host filters each part and concatenates the results |
| Sessions.HostedByOne | backend/app/routes/sessions.py:256 | a single session is kept iff the given user hosts it |
| Sessions.Listing | backend/app/routes/sessions.py:82-100 | one row per session, newest first; each row copies the session's fields and counts the participant rows that point at it |
| Sessions.ListingFrom | backend/app/routes/sessions.py:82-100 | every listed row shows one of the queried sessions, with its head count |
| Sessions.ListingCovers | backend/app/routes/sessions.py:82-100 | every queried session appears in the listing |
| Sessions.ListSessions | backend/app/routes/sessions.py:69-103 | the listing holds exactly the active sessions, one entry per active session, newest first, each with its participant count |
| Sessions.ListHostSessions | backend/app/routes/sessions.py:251-270 | the listing holds exactly the host's sessions, active or not, one entry per hosted session, newest first, each with its participant count |
| Sessions.CreateSession | backend/app/routes/sessions.py:107-152 | an empty title or world prompt breaks the request model and gives 422; then a blank title, or else a blank world prompt, gives its 400; otherwise exactly one active session is appended, with a fresh id, the host, the stripped non-empty texts and no summary |
| Sessions.CreateThenList | backend/app/routes/sessions.py:107-152 | a newly created session has no participants and appears in the listing of active sessions |
| Sessions.OwnedCharacter | backend/app/routes/sessions.py:178-183 | finds a character row with the given id that belongs to the user, or reports that there is none |
| Sessions.JoinSession | backend/app/routes/sessions.py:156-213 | a missing session, or a character the user does not own, gives 404; a second seat gives 400; it succeeds iff none of these holds, adding exactly one participant row and returning the character's name |
| Sessions.LeaveSession | backend/app/routes/sessions.py:217-239 | removes the user's first row in the session if there is one; otherwise nothing changes; it never fails |
| Sessions.JoinThenLeaveRestores | backend/app/routes/sessions.py:156-239 | leaving right after a successful join gives back the participant table exactly |
| Sessions.NoSecondSeat | backend/app/routes/sessions.py:188-195 | after a successful join, the same user cannot join that session again, whatever the character |
| Sessions.HostedSession | backend/app/routes/sessions.py:276-280 | allowed iff the session exists and the user hosts it; a missing session gives 404 and another user gets 403 |
| Sessions.EndSession | backend/app/routes/sessions.py:274-300 | host only; only that session becomes inactive, all its participant rows go, other participants stay, and logs and judgments are unchanged |
| Sessions.RestartSession | backend/app/routes/sessions.py:301-310 | host only; the session becomes active again and nothing else changes |
| Sessions.LogsWithoutSession | backend/app/routes/sessions.py:332 | keeps exactly the story logs of other sessions |
| Sessions.DeleteSession | backend/app/routes/sessions.py:316-339 | host only, and 400 while the session is active; otherwise the session row, its participants and its story logs go, and everything else stays, judgments and characters included |
| Sessions.EndThenDeleteOrRestart | backend/app/routes/sessions.py:274-339 | after the host ends a session, the host can delete it, or restart it active again with nobody in it |
| Sessions.ActiveNeverDeleted | backend/app/routes/sessions.py:326-327 | an active session is never deleted, whoever asks |
| Characters.DefaultInput | backend/app/routes/characters.py:16-35 | a create body with only a name gets age 25, race 인간, an empty concept, 10 in every ability and empty skill and weakness lists; it is valid iff the name is non-empty |
| Characters.StoredData.RequestEntries | backend/app/routes/characters.py:200-211 | the request's fields are stored with each ability score as its own top-level key, and no "ability_scores" key exists |
| Characters.StoredData.CarriedEntries | backend/app/routes/characters.py:212-213 | the status effects and inventory are stored under their own keys |
| Characters.StoredData.ToJson | backend/app/routes/characters.py:200-214 | the stored data is an object whose status effects and inventory read back as given, with no "ability_scores" key |
| Characters.FindUser | backend/app/routes/characters.py:195-197 | finds a user row with the given id, or reports that there is none |
| Characters.GetCharacter | backend/app/routes/characters.py:123-149 | returns the character with that id iff one exists; otherwise 404 |
| Characters.GetUserCharacters | backend/app/routes/characters.py:152-171 | exactly the characters owned by the user |
| Characters.UserCharactersAppend | backend/app/routes/characters.py:163 | filtering a concatenation by owner filters each part and concatenates the results |
| Characters.UserCharactersOne | backend/app/routes/characters.py:163 | a single character is kept iff the user owns it |
| Characters.CreateCharacter | backend/app/routes/characters.py:174-239 | a body that breaks its model gives 422, then a whitespace name gives 400; it succeeds iff the user also exists; one row is appended with a fresh id, the stripped non-empty name, the request's data and empty status effects and inventory |
| Characters.CreateThenGet | backend/app/routes/characters.py:123-239 | with fresh ids, a created character is fetched back unchanged under its new id |
| Characters.CreatedScoresUnread | backend/app/routes/characters.py:200-211 | the ability scores are stored as top-level keys, while the context loader reads "ability_scores", so a character made here plays with 10 in every ability |
| Characters.UpdateCharacter | backend/app/routes/characters.py:242-299 | the errors come in order: 422 for a bad body, 404 for a missing character, 400 for a whitespace name; stored data that is not an object gives 500 with the TypeError text naming its type; otherwise only that row changes, getting the stripped name and new data, and it keeps the old status effects and inventory |
| Characters.UpdateKeepsEffectsAndInventory | backend/app/routes/characters.py:280-284 | the status effects and inventory read the same before and after an update |
| Characters.FindAfterReplace | backend/app/routes/characters.py:258-290 | replacing the found row by one with the same id leaves the lookup at the same row |
| Characters.UpdateIdempotent | backend/app/routes/characters.py:242-299 | updating twice with the same body gives the same result as updating once |
| Characters.DeleteCharacter | backend/app/routes/characters.py:302-325 | succeeds iff the character exists, removing exactly its row; otherwise 404 |
| Characters.DeleteThenGet | backend/app/routes/characters.py:123-325 | with unique ids, a deleted character can no longer be fetched |
| Config.NewConfig | backend/app/config.py:34-40 | a new configuration has no keys, the default model and prompt path, and is not validated |
| Config.GeminiIsNotOpenAi | backend/app/config.py:42-49 | a model name with the gemini/ or google/ prefix is never taken for an OpenAI model |
| Config.ModelFamilyExamples | backend/app/config.py:42-49 | gpt-4o and provider-less names count as OpenAI; google/gemini-pro counts as Gemini and not as OpenAI |
| Config.ModelOf | backend/app/config.py:67-70 | the model is LLM_MODEL when it is set and non-empty, and gpt-4o otherwise; it is never empty |
| Config.KeyErrors | backend/app/config.py:76-92 | at most one key error, and none iff the key for the model's family is set, non-empty and not the example value; Gemini models need GEMINI_API_KEY and all others OPENAI_API_KEY |
| Config.FullPath | backend/app/config.py:97-103 | an absolute prompt path is kept; a relative one is joined textually under the backend directory |
| Config.PromptErrors | backend/app/config.py:105-131 | at most one prompt error, and none iff the path is a readable file holding more than whitespace |
| Config.ErrorMessage | backend/app/config.py:138-140 | the raised message starts with the validation-failed header and lists every error as its own "  - " bullet |
| Config.Validate | backend/app/config.py:51-145 | the model, both keys and the prompt path are read into the object whatever the outcome; validation succeeds iff the key check and the prompt check both pass; the validated flag is set by a success and otherwise keeps its old value; a failure's message starts with the header |
| Config.GetApiKey | backend/app/config.py:152-167 | refused iff not validated; otherwise the Gemini key for Gemini models and the OpenAI key for all others |
| Config.GetConfig | backend/app/config.py:203-217 | the configuration is handed out iff it is validated; otherwise the start-up error |
| Config.GetSystemPromptFullPath | backend/app/config.py:169-179 | an absolute prompt path is returned as it is; a relative one lies under the backend directory |
| Config.ValidatedKeyUsable | backend/app/config.py:51-167 | after a clean validation, get_api_key and get_config succeed, and the key returned is the environment's key for the model's family, set and not the example value |
| Config.FailedRevalidationKeepsFlag | backend/app/config.py:67-74 | a failed re-validation keeps an earlier validated flag while replacing the keys, so get_api_key still answers, with the new, rejected key |
| Config.EmptyEnvironmentFails | backend/app/config.py:66-92 | with an empty environment validation fails, because the default model gpt-4o needs the OpenAI key |
| Text.LStrip | backend/app/socket_server.py:706 | strip removes the leading whitespace and nothing else: the result is a suffix, everything removed is whitespace, and it does not start with whitespace |
| Text.RStrip | backend/app/socket_server.py:706 | strip removes the trailing whitespace and nothing else: the result is a prefix, everything removed is whitespace, and it does not end with whitespace |
| Text.Strip | backend/app/socket_server.py:706 | the stripped text is a middle part of the original with only whitespace cut off before and after it, and it neither starts nor ends with whitespace |
| Text.StripUnique | backend/app/socket_server.py:706 | any middle part with only whitespace around it and no whitespace at its ends is the stripped text, so strip is determined by those properties |
| Text.BlankIffAllSpace | backend/app/socket_server.py:709-711 | a text strips to nothing exactly when it consists of whitespace only |
| Text.Find | backend/app/services/ai_nodes/judgment_node.py:275 | find gives the first position of the character, or -1 exactly when it is absent |
| Text.RFind | backend/app/services/ai_nodes/judgment_node.py:276 | rfind gives the last position of the character, or -1 exactly when it is absent |
| Text.ReplaceAbsent | backend/app/services/ai_nodes/judgment_node.py:272 | replacing a pattern that does not occur leaves the text unchanged |
| Text.ConcatAppend | backend/app/services/stream_buffer.py:142-149 | joining the tokens of two lists equals joining each list and concatenating the two results |
| Text.ConcatLength | backend/app/services/stream_buffer.py:142-149 | the joined text is exactly as long as its tokens together |
| Text.ContainsRight | backend/app/config.py:138-140 | a text occurring in the second part of a concatenation occurs in the whole |
| Text.JoinContains | backend/app/config.py:138-140 | every part of a joined list occurs in the joined text |
| Text.NatToString | backend/app/routes/sessions.py:175 | str(n) of a natural number is a non-empty string of decimal digits |
| Text.IntToStringParses | backend/app/schemas.py:169-181 | int(str(n)) == n for every integer n |
| Json.Get | backend/app/routes/characters.py:282-283 | dict.get finds nothing exactly when no entry has the key; otherwise it returns a value stored under the key |
| Json.GetAfterPrefix | backend/app/routes/characters.py:200-214 | in a dict literal, a key set by the later entries wins over the earlier ones |
| Sorting.Insert | backend/app/socket_server.py:1554 | inserting into a sorted list keeps it sorted and adds exactly the new element |
| Sorting.SortBy | backend/app/socket_server.py:1554 | sorted by a key yields an ordered permutation of its input |
| Sorting.SortStable | backend/app/socket_server.py:1554 | the sort is stable: elements with equal keys keep their input order |
| Sorting.SortSortedIdentity | backend/app/socket_server.py:1554 | sorting an already ordered list changes nothing |

## Left out

- **Transport and presence.** Socket emits and room handling are not modelled: joining, leaving and closing rooms, connect and disconnect, chat broadcasting, the heartbeat and `_presence_monitor`, `next_judgment`, `request_narrative_stream` and `trigger_story_generation`. They are I/O and wall-clock driven.
- **commit_actions after the USER story log.** The AI workflow it then starts, and `trigger_story_generation_internal`, are not modelled. The judgment and narration steps they call are modelled in their own modules.
- **narrative_node.py.** It reads character fields that `CharacterSheet` does not define. `generate_narrative_streaming` is imported from it but not defined there, so narration is a parameter.
- **Background tasks.** The background task manager, asyncio locks and the buffer clean-up loop are not modelled. Buffer ages are integer inputs.
- **Database failures.** Commit failures, rollbacks and the resulting 500 responses are not modelled, and neither is foreign-key enforcement. A route that raises before committing returns the database unchanged.
- **SQL result order.** `ORDER BY created_at` leaves ties open; the model breaks them in table order.
- **Request bodies.** A body that breaks its pydantic model is a single 422 with a fixed text. Type coercion and the per-field error details are not modelled.
- **Floats.** JSON values carry no floats. A numeric DC or modifier is an integer.
- **Timestamps.** Times are integers. Their ISO and KST rendering and `datetime.utcnow()` are not modelled.
- **Case conversion.** The action-type name is lower-cased for ASCII letters only.
- **File system and backups.** `config.validate` reads the prompt file through a path-to-contents function. Paths are POSIX paths, and a relative prompt path is joined textually: `.` and `..` segments and repeated slashes are kept as written, where `pathlib` would drop `.` segments and extra slashes. `backup_session` and the backups utility are not modelled.
- **Logging and statistics.** Logging, `get_participants`, the buffers' `get_stats` and the manager's `get_stats` are not modelled.
- **Outside the core.** `routes/auth.py`, `utils/timezone.py`, `utils/prompt_loader.py`, `database.py`, the migrations, `main.py` and the scripts are not part of this model.
- JudgmentNode.ReasoningText: a non-string `reasoning` value in the judge's reply becomes an empty text, where Python would store the value as it is.
- SocketServer.EditAction: all entries sharing an id are edited, where the source stops at the first. Such entries only arise from a reorder that lists an id twice, and they are then one shared Python dict.
- SocketServer.RollDice: the payloads' echoed session and character ids and the log lines are not modelled.
- Sessions.DeleteSession: judgments of the deleted session stay in their table, as they do in the source.
- GmDelivery.StreamNarrative: a buffer that never completes keeps the source's loop polling forever; the model takes the observed passes as input and requires some pass to see the buffer complete.
- ContextLoader.IntField: surrounding whitespace, underscores, and float-valued forms such as "14.0" or 14.0, which pydantic's lax mode may also accept, are not modelled; they fail validation here.
- JudgmentNode.AnalyzeAndJudge: the judge is sent the five newest history entries, the corrected selection described under Findings, not the source's `story_history[-5:]`.
- SocketServer.WithoutId: removal of a single entry is stated through the filter's laws for concatenation and single entries rather than as a positional lemma.
- Sessions.CreateSession: the 422 for an empty title or world prompt reflects the request model's `min_length=1` on both fields (`routes/sessions.py`, lines 23-24).

## Behaviour kept as written

- Characters and the context loader disagree on the data layout. `create_character` and `update_character` store ability scores as top-level keys. The context loader reads them from `ability_scores`, so every such character plays with 10 in every ability (`Characters.CreatedScoresUnread`).
- `validate` assigns the model, keys and prompt path before raising. A failed re-validation therefore keeps an earlier validated flag, together with the new, rejected keys (`Config.FailedRevalidationKeepsFlag`).
- `confirm_dice_roll` commits phase 2 before it builds the dice result. A result that fails validation reports an error, yet the row has already moved to phase 2 (`GmNarration.ConfirmDiceRoll`).
- `validate_chat_message` measures the length before stripping. Its separate whitespace-only message can never be produced (`SocketServer.ValidateChatMessage`, `SocketServer.LengthCountsWhitespace`).

## Findings

| source | as written | input that shows it | evidently intended | confidence | as-written member | corrected member |
|---|---|---|---|---|---|---|
| backend/app/services/ai_nodes/judgment_node.py:186-187 | `story_history[-5:]` is applied to a history that the context loader returns newest first, so the judge sees the five oldest of the entries it was given | ten history entries numbered 9 (newest) down to 0: the judge is shown 4, 3, 2, 1, 0 and never 9 | the five newest entries, 9 down to 5 | not executed | JudgmentNode.RecentHistory (with JudgmentNode.RecentHistoryCounterexample and JudgmentNode.RecentHistoryMissesNewest) | JudgmentNode.NewestHistory, used by JudgmentNode.AnalyzeAndJudge |
| backend/app/services/ai_gm_service_v2.py:571-593 | each pass yields the tokens read by `get_tokens`, then stops as soon as `is_complete` is true, and saves `get_full_text()`; tokens the producer adds between the read and the completeness check are saved but never streamed | one pass reads ["a"]; the producer then appends "b" and completes the buffer; the check sees it complete, so the client receives "a" while "ab" is saved | the client receives exactly the narrative that is saved | not executed | GmDelivery.StreamNarrative (with GmDelivery.LateTokensNotStreamed) | GmDelivery.StreamNarrativeDrained |
| backend/app/socket_server.py:1000-1038 | the result returned by `confirm_dice_roll` is assigned and never read; the broadcast re-reads the character's newest phase-2 row by descending id | a character with pre-rolled rows 5 (die 3) and 7 (die 17): the first roll confirms row 7 and shows 17; the second confirms row 5 with die 3, but the broadcast again shows row 7 and die 17 | the row just confirmed is broadcast | not executed | SocketServer.RollDice (with SocketServer.SecondRollReportsOtherRow) | SocketServer.RollDiceConfirmed |

=== FILE: characters.dfy ===
/**
 * The character routes of `backend/app/routes/characters.py`. A request is
 * first checked against its pydantic model (422), then by the route itself;
 * the stored `data` is a JSON object whose ability scores are top-level keys.
 */
module Characters {
  import opened Common
  import opened Json
  import opened Models
  import Text
  import Schemas
  import ContextLoader

  const NameRequired := "Name is required and cannot be empty"
  const DefaultAge := 25
  const DefaultRace := "인간"
  const DefaultScore := 10

  /** `character.data.get(...)` on data that is not an object raises inside the update's `try`. */
  function DataNotObject(data: Json): string {
    "Failed to update character: '" + TypeName(data) + "' object has no attribute 'get'"
  }

  /** The body of a create or update request, after pydantic has filled in defaults. */
  datatype CharacterInput = CharacterInput(
    name: string,
    age: int,
    race: string,
    concept: string,
    abilities: Schemas.Abilities,
    skills: seq<seq<(string, Json)>>,
    weaknesses: seq<string>)
  {
    /** The field constraints: a non-empty name, age at least 1, every score in [1, 30]. */
    predicate Valid() {
      |name| >= 1 && age >= 1 && abilities.Valid()
    }
  }

  /** A create request that sends only the name: every other field takes its declared default. */
  function DefaultInput(name: string): (r: CharacterInput)
    ensures r.name == name && r.age == DefaultAge && r.race == DefaultRace && r.concept == ""
    ensures r.abilities == Schemas.Abilities(DefaultScore, DefaultScore, DefaultScore, DefaultScore, DefaultScore, DefaultScore)
    ensures r.skills == [] && r.weaknesses == []
    ensures |name| >= 1 <==> r.Valid()
  {
    CharacterInput(name, DefaultAge, DefaultRace, "",
                   Schemas.Abilities(DefaultScore, DefaultScore, DefaultScore, DefaultScore, DefaultScore, DefaultScore),
                   [], [])
  }

  function SkillValues(skills: seq<seq<(string, Json)>>): (r: seq<Json>)
    ensures |r| == |skills| && forall i :: 0 <= i < |r| ==> r[i] == JObj(skills[i])
  {
    seq(|skills|, i requires 0 <= i < |skills| => JObj(skills[i]))
  }

  function StringValues(xs: seq<string>): (r: seq<Json>)
    ensures |r| == |xs| && forall i :: 0 <= i < |r| ==> r[i] == JStr(xs[i])
  {
    seq(|xs|, i requires 0 <= i < |xs| => JStr(xs[i]))
  }

  /** What the routes write into `Character.data`, before it becomes a JSON object. */
  datatype StoredData = StoredData(input: CharacterInput, statusEffects: Json, inventory: Json)
  {
    /** The request's own fields, with each ability score under its own top-level key. */
    function RequestEntries(): (r: seq<(string, Json)>)
      ensures Get(r, "ability_scores").None?
      ensures Get(r, "status_effects").None? && Get(r, "inventory").None?
    {
      var a := input.abilities;
      [("age", JInt(input.age)),
       ("race", JStr(input.race)),
       ("concept", JStr(input.concept)),
       ("strength", JInt(a.strength)),
       ("dexterity", JInt(a.dexterity)),
       ("constitution", JInt(a.constitution)),
       ("intelligence", JInt(a.intelligence)),
       ("wisdom", JInt(a.wisdom)),
       ("charisma", JInt(a.charisma)),
       ("skills", JArr(SkillValues(input.skills))),
       ("weaknesses", JArr(StringValues(input.weaknesses)))]
    }

    /** The two lists carried over from earlier data. */
    function CarriedEntries(): (r: seq<(string, Json)>)
      ensures Get(r, "status_effects") == Some(statusEffects)
      ensures Get(r, "inventory") == Some(inventory)
      ensures Get(r, "ability_scores").None?
    {
      [("status_effects", statusEffects), ("inventory", inventory)]
    }

    /** The JSON object: the request's fields, then the two carried lists. */
    function ToJson(): (j: Json)
      ensures j.JObj?
      ensures Get(j.entries, "status_effects") == Some(statusEffects)
      ensures Get(j.entries, "inventory") == Some(inventory)
      ensures Get(j.entries, "ability_scores").None?
    {
      var carried := CarriedEntries();
      GetAfterPrefix(RequestEntries(), carried, "status_effects");
      GetAfterPrefix(RequestEntries(), carried, "inventory");
      GetAfterPrefix(RequestEntries(), carried, "ability_scores");
      JObj(RequestEntries() + carried)
    }
  }

  /** The first user row with this id. */
  function FindUser(users: seq<User>, id: int): (r: Option<nat>)
    ensures r.Some? ==> r.value < |users| && users[r.value].id == id
    ensures r.None? <==> forall k :: 0 <= k < |users| ==> users[k].id != id
  {
    if |users| == 0 then None
    else if users[0].id == id then Some(0)
    else
      match FindUser(users[1..], id)
      case None => None
      case Some(k) => Some(k + 1)
  }

  function NotFound(characterId: int): HttpError {
    HttpError(404, "Character with id " + Text.IntToString(characterId) + " not found")
  }

  /** `get_character`. */
  function GetCharacter(db: Db, characterId: int): (r: Result<Character, HttpError>)
    ensures r.Ok? <==> FindCharacter(db.characters, characterId).Some?
    ensures r.Ok? ==> r.value.id == characterId && r.value in db.characters
    ensures r.Err? ==> r.error.status == 404
  {
    match FindCharacter(db.characters, characterId)
    case None => Err(NotFound(characterId))
    case Some(k) => Ok(db.characters[k])
  }

  /** `get_user_characters`: the user's characters in table order. */
  function GetUserCharacters(chars: seq<Character>, userId: int): (r: seq<Character>)
    ensures |r| <= |chars|
    ensures forall c :: c in r <==> c in chars && c.userId == userId
  {
    if |chars| == 0 then []
    else (if chars[0].userId == userId then [chars[0]] else []) + GetUserCharacters(chars[1..], userId)
  }

  /** The listing distributes over concatenation, so the user's rows come out in table order, each once. */
  lemma {:induction false} UserCharactersAppend(a: seq<Character>, b: seq<Character>, userId: int)
    ensures GetUserCharacters(a + b, userId) == GetUserCharacters(a, userId) + GetUserCharacters(b, userId)
    decreases |a|
  {
    if |a| == 0 {
      assert a + b == b;
    } else {
      assert (a + b)[1..] == a[1..] + b;
      UserCharactersAppend(a[1..], b, userId);
    }
  }

  /** One row is listed exactly when it belongs to the user. */
  lemma UserCharactersOne(c: Character, userId: int)
    ensures GetUserCharacters([c], userId) == if c.userId == userId then [c] else []
  {
  }

  /**
   * `create_character`: 422 for a body that breaks its model, 400 for a
   * whitespace name, 404 for an unknown user; otherwise a new row with the
   * stripped name and empty status effects and inventory.
   */
  function CreateCharacter(db: Db, userId: int, input: CharacterInput, now: int): (r: Result<(Db, Character), HttpError>)
    ensures !input.Valid() ==> r.Err? && r.error.status == 422
    ensures input.Valid() && Text.IsBlank(input.name) ==> r == Err(HttpError(400, NameRequired))
    ensures r.Ok? <==> input.Valid() && !Text.IsBlank(input.name) && FindUser(db.users, userId).Some?
    ensures r.Ok? ==>
              var c := r.value.1;
              && r.value.0 == db.(characters := db.characters + [c], nextId := db.nextId + 1)
              && c.id == db.nextId && c.userId == userId && c.createdAt == now
              && c.name == Text.Strip(input.name) && c.name != []
              && c.data == StoredData(input, JArr([]), JArr([])).ToJson()
  {
    if !input.Valid() then Err(HttpError(422, RequestInvalid))
    else if Text.IsBlank(input.name) then Err(HttpError(400, NameRequired))
    else if FindUser(db.users, userId).None? then
      Err(HttpError(404, "User with id " + Text.IntToString(userId) + " not found"))
    else
      var c := Character(db.nextId, userId, Text.Strip(input.name), StoredData(input, JArr([]), JArr([])).ToJson(), now);
      Ok((db.(characters := db.characters + [c], nextId := db.nextId + 1), c))
  }

  /** A row appended with an id no earlier row has is found at the end. */
  lemma FindAfterAppend(chars: seq<Character>, c: Character)
    requires forall k :: 0 <= k < |chars| ==> chars[k].id < c.id
    ensures FindCharacter(chars + [c], c.id) == Some(|chars|)
  {
    assert (chars + [c])[|chars|] == c;
    assert forall k :: 0 <= k < |chars| ==> (chars + [c])[k] == chars[k];
  }

  /** A created character is found again under its new id, provided ids were fresh. */
  lemma CreateThenGet(db: Db, userId: int, input: CharacterInput, now: int)
    requires forall k :: 0 <= k < |db.characters| ==> db.characters[k].id < db.nextId
    requires CreateCharacter(db, userId, input, now).Ok?
    ensures var (db', c) := CreateCharacter(db, userId, input, now).value;
            GetCharacter(db', c.id) == Ok(c)
  {
    var (db', c) := CreateCharacter(db, userId, input, now).value;
    FindAfterAppend(db.characters, c);
  }

  /**
   * The stored abilities are top-level keys, while the game context reads
   * them from `ability_scores`: whatever scores were entered, a character
   * made here plays with 10 in every ability.
   */
  lemma CreatedScoresUnread(db: Db, userId: int, input: CharacterInput, now: int, sheet: Schemas.CharacterSheet)
    ensures CreateCharacter(db, userId, input, now).Ok?
            && ContextLoader.CharacterToSheet(CreateCharacter(db, userId, input, now).value.1) == Ok(sheet)
            ==> sheet.abilities == Schemas.DefaultAbilities
  {
    if CreateCharacter(db, userId, input, now).Ok? {
      var c := CreateCharacter(db, userId, input, now).value.1;
      if ContextLoader.CharacterToSheet(c) == Ok(sheet) {
        ContextLoader.TopLevelAbilitiesIgnored(c, sheet);
      }
    }
  }

  /**
   * `update_character`: 422 for a body that breaks its model, 404 for a
   * missing character, 400 for a whitespace name; otherwise the name and
   * every data field are replaced except the status effects and inventory,
   * which are carried over.
   */
  function UpdateCharacter(db: Db, characterId: int, input: CharacterInput): (r: Result<(Db, Character), HttpError>)
    ensures !input.Valid() ==> r.Err? && r.error.status == 422
    ensures input.Valid() && FindCharacter(db.characters, characterId).None? ==> r == Err(NotFound(characterId))
    ensures input.Valid() && FindCharacter(db.characters, characterId).Some? && Text.IsBlank(input.name)
            ==> r == Err(HttpError(400, NameRequired))
    ensures r.Ok? <==> && input.Valid() && FindCharacter(db.characters, characterId).Some? && !Text.IsBlank(input.name)
                       && db.characters[FindCharacter(db.characters, characterId).value].data.JObj?
    ensures input.Valid() && FindCharacter(db.characters, characterId).Some? && !Text.IsBlank(input.name)
            && !db.characters[FindCharacter(db.characters, characterId).value].data.JObj? ==>
              r == Err(HttpError(500, DataNotObject(db.characters[FindCharacter(db.characters, characterId).value].data)))
    ensures r.Ok? ==>
              var k := FindCharacter(db.characters, characterId).value;
              var before := db.characters[k];
              var c := r.value.1;
              && r.value.0 == db.(characters := db.characters[k := c])
              && c.id == before.id && c.userId == before.userId && c.createdAt == before.createdAt
              && c.name == Text.Strip(input.name)
              && c.data == StoredData(input, GetOr(before.data.entries, "status_effects", JArr([])),
                                             GetOr(before.data.entries, "inventory", JArr([]))).ToJson()
  {
    if !input.Valid() then Err(HttpError(422, RequestInvalid))
    else
      match FindCharacter(db.characters, characterId)
      case None => Err(NotFound(characterId))
      case Some(k) =>
        if Text.IsBlank(input.name) then Err(HttpError(400, NameRequired))
        else
          var before := db.characters[k];
          match before.data
          case JObj(entries) =>
            var effects := GetOr(entries, "status_effects", JArr([]));
            var inventory := GetOr(entries, "inventory", JArr([]));
            var c := before.(name := Text.Strip(input.name), data := StoredData(input, effects, inventory).ToJson());
            Ok((db.(characters := db.characters[k := c]), c))
          case _ => Err(HttpError(500, DataNotObject(before.data)))
  }

  /**
   * An update never loses what the game wrote into a character: status
   * effects and inventory read the same before and after (an absent list
   * reads as an empty one afterwards).
   */
  lemma UpdateKeepsEffectsAndInventory(db: Db, characterId: int, input: CharacterInput)
    ensures UpdateCharacter(db, characterId, input).Ok? ==>
            var before := db.characters[FindCharacter(db.characters, characterId).value];
            var c := UpdateCharacter(db, characterId, input).value.1;
            && GetOr(c.data.entries, "status_effects", JArr([])) == GetOr(before.data.entries, "status_effects", JArr([]))
            && GetOr(c.data.entries, "inventory", JArr([])) == GetOr(before.data.entries, "inventory", JArr([]))
  {
  }

  /** Replacing the row a lookup found by one with the same id leaves the lookup where it was. */
  lemma FindAfterReplace(chars: seq<Character>, k: nat, c: Character)
    requires FindCharacter(chars, c.id) == Some(k)
    ensures FindCharacter(chars[k := c], c.id) == Some(k)
  {
    var r := FindCharacter(chars[k := c], c.id);
    assert chars[k := c][k].id == c.id;
    assert r.Some?;
    assert forall j :: 0 <= j < k ==> chars[k := c][j] == chars[j];
  }

  /** Updating twice with the same body is the same as updating once. */
  lemma UpdateIdempotent(db: Db, characterId: int, input: CharacterInput)
    ensures UpdateCharacter(db, characterId, input).Ok? ==>
            var (db1, c1) := UpdateCharacter(db, characterId, input).value;
            UpdateCharacter(db1, characterId, input) == Ok((db1, c1))
  {
    if UpdateCharacter(db, characterId, input).Ok? {
      var (db1, c1) := UpdateCharacter(db, characterId, input).value;
      var k := FindCharacter(db.characters, characterId).value;
      assert db1.characters == db.characters[k := c1] && c1.id == characterId;
      FindAfterReplace(db.characters, k, c1);
      UpdateKeepsEffectsAndInventory(db, characterId, input);
      UpdateFixedPoint(db1, k, c1, input);
    }
  }

  /** A row that already holds what an update would write is left as it is. */
  lemma UpdateFixedPoint(db: Db, k: nat, c: Character, input: CharacterInput)
    requires FindCharacter(db.characters, c.id) == Some(k) && db.characters[k] == c
    requires input.Valid() && !Text.IsBlank(input.name) && c.name == Text.Strip(input.name) && c.data.JObj?
    requires c.data == StoredData(input, GetOr(c.data.entries, "status_effects", JArr([])),
                                         GetOr(c.data.entries, "inventory", JArr([]))).ToJson()
    ensures UpdateCharacter(db, c.id, input) == Ok((db, c))
  {
    var written := c.(name := Text.Strip(input.name),
                      data := StoredData(input, GetOr(c.data.entries, "status_effects", JArr([])),
                                                GetOr(c.data.entries, "inventory", JArr([]))).ToJson());
    assert written == c;
    assert db.characters[k := c] == db.characters;
  }

  /** `delete_character`: 404 for a missing character, otherwise its row goes. */
  function DeleteCharacter(db: Db, characterId: int): (r: Result<Db, HttpError>)
    ensures r.Ok? <==> FindCharacter(db.characters, characterId).Some?
    ensures r.Err? ==> r == Err(NotFound(characterId))
    ensures r.Ok? ==> var k := FindCharacter(db.characters, characterId).value;
                      r.value == db.(characters := db.characters[..k] + db.characters[k + 1..])
  {
    match FindCharacter(db.characters, characterId)
    case None => Err(NotFound(characterId))
    case Some(k) => Ok(db.(characters := db.characters[..k] + db.characters[k + 1..]))
  }

  /** With unique ids, a deleted character can no longer be fetched. */
  lemma DeleteThenGet(db: Db, characterId: int)
    requires forall i, j :: 0 <= i < j < |db.characters| ==> db.characters[i].id != db.characters[j].id
    requires DeleteCharacter(db, characterId).Ok?
    ensures GetCharacter(DeleteCharacter(db, characterId).value, characterId).Err?
  {
    var k := FindCharacter(db.characters, characterId).value;
    var rest := DeleteCharacter(db, characterId).value.characters;
    assert forall i :: 0 <= i < |rest| ==> rest[i] == (if i < k then db.characters[i] else db.characters[i + 1]);
  }
}

=== FILE: common.dfy ===
/** Option and Result values shared by every module of the model. */
module Common {

  /** A value that may be absent (Python's `None`). */
  datatype Option<+T> = None | Some(value: T) {
    function GetOr(default: T): T {
      match this
      case Some(v) => v
      case None => default
    }
  }

  /** The outcome of an operation that may raise: `Err` carries what was raised. */
  datatype Result<+T, +E> = Ok(value: T) | Err(error: E) {
    function GetOr(default: T): T {
      match this
      case Ok(v) => v
      case Err(_) => default
    }
  }

  /** An `HTTPException` raised by a route: its status code and detail text. */
  datatype HttpError = HttpError(status: int, detail: string)

  /** The detail of the 422 raised when a request body breaks its pydantic model. */
  const RequestInvalid := "Request body does not match the model"
}

=== FILE: config.dfy ===
/**
 * Start-up configuration of `backend/app/config.py`. The environment is a
 * map from variable names to values, and the file system is a function from
 * a resolved path to what reading that path yields. `validate` collects every
 * problem and raises them together; the object's fields are assigned before
 * the raise, so they change even when it fails.
 */
module Config {
  import opened Common
  import Text

  const DefaultModel := "gpt-4o"
  const DefaultPromptPath := "app/prompts/system_prompt.md"
  const OpenAiPlaceholder := "your_openai_api_key_here"
  const GeminiPlaceholder := "your_google_api_key_here"
  const FailureHeader := "AI GM Configuration validation failed:\n"
  const NotValidated := "Configuration has not been validated. Call validate() first."
  const GlobalNotValidated := "AI GM configuration has not been validated. Call validate_ai_gm_config() during application startup."

  const GeminiKeyMissing := "GEMINI_API_KEY environment variable is not set.\n  This is required for Gemini model: "
  const GeminiKeyPlaceholder := "GEMINI_API_KEY is set to placeholder value.\n  Please provide a valid Google API key"
  const OpenAiKeyMissing := "OPENAI_API_KEY environment variable is not set.\n  This is required for model: "
  const OpenAiKeyPlaceholder := "OPENAI_API_KEY is set to placeholder value.\n  Please provide a valid OpenAI API key"

  /** Model-name prefixes that mark an OpenAI model. */
  const OpenAiPrefixes: seq<string> := ["gpt-", "o1-", "o3-", "text-", "davinci", "curie", "babbage", "ada"]

  /** The process environment. */
  type Env = map<string, string>

  /** What reading the prompt path yields. */
  datatype PromptFile =
    | Absent
    | NotAFile
    | Contents(text: string)
    | BadEncoding(detail: string)
    | PermissionDenied(detail: string)
    | ReadFailure(detail: string)

  /** The fields of an `AIGMConfig` object. */
  datatype Config = Config(
    openAiKey: Option<string>,
    geminiKey: Option<string>,
    promptPath: string,
    llmModel: string,
    validated: bool)

  /** `AIGMConfig()`: no keys, default path and model, not validated. */
  function NewConfig(): (c: Config)
    ensures !c.validated && c.openAiKey.None? && c.geminiKey.None?
    ensures c.llmModel == DefaultModel && c.promptPath == DefaultPromptPath
  {
    Config(None, None, DefaultPromptPath, DefaultModel, false)
  }

  /** `os.getenv(name)`. */
  function Lookup(env: Env, name: string): (r: Option<string>)
    ensures r.Some? <==> name in env
    ensures r.Some? ==> r.value == env[name]
  {
    if name in env then Some(env[name]) else None
  }

  /** `os.getenv(name, default)`: a variable set to the empty string is returned as such. */
  function GetEnv(env: Env, name: string, default: string): (r: string)
    ensures name in env ==> r == env[name]
    ensures name !in env ==> r == default
  {
    Lookup(env, name).GetOr(default)
  }

  /** `_is_openai_model`: a listed prefix, or no provider segment at all. */
  predicate IsOpenAiModel(model: string) {
    (exists i :: 0 <= i < |OpenAiPrefixes| && Text.StartsWith(model, OpenAiPrefixes[i])) || '/' !in model
  }

  /** `_is_gemini_model`. */
  predicate IsGeminiModel(model: string) {
    Text.StartsWith(model, "gemini/") || Text.StartsWith(model, "google/")
  }

  /** A Gemini model name is never taken for an OpenAI one. */
  lemma GeminiIsNotOpenAi(model: string)
    requires IsGeminiModel(model)
    ensures !IsOpenAiModel(model)
  {
    assert model[6] == '/';
    assert model[0] == 'g' && (model[1] == 'e' || model[1] == 'o');
  }

  /** Sample model names: provider-less names count as OpenAI, provider-prefixed Gemini names do not. */
  lemma ModelFamilyExamples()
    ensures IsOpenAiModel("gpt-4o") && !IsGeminiModel("gpt-4o")
    ensures IsOpenAiModel("some-local-model")
    ensures IsGeminiModel("google/gemini-pro") && !IsOpenAiModel("google/gemini-pro")
  {
    assert "gpt-4o"[..4] == OpenAiPrefixes[0];
    GeminiIsNotOpenAi("google/gemini-pro");
  }

  /** `LLM_MODEL`, falling back to the default when it is unset or empty. */
  function ModelOf(env: Env): (r: string)
    ensures r != []
    ensures "LLM_MODEL" in env && env["LLM_MODEL"] != [] ==> r == env["LLM_MODEL"]
    ensures "LLM_MODEL" !in env || env["LLM_MODEL"] == [] ==> r == DefaultModel
  {
    var model := GetEnv(env, "LLM_MODEL", DefaultModel);
    if model == [] then DefaultModel else model
  }

  /** A usable key: set, non-empty and not the example value. */
  predicate KeyUsable(key: Option<string>, placeholder: string) {
    key.Some? && key.value != [] && key.value != placeholder
  }

  /** The key check: Gemini models need the Gemini key and every other model the OpenAI key. */
  function KeyErrors(model: string, openAiKey: Option<string>, geminiKey: Option<string>): (r: seq<string>)
    ensures |r| <= 1
    ensures r == [] <==> if IsGeminiModel(model) then KeyUsable(geminiKey, GeminiPlaceholder)
                         else KeyUsable(openAiKey, OpenAiPlaceholder)
  {
    if IsGeminiModel(model) then
      if geminiKey.None? || geminiKey.value == [] then [GeminiKeyMissing + model]
      else if geminiKey.value == GeminiPlaceholder then [GeminiKeyPlaceholder]
      else []
    else if openAiKey.None? || openAiKey.value == [] then [OpenAiKeyMissing + model]
    else if openAiKey.value == OpenAiPlaceholder then [OpenAiKeyPlaceholder]
    else []
  }

  /** A POSIX absolute path. */
  predicate IsAbsolute(path: string) {
    |path| > 0 && path[0] == '/'
  }

  /**
   * A relative prompt path is taken relative to the backend directory. The
   * join is textual: `.` and `..` segments and repeated separators are kept
   * as written, where `pathlib` would drop `.` segments and extra slashes.
   */
  function FullPath(path: string, backendDir: string): (r: string)
    ensures IsAbsolute(path) ==> r == path
    ensures !IsAbsolute(path) ==> r == backendDir + "/" + path
  {
    if IsAbsolute(path) then path else backendDir + "/" + path
  }

  /** The message for a prompt file that cannot be used. */
  function PromptProblem(fullPath: string, path: string, file: PromptFile): string {
    match file
    case Absent =>
      "System prompt file not found at: " + fullPath + "\n  SYSTEM_PROMPT_PATH=" + path
      + "\n  Please create the system prompt markdown file at the specified path"
    case NotAFile => "System prompt path exists but is not a file: " + fullPath
    case Contents(_) =>
      "System prompt file is empty: " + fullPath + "\n  The system prompt file must contain TRPG rules and guidelines"
    case BadEncoding(detail) =>
      "System prompt file has invalid encoding at " + fullPath + "\n  Please ensure the file is UTF-8 encoded: " + detail
    case PermissionDenied(detail) => "Cannot read system prompt file (permission denied) at " + fullPath + ": " + detail
    case ReadFailure(detail) => "Cannot read system prompt file at " + fullPath + ": " + detail
  }

  /** The prompt-file check: it must exist, be a file, decode, be readable and hold more than whitespace. */
  function PromptErrors(fullPath: string, path: string, file: PromptFile): (r: seq<string>)
    ensures |r| <= 1
    ensures r == [] <==> file.Contents? && !Text.IsBlank(file.text)
  {
    if file.Contents? && !Text.IsBlank(file.text) then [] else [PromptProblem(fullPath, path, file)]
  }

  /** Every collected error on its own bulleted line under one header. */
  function ErrorMessage(errors: seq<string>): (r: string)
    ensures Text.StartsWith(r, FailureHeader)
    ensures forall i :: 0 <= i < |errors| ==> Text.Contains(r, "  - " + errors[i])
  {
    var bullets := seq(|errors|, i requires 0 <= i < |errors| => "  - " + errors[i]);
    var body := Text.Join(bullets, "\n");
    assert forall i :: 0 <= i < |errors| ==> Text.Contains(FailureHeader + body, "  - " + errors[i]) by {
      forall i | 0 <= i < |errors| ensures Text.Contains(FailureHeader + body, "  - " + errors[i]) {
        Text.JoinContains(bullets, "\n", i);
        Text.ContainsRight(FailureHeader, body, bullets[i]);
      }
    }
    FailureHeader + body
  }

  /**
   * `validate`: reads the model, both keys and the prompt path into the
   * object, then raises one error listing every problem; only a clean run
   * sets the validated flag, and a failed run leaves the flag as it was.
   */
  function Validate(cfg: Config, env: Env, fs: string -> PromptFile, backendDir: string): (r: (Config, Result<(), string>))
    ensures r.0.llmModel == ModelOf(env)
    ensures r.0.openAiKey == Lookup(env, "OPENAI_API_KEY") && r.0.geminiKey == Lookup(env, "GEMINI_API_KEY")
    ensures r.0.promptPath == GetEnv(env, "SYSTEM_PROMPT_PATH", DefaultPromptPath)
    ensures r.1.Ok? <==>
              && (if IsGeminiModel(ModelOf(env)) then KeyUsable(Lookup(env, "GEMINI_API_KEY"), GeminiPlaceholder)
                  else KeyUsable(Lookup(env, "OPENAI_API_KEY"), OpenAiPlaceholder))
              && var file := fs(FullPath(r.0.promptPath, backendDir));
                 file.Contents? && !Text.IsBlank(file.text)
    ensures r.0.validated <==> r.1.Ok? || cfg.validated
    ensures r.1.Err? ==> Text.StartsWith(r.1.error, FailureHeader)
  {
    var model := ModelOf(env);
    var openAiKey := Lookup(env, "OPENAI_API_KEY");
    var geminiKey := Lookup(env, "GEMINI_API_KEY");
    var path := GetEnv(env, "SYSTEM_PROMPT_PATH", DefaultPromptPath);
    var fullPath := FullPath(path, backendDir);
    var errors := KeyErrors(model, openAiKey, geminiKey) + PromptErrors(fullPath, path, fs(fullPath));
    var ok := errors == [];
    (Config(openAiKey, geminiKey, path, model, ok || cfg.validated),
     if ok then Ok(()) else Err(ErrorMessage(errors)))
  }

  /** `get_api_key`: refused before validation, then the key of the model's family (possibly unset). */
  function GetApiKey(cfg: Config): (r: Result<Option<string>, string>)
    ensures r.Err? <==> !cfg.validated
    ensures r.Err? ==> r.error == NotValidated
    ensures r.Ok? && IsGeminiModel(cfg.llmModel) ==> r.value == cfg.geminiKey
    ensures r.Ok? && !IsGeminiModel(cfg.llmModel) ==> r.value == cfg.openAiKey
  {
    if !cfg.validated then Err(NotValidated)
    else if IsGeminiModel(cfg.llmModel) then Ok(cfg.geminiKey)
    else Ok(cfg.openAiKey)
  }

  /** `get_config`: the object, once validated. */
  function GetConfig(cfg: Config): (r: Result<Config, string>)
    ensures r.Ok? <==> cfg.validated
    ensures r.Ok? ==> r.value == cfg
    ensures r.Err? ==> r.error == GlobalNotValidated
  {
    if cfg.validated then Ok(cfg) else Err(GlobalNotValidated)
  }

  /** `get_system_prompt_full_path`. */
  function GetSystemPromptFullPath(cfg: Config, backendDir: string): (r: string)
    ensures IsAbsolute(cfg.promptPath) ==> r == cfg.promptPath
    ensures !IsAbsolute(cfg.promptPath) ==> Text.StartsWith(r, backendDir)
  {
    FullPath(cfg.promptPath, backendDir)
  }

  /**
   * After a clean validation the API key handed out is the environment's key
   * for the model's family, set and not the placeholder.
   */
  lemma ValidatedKeyUsable(cfg: Config, env: Env, fs: string -> PromptFile, backendDir: string)
    ensures Validate(cfg, env, fs, backendDir).1.Ok? ==>
            var c := Validate(cfg, env, fs, backendDir).0;
            && GetApiKey(c).Ok?
            && (if IsGeminiModel(c.llmModel)
                then GetApiKey(c).value == Some(env["GEMINI_API_KEY"]) && KeyUsable(GetApiKey(c).value, GeminiPlaceholder)
                else GetApiKey(c).value == Some(env["OPENAI_API_KEY"]) && KeyUsable(GetApiKey(c).value, OpenAiPlaceholder))
            && GetConfig(c) == Ok(c)
  {
  }

  /**
   * A failed re-validation keeps an earlier validated flag while replacing
   * the keys, so `get_api_key` keeps answering, with the new, rejected key.
   */
  lemma FailedRevalidationKeepsFlag(cfg: Config, env: Env, fs: string -> PromptFile, backendDir: string)
    requires cfg.validated
    requires Validate(cfg, env, fs, backendDir).1.Err?
    ensures var c := Validate(cfg, env, fs, backendDir).0;
            && GetApiKey(c).Ok?
            && GetApiKey(c).value == (if IsGeminiModel(c.llmModel) then Lookup(env, "GEMINI_API_KEY") else Lookup(env, "OPENAI_API_KEY"))
  {
  }

  /** With nothing in the environment the key check fails: the default model needs the OpenAI key. */
  lemma EmptyEnvironmentFails(cfg: Config, fs: string -> PromptFile, backendDir: string)
    ensures Validate(cfg, map[], fs, backendDir).1.Err?
    ensures Validate(cfg, map[], fs, backendDir).0.llmModel == DefaultModel
  {
    assert |DefaultModel| < |"gemini/"| && |DefaultModel| < |"google/"|;
  }
}

=== FILE: context_loader.dfy ===
/**
 * Game context loading (`backend/app/services/context_loader.py`): the session,
 * the sheets of its participants' characters and its newest story entries,
 * read from the in-memory tables. A failure to convert one character only
 * skips it; every other failure becomes a `ContextLoadError`.
 */
module ContextLoader {
  import opened Common
  import opened Json
  import opened Text
  import opened Schemas
  import opened Models
  import Sorting

  /** Conversion failures are only logged, so one label covers them all. */
  const InvalidCharacter := "invalid character data"
  const ContextLoadPrefix := "Failed to load game context: "

  /** The number of story entries loaded. */
  const HistoryLimit := 20

  /** The ability-score keys of `data["ability_scores"]`, in sheet order. */
  const AbilityKeys: seq<string> := ["STR", "DEX", "CON", "INT", "WIS", "CHA"]

  /**
   * An int field as pydantic's lax mode accepts it from JSON: an int, a bool
   * as 0/1, or a string in plain decimal form.
   */
  function IntField(j: Json): (r: Result<int, string>)
    ensures r.Ok? <==> j.JInt? || j.JBool? || (j.JStr? && IsDecimal(j.s))
    ensures j.JInt? ==> r == Ok(j.i)
    ensures j.JStr? && IsDecimal(j.s) ==> r == Ok(ParseInt(j.s).value)
  {
    match j
    case JInt(i) => Ok(i)
    case JBool(b) => Ok(if b then 1 else 0)
    case JStr(s) => (match ParseInt(s) case Some(i) => Ok(i) case None => Err(InvalidCharacter))
    case _ => Err(InvalidCharacter)
  }

  /** An optional int field: absent or null is `None`. */
  function OptIntField(j: Option<Json>): Result<Option<int>, string> {
    match j
    case None => Ok(None)
    case Some(JNull) => Ok(None)
    case Some(v) => match IntField(v) case Ok(i) => Ok(Some(i)) case Err(e) => Err(e)
  }

  /** An optional str field: absent or null is `None`; strings only. */
  function OptStrField(j: Option<Json>): Result<Option<string>, string> {
    match j
    case None => Ok(None)
    case Some(JNull) => Ok(None)
    case Some(JStr(s)) => Ok(Some(s))
    case Some(_) => Err(InvalidCharacter)
  }

  /** One ability: `ability_scores.get(key, 10)`, which must be an int in [1, 30]. */
  function AbilityField(scores: seq<(string, Json)>, key: string): (r: Result<int, string>)
    ensures r.Ok? ==> IsAbilityScore(r.value)
    ensures Get(scores, key).None? ==> r == Ok(10)
    ensures Get(scores, key).Some? && Get(scores, key).value.JInt? && IsAbilityScore(Get(scores, key).value.i)
            ==> r == Ok(Get(scores, key).value.i)
    ensures Get(scores, key).Some? ==>
              (r.Ok? <==> IntField(Get(scores, key).value).Ok? && IsAbilityScore(IntField(Get(scores, key).value).value))
  {
    match IntField(GetOr(scores, key, JInt(10)))
    case Err(e) => Err(e)
    case Ok(v) => if IsAbilityScore(v) then Ok(v) else Err(InvalidCharacter)
  }

  /** A score stored as the text `str(n)` reads back as `n` when it is a legal score, and fails otherwise. */
  lemma AbilityFromText(scores: seq<(string, Json)>, key: string, n: int)
    requires Get(scores, key) == Some(JStr(IntToString(n)))
    ensures AbilityField(scores, key) == if IsAbilityScore(n) then Ok(n) else Err(InvalidCharacter)
  {
    IntToStringParses(n);
  }

  /** A skill given in dict form: `{"name": name, **value}` for a dict value, else `{"name": name, "bonus": value}`. */
  function SkillEntry(name: string, value: Json): (r: seq<(string, Json)>)
    ensures value.JObj? && Get(value.entries, "name").Some? ==> Get(r, "name") == Get(value.entries, "name")
    ensures !(value.JObj? && Get(value.entries, "name").Some?) ==> Get(r, "name") == Some(JStr(name))
    ensures !value.JObj? ==> Get(r, "bonus") == Some(value)
  {
    match value
    case JObj(fields) =>
      var r := [("name", JStr(name))] + fields;
      GetAfterPrefix([("name", JStr(name))], fields, "name");
      r
    case _ => [("name", JStr(name)), ("bonus", value)]
  }

  /** The `skills` value: a dict becomes a list of skill dicts, a list must hold dicts only, anything else is []. */
  function Skills(raw: Json): (r: Result<seq<seq<(string, Json)>>, string>)
    ensures raw.JObj? ==> r.Ok? && |r.value| == |raw.entries|
    ensures raw.JObj? ==> forall i :: 0 <= i < |raw.entries| ==>
              r.value[i] == SkillEntry(raw.entries[i].0, raw.entries[i].1)
    ensures raw.JArr? ==> (r.Ok? <==> forall i :: 0 <= i < |raw.items| ==> raw.items[i].JObj?)
    ensures raw.JArr? && r.Ok? ==>
              |r.value| == |raw.items| && forall i :: 0 <= i < |raw.items| ==> raw.items[i] == JObj(r.value[i])
    ensures !raw.JObj? && !raw.JArr? ==> r == Ok([])
  {
    match raw
    case JObj(entries) =>
      Ok(seq(|entries|, i requires 0 <= i < |entries| => SkillEntry(entries[i].0, entries[i].1)))
    case JArr(items) =>
      if forall i :: 0 <= i < |items| ==> items[i].JObj?
      then Ok(seq(|items|, i requires 0 <= i < |items| && items[i].JObj? => items[i].entries))
      else Err(InvalidCharacter)
    case _ => Ok([])
  }

  /** The `weaknesses` value: a list of strings, anything else fails validation. */
  function StringList(raw: Json): (r: Result<seq<string>, string>)
    ensures r.Ok? <==> raw.JArr? && forall i :: 0 <= i < |raw.items| ==> raw.items[i].JStr?
    ensures r.Ok? ==> |r.value| == |raw.items| && forall i :: 0 <= i < |raw.items| ==> raw.items[i] == JStr(r.value[i])
  {
    match raw
    case JArr(items) =>
      if forall i :: 0 <= i < |items| ==> items[i].JStr?
      then Ok(seq(|items|, i requires 0 <= i < |items| && items[i].JStr? => items[i].s))
      else Err(InvalidCharacter)
    case _ => Err(InvalidCharacter)
  }

  /** The values `for effect in status_effects_raw` visits: list items, dict keys, or string characters. */
  function Iterated(raw: Json): Result<seq<Json>, string> {
    match raw
    case JArr(items) => Ok(items)
    case JObj(entries) => Ok(seq(|entries|, i requires 0 <= i < |entries| => JStr(entries[i].0)))
    case JStr(s) => Ok(seq(|s|, i requires 0 <= i < |s| => JStr([s[i]])))
    case _ => Err(InvalidCharacter)
  }

  /** The text of a dict effect: its `name` if truthy, else its `description`, else "Unknown effect". */
  function EffectLabel(fields: seq<(string, Json)>): (r: Json)
    ensures Get(fields, "name").Some? && Truthy(Get(fields, "name").value) ==> r == Get(fields, "name").value
    ensures (Get(fields, "name").None? || !Truthy(Get(fields, "name").value)) && Get(fields, "description").Some?
            ==> r == Get(fields, "description").value
    ensures (Get(fields, "name").None? || !Truthy(Get(fields, "name").value)) && Get(fields, "description").None?
            ==> r == JStr("Unknown effect")
  {
    match Get(fields, "name")
    case Some(n) => if Truthy(n) then n else GetOr(fields, "description", JStr("Unknown effect"))
    case None => GetOr(fields, "description", JStr("Unknown effect"))
  }

  /** The status-effect texts: strings kept, dicts labelled, other items dropped; order preserved. */
  function EffectTexts(items: seq<Json>): (r: Result<seq<string>, string>)
    ensures (forall i :: 0 <= i < |items| ==> items[i].JStr?) ==>
              r.Ok? && |r.value| == |items| && forall i :: 0 <= i < |items| ==> items[i] == JStr(r.value[i])
    ensures (forall i :: 0 <= i < |items| ==> !items[i].JStr? && !items[i].JObj?) ==> r == Ok([])
    ensures r.Ok? ==> |r.value| <= |items|
  {
    if |items| == 0 then Ok([])
    else
      var rest := EffectTexts(items[1..]);
      assert forall i :: 1 <= i < |items| ==> items[i] == items[1..][i - 1];
      JoinTexts(EffectText(items[0]), rest)
  }

  /** What one visited item contributes: a string itself, a dict its label (which must be a string), anything else nothing. */
  function EffectText(item: Json): (r: Result<seq<string>, string>)
    ensures item.JStr? ==> r == Ok([item.s])
    ensures item.JObj? ==> (r.Ok? <==> EffectLabel(item.entries).JStr?)
    ensures item.JObj? && r.Ok? ==> r.value == [EffectLabel(item.entries).s]
    ensures !item.JStr? && !item.JObj? ==> r == Ok([])
  {
    match item
    case JStr(s) => Ok([s])
    case JObj(fields) => (match EffectLabel(fields) case JStr(name) => Ok([name]) case _ => Err(InvalidCharacter))
    case _ => Ok([])
  }

  /** A single item contributes exactly its own text. */
  lemma EffectTextsOne(item: Json)
    ensures EffectTexts([item]) == EffectText(item)
  {
    assert [item][1..] == [];
    assert EffectTexts([item][1..]) == Ok([]);
    if EffectText(item).Ok? {
      assert EffectText(item).value + [] == EffectText(item).value;
    }
  }

  /** Two partial results joined: the first failure wins, else the texts one after the other. */
  function JoinTexts(x: Result<seq<string>, string>, y: Result<seq<string>, string>): (r: Result<seq<string>, string>)
    ensures r.Ok? <==> x.Ok? && y.Ok?
    ensures r.Ok? ==> r.value == x.value + y.value
  {
    match x
    case Err(e) => Err(e)
    case Ok(t) => (match y case Ok(u) => Ok(t + u) case Err(e) => Err(e))
  }

  /**
   * The loop handles each item on its own and in order: the texts of a
   * concatenation are the texts of its parts, and it fails iff a part fails.
   */
  lemma {:induction false} EffectTextsAppend(a: seq<Json>, b: seq<Json>)
    ensures EffectTexts(a + b) == JoinTexts(EffectTexts(a), EffectTexts(b))
    decreases |a|
  {
    if |a| == 0 {
      assert a + b == b;
      if EffectTexts(b).Ok? {
        assert [] + EffectTexts(b).value == EffectTexts(b).value;
      }
    } else {
      var ab := a + b;
      assert ab[0] == a[0] && ab[1..] == a[1..] + b;
      EffectTextsAppend(a[1..], b);
      var head := EffectText(a[0]);
      assert EffectTexts(ab) == JoinTexts(head, EffectTexts(a[1..] + b));
      assert EffectTexts(a) == JoinTexts(head, EffectTexts(a[1..]));
      JoinTextsAssoc(head, EffectTexts(a[1..]), EffectTexts(b));
    }
  }

  lemma JoinTextsAssoc(x: Result<seq<string>, string>, y: Result<seq<string>, string>, z: Result<seq<string>, string>)
    ensures JoinTexts(x, JoinTexts(y, z)) == JoinTexts(JoinTexts(x, y), z)
  {
    if x.Ok? && y.Ok? && z.Ok? {
      assert x.value + (y.value + z.value) == (x.value + y.value) + z.value;
    }
  }

  /** The status-effect texts of a character's data: `data.get("status_effects", [])` visited item by item. */
  function StatusEffects(entries: seq<(string, Json)>): (r: Result<seq<string>, string>)
    ensures Iterated(GetOr(entries, "status_effects", JArr([]))).Err? ==> r.Err?
    ensures Iterated(GetOr(entries, "status_effects", JArr([]))).Ok? ==>
              r == EffectTexts(Iterated(GetOr(entries, "status_effects", JArr([]))).value)
  {
    match Iterated(GetOr(entries, "status_effects", JArr([])))
    case Ok(items) => EffectTexts(items)
    case Err(e) => Err(e)
  }

  /** `character.data or {}`. */
  function SheetData(c: Character): (d: Json)
    ensures Truthy(c.data) ==> d == c.data
    ensures !Truthy(c.data) ==> d == JObj([])
  {
    if Truthy(c.data) then c.data else JObj([])
  }

  /** `data.get("ability_scores", {})`. */
  function ScoresOf(entries: seq<(string, Json)>): Json {
    GetOr(entries, "ability_scores", JObj([]))
  }

  /** Every field of the sheet validates, for data `entries` with ability scores `scores`. */
  predicate FieldsOk(entries: seq<(string, Json)>, scores: seq<(string, Json)>) {
    && Skills(GetOr(entries, "skills", JObj([]))).Ok?
    && StringList(GetOr(entries, "weaknesses", JArr([]))).Ok?
    && StatusEffects(entries).Ok?
    && OptIntField(Get(entries, "age")).Ok?
    && OptStrField(Get(entries, "race")).Ok?
    && OptStrField(Get(entries, "concept")).Ok?
    && AbilityField(scores, "STR").Ok? && AbilityField(scores, "DEX").Ok? && AbilityField(scores, "CON").Ok?
    && AbilityField(scores, "INT").Ok? && AbilityField(scores, "WIS").Ok? && AbilityField(scores, "CHA").Ok?
  }

  /** `_character_to_sheet`. */
  function CharacterToSheet(c: Character): (r: Result<CharacterSheet, string>)
    ensures r.Ok? ==> r.value.Valid() && r.value.id == c.id && r.value.name == c.name
    ensures r.Ok? ==> (Truthy(c.data) ==> c.data.JObj?)
  {
    match SheetData(c)
    case JObj(entries) =>
      (match ScoresOf(entries)
       case JObj(scores) =>
         var skills := Skills(GetOr(entries, "skills", JObj([])));
         var weaknesses := StringList(GetOr(entries, "weaknesses", JArr([])));
         var effects := StatusEffects(entries);
         var age := OptIntField(Get(entries, "age"));
         var race := OptStrField(Get(entries, "race"));
         var concept := OptStrField(Get(entries, "concept"));
         var str := AbilityField(scores, "STR");
         var dex := AbilityField(scores, "DEX");
         var con := AbilityField(scores, "CON");
         var int_ := AbilityField(scores, "INT");
         var wis := AbilityField(scores, "WIS");
         var cha := AbilityField(scores, "CHA");
         if skills.Err? || weaknesses.Err? || effects.Err? || age.Err? || race.Err? || concept.Err?
            || str.Err? || dex.Err? || con.Err? || int_.Err? || wis.Err? || cha.Err?
         then Err(InvalidCharacter)
         else
           Ok(CharacterSheet(c.id, c.name, age.value, race.value, concept.value,
                             Abilities(str.value, dex.value, con.value, int_.value, wis.value, cha.value),
                             skills.value, weaknesses.value, effects.value))
       case _ => Err(InvalidCharacter))
    case _ => Err(InvalidCharacter)
  }

  /**
   * The conversion succeeds iff the data (or `{}`) is an object, its ability
   * scores are an object and every field validates; each field of the sheet
   * is then the one read from the data.
   */
  lemma SheetReadsData(c: Character)
    ensures CharacterToSheet(c).Ok? <==>
              && SheetData(c).JObj? && ScoresOf(SheetData(c).entries).JObj?
              && FieldsOk(SheetData(c).entries, ScoresOf(SheetData(c).entries).entries)
    ensures CharacterToSheet(c).Ok? ==>
              var s := CharacterToSheet(c).value;
              var e := SheetData(c).entries;
              var scores := ScoresOf(e).entries;
              && Ok(s.abilities.strength) == AbilityField(scores, "STR")
              && Ok(s.abilities.dexterity) == AbilityField(scores, "DEX")
              && Ok(s.abilities.constitution) == AbilityField(scores, "CON")
              && Ok(s.abilities.intelligence) == AbilityField(scores, "INT")
              && Ok(s.abilities.wisdom) == AbilityField(scores, "WIS")
              && Ok(s.abilities.charisma) == AbilityField(scores, "CHA")
              && Ok(s.skills) == Skills(GetOr(e, "skills", JObj([])))
              && Ok(s.weaknesses) == StringList(GetOr(e, "weaknesses", JArr([])))
              && Ok(s.statusEffects) == StatusEffects(e)
              && Ok(s.age) == OptIntField(Get(e, "age"))
              && Ok(s.race) == OptStrField(Get(e, "race"))
              && Ok(s.concept) == OptStrField(Get(e, "concept"))
  {
  }

  /** Empty or null character data reads as `{}`: a sheet with every ability at 10 and nothing else. */
  lemma EmptyDataGivesDefaults(c: Character)
    requires !Truthy(c.data)
    ensures CharacterToSheet(c) == Ok(CharacterSheet(c.id, c.name, None, None, None, DefaultAbilities, [], [], []))
  {
    assert Skills(JObj([])) == Ok([]);
    assert StringList(JArr([])) == Ok([]);
    assert EffectTexts([]) == Ok([]);
  }

  /** A lookup finds the entry with the key when no later entry has it. */
  lemma {:induction false} GetFinds(entries: seq<(string, Json)>, k: int, key: string)
    requires 0 <= k < |entries| && entries[k].0 == key
    requires forall j :: k < j < |entries| ==> entries[j].0 != key
    ensures Get(entries, key) == Some(entries[k].1)
    decreases |entries|
  {
    if k < |entries| - 1 {
      GetFinds(entries[..|entries| - 1], k, key);
    }
  }

  function OptIntJson(o: Option<int>): Json {
    match o case None => JNull case Some(i) => JInt(i)
  }

  function OptStrJson(o: Option<string>): Json {
    match o case None => JNull case Some(t) => JStr(t)
  }

  /** Ability scores in the layout of `data["ability_scores"]`. */
  function ScoresToJson(a: Abilities): (d: Json)
    ensures d.JObj?
  {
    JObj([("STR", JInt(a.strength)), ("DEX", JInt(a.dexterity)), ("CON", JInt(a.constitution)),
          ("INT", JInt(a.intelligence)), ("WIS", JInt(a.wisdom)), ("CHA", JInt(a.charisma))])
  }

  /** The sheet fields as data entries, in the layout the loader reads. */
  function SheetEntries(age: Json, race: Json, concept: Json, scores: Json, skills: Json, weaknesses: Json, effects: Json)
    : seq<(string, Json)>
  {
    [("age", age), ("race", race), ("concept", concept), ("ability_scores", scores),
     ("skills", skills), ("weaknesses", weaknesses), ("status_effects", effects)]
  }

  lemma OptIntRoundTrip(o: Option<int>)
    ensures OptIntField(Some(OptIntJson(o))) == Ok(o)
  {
    match o
    case None =>
    case Some(i) => assert IntField(JInt(i)) == Ok(i);
  }

  lemma OptStrRoundTrip(o: Option<string>)
    ensures OptStrField(Some(OptStrJson(o))) == Ok(o)
  {
  }

  /** A sheet written back as data: abilities under `ability_scores`, skills as a list of dicts. */
  function SheetToData(s: CharacterSheet): (d: Json)
    ensures d.JObj? && Truthy(d)
  {
    JObj(SheetEntries(
      OptIntJson(s.age), OptStrJson(s.race), OptStrJson(s.concept), ScoresToJson(s.abilities),
      JArr(seq(|s.skills|, i requires 0 <= i < |s.skills| => JObj(s.skills[i]))),
      JArr(seq(|s.weaknesses|, i requires 0 <= i < |s.weaknesses| => JStr(s.weaknesses[i]))),
      JArr(seq(|s.statusEffects|, i requires 0 <= i < |s.statusEffects| => JStr(s.statusEffects[i])))))
  }

  lemma SheetEntriesRead(age: Json, race: Json, concept: Json, scores: Json, skills: Json, weaknesses: Json, effects: Json)
    ensures var e := SheetEntries(age, race, concept, scores, skills, weaknesses, effects);
            && Get(e, "age") == Some(age) && Get(e, "race") == Some(race) && Get(e, "concept") == Some(concept)
            && Get(e, "ability_scores") == Some(scores) && Get(e, "skills") == Some(skills)
            && Get(e, "weaknesses") == Some(weaknesses) && Get(e, "status_effects") == Some(effects)
  {
    var e := SheetEntries(age, race, concept, scores, skills, weaknesses, effects);
    GetFinds(e, 0, "age");
    GetFinds(e, 1, "race");
    GetFinds(e, 2, "concept");
    GetFinds(e, 3, "ability_scores");
    GetFinds(e, 4, "skills");
    GetFinds(e, 5, "weaknesses");
    GetFinds(e, 6, "status_effects");
  }

  lemma ScoresGet(str: int, dex: int, con: int, int_: int, wis: int, cha: int)
    ensures var e := [("STR", JInt(str)), ("DEX", JInt(dex)), ("CON", JInt(con)),
                      ("INT", JInt(int_)), ("WIS", JInt(wis)), ("CHA", JInt(cha))];
            && Get(e, "STR") == Some(JInt(str)) && Get(e, "DEX") == Some(JInt(dex)) && Get(e, "CON") == Some(JInt(con))
            && Get(e, "INT") == Some(JInt(int_)) && Get(e, "WIS") == Some(JInt(wis)) && Get(e, "CHA") == Some(JInt(cha))
  {
    var e := [("STR", JInt(str)), ("DEX", JInt(dex)), ("CON", JInt(con)),
              ("INT", JInt(int_)), ("WIS", JInt(wis)), ("CHA", JInt(cha))];
    GetFinds(e, 0, "STR");
    GetFinds(e, 1, "DEX");
    GetFinds(e, 2, "CON");
    GetFinds(e, 3, "INT");
    GetFinds(e, 4, "WIS");
    GetFinds(e, 5, "CHA");
  }

  lemma ScoresRead(a: Abilities)
    requires a.Valid()
    ensures var scores := ScoresToJson(a).entries;
            && AbilityField(scores, "STR") == Ok(a.strength) && AbilityField(scores, "DEX") == Ok(a.dexterity)
            && AbilityField(scores, "CON") == Ok(a.constitution) && AbilityField(scores, "INT") == Ok(a.intelligence)
            && AbilityField(scores, "WIS") == Ok(a.wisdom) && AbilityField(scores, "CHA") == Ok(a.charisma)
  {
    ScoresGet(a.strength, a.dexterity, a.constitution, a.intelligence, a.wisdom, a.charisma);
  }

  lemma ListsRead(s: CharacterSheet)
    ensures var e := SheetToData(s).entries;
            && Skills(e[4].1) == Ok(s.skills)
            && StringList(e[5].1) == Ok(s.weaknesses)
            && EffectTexts(e[6].1.items) == Ok(s.statusEffects)
  {
    var e := SheetToData(s).entries;
    assert Skills(e[4].1).value == s.skills;
    assert StringList(e[5].1).value == s.weaknesses;
    assert EffectTexts(e[6].1.items).value == s.statusEffects;
  }

  /** Reading a valid sheet's own data layout gives that sheet back. */
  lemma SheetFieldsRead(s: CharacterSheet)
    requires s.Valid()
    ensures var e := SheetToData(s).entries;
            && ScoresOf(e) == ScoresToJson(s.abilities)
            && Skills(GetOr(e, "skills", JObj([]))) == Ok(s.skills)
            && StringList(GetOr(e, "weaknesses", JArr([]))) == Ok(s.weaknesses)
            && StatusEffects(e) == Ok(s.statusEffects)
            && OptIntField(Get(e, "age")) == Ok(s.age)
            && OptStrField(Get(e, "race")) == Ok(s.race)
            && OptStrField(Get(e, "concept")) == Ok(s.concept)
  {
    var e := SheetToData(s).entries;
    SheetEntriesRead(e[0].1, e[1].1, e[2].1, e[3].1, e[4].1, e[5].1, e[6].1);
    ListsRead(s);
    OptIntRoundTrip(s.age);
    OptStrRoundTrip(s.race);
    OptStrRoundTrip(s.concept);
  }

  /**
   * The partner of `CharacterToSheet`: a valid sheet written as data in the
   * loader's layout converts back to the same sheet. `SheetReadsData` only
   * unfolds the conversion field by field; this round trip is the independent check.
   */
  lemma SheetRoundTrip(s: CharacterSheet, userId: int, createdAt: int)
    requires s.Valid()
    ensures CharacterToSheet(Character(s.id, userId, s.name, SheetToData(s), createdAt)) == Ok(s)
  {
    var c := Character(s.id, userId, s.name, SheetToData(s), createdAt);
    assert SheetData(c) == SheetToData(s);
    SheetFieldsRead(s);
    ScoresRead(s.abilities);
    SheetReadsData(c);
    assert CharacterToSheet(c).value.abilities == s.abilities;
  }

  /**
   * Characters created through the character routes keep their abilities as
   * top-level keys, with no `ability_scores` entry, so their sheets show 10
   * for every ability whatever was entered.
   */
  lemma TopLevelAbilitiesIgnored(c: Character, s: CharacterSheet)
    requires c.data.JObj? && Get(c.data.entries, "ability_scores").None?
    requires CharacterToSheet(c) == Ok(s)
    ensures s.abilities == DefaultAbilities
  {
  }

  /** `_load_session`. */
  function LoadSession(sessions: seq<GameSession>, sessionId: int): (r: Result<GameSession, string>)
    ensures r.Ok? <==> exists i :: 0 <= i < |sessions| && sessions[i].id == sessionId
    ensures r.Ok? ==> r.value in sessions && r.value.id == sessionId
    ensures r.Err? ==> r.error == "Session " + IntToString(sessionId) + " not found"
  {
    match FindSession(sessions, sessionId)
    case None => Err("Session " + IntToString(sessionId) + " not found")
    case Some(k) => Ok(sessions[k])
  }

  /** The character ids of the session's participants. */
  function ParticipantCharacterIds(participants: seq<Participant>, sessionId: int): (r: set<int>)
    ensures forall id :: id in r <==>
              (exists i :: 0 <= i < |participants| && participants[i].sessionId == sessionId
                           && participants[i].characterId == id)
  {
    set i | 0 <= i < |participants| && participants[i].sessionId == sessionId :: participants[i].characterId
  }

  /** The convertible characters among `chars`, in table order; the others are skipped. */
  function ConvertAll(chars: seq<Character>): (r: seq<CharacterSheet>)
    ensures |r| <= |chars|
    ensures forall s :: s in r <==> exists i :: 0 <= i < |chars| && CharacterToSheet(chars[i]) == Ok(s)
  {
    if |chars| == 0 then []
    else
      var rest := ConvertAll(chars[1..]);
      var r := match CharacterToSheet(chars[0])
               case Ok(s) => [s] + rest
               case Err(_) => rest;
      ConvertStep(chars, rest, r);
      r
  }

  lemma ConvertStep(chars: seq<Character>, rest: seq<CharacterSheet>, r: seq<CharacterSheet>)
    requires |chars| > 0
    requires forall s :: s in rest <==> exists i :: 0 <= i < |chars[1..]| && CharacterToSheet(chars[1..][i]) == Ok(s)
    requires r == match CharacterToSheet(chars[0]) case Ok(s) => [s] + rest case Err(_) => rest
    ensures forall s :: s in r <==> exists i :: 0 <= i < |chars| && CharacterToSheet(chars[i]) == Ok(s)
  {
    forall s | s in r ensures exists i :: 0 <= i < |chars| && CharacterToSheet(chars[i]) == Ok(s) {
      if CharacterToSheet(chars[0]) != Ok(s) {
        assert s in rest;
        var i :| 0 <= i < |chars[1..]| && CharacterToSheet(chars[1..][i]) == Ok(s);
        assert chars[i + 1] == chars[1..][i];
      }
    }
    forall s | exists i :: 0 <= i < |chars| && CharacterToSheet(chars[i]) == Ok(s) ensures s in r {
      var i :| 0 <= i < |chars| && CharacterToSheet(chars[i]) == Ok(s);
      if i > 0 {
        assert chars[1..][i - 1] == chars[i];
      }
    }
  }

  /** The rows of `Character.id IN ids`, in table order. */
  function CharactersWithIds(chars: seq<Character>, ids: set<int>): (r: seq<Character>)
    ensures forall c :: c in r <==> c in chars && c.id in ids
  {
    if |chars| == 0 then []
    else if chars[0].id in ids then [chars[0]] + CharactersWithIds(chars[1..], ids)
    else CharactersWithIds(chars[1..], ids)
  }

  /** `_load_characters`: sheets of the participants' characters, skipping the ones that fail. */
  function LoadCharacters(participants: seq<Participant>, chars: seq<Character>, sessionId: int)
    : (r: seq<CharacterSheet>)
    ensures ParticipantCharacterIds(participants, sessionId) == {} ==> r == []
    ensures forall s :: s in r <==> exists c :: c in chars && c.id in ParticipantCharacterIds(participants, sessionId)
                                                && CharacterToSheet(c) == Ok(s)
    ensures forall s :: s in r ==> s.Valid()
  {
    var ids := ParticipantCharacterIds(participants, sessionId);
    if ids == {} then []
    else
      var rows := CharactersWithIds(chars, ids);
      var r := ConvertAll(rows);
      forall s | s in r
        ensures exists c :: c in chars && c.id in ids && CharacterToSheet(c) == Ok(s)
      {
        var i :| 0 <= i < |rows| && CharacterToSheet(rows[i]) == Ok(s);
        assert rows[i] in rows;
      }
      forall c | c in chars && c.id in ids && CharacterToSheet(c).Ok?
        ensures CharacterToSheet(c).value in r
      {
        var i :| 0 <= i < |rows| && rows[i] == c;
      }
      r
  }

  /** Sorting on the negated time puts the newest log first. */
  function NewestKey(l: StoryLog): int {
    -l.createdAt
  }

  /** Story logs ordered newest first; equal times keep table order. */
  function NewestFirst(logs: seq<StoryLog>): (r: seq<StoryLog>)
    ensures forall i, j :: 0 <= i < j < |r| ==> r[i].createdAt >= r[j].createdAt
    ensures multiset(r) == multiset(logs)
    ensures |r| == |logs|
    ensures forall i :: 0 <= i < |r| ==> r[i] in logs
  {
    var r := Sorting.SortBy(logs, NewestKey);
    forall i, j | 0 <= i < j < |r| ensures r[i].createdAt >= r[j].createdAt {
      assert NewestKey(r[i]) <= NewestKey(r[j]);
    }
    forall i | 0 <= i < |r| ensures r[i] in logs {
      assert r[i] in multiset(r);
    }
    r
  }

  function SessionLogs(logs: seq<StoryLog>, sessionId: int): (r: seq<StoryLog>)
    ensures forall l :: l in r <==> l in logs && l.sessionId == sessionId
    ensures |r| <= |logs|
  {
    if |logs| == 0 then []
    else if logs[0].sessionId == sessionId then [logs[0]] + SessionLogs(logs[1..], sessionId)
    else SessionLogs(logs[1..], sessionId)
  }

  /** Converts rows to entries; a role other than USER or AI fails validation. */
  function ToEntries(logs: seq<StoryLog>): (r: Result<seq<StoryLogEntry>, string>)
    ensures r.Ok? <==> forall i :: 0 <= i < |logs| ==> logs[i].role == "USER" || logs[i].role == "AI"
    ensures r.Ok? ==> |r.value| == |logs| && forall i :: 0 <= i < |logs| ==>
              r.value[i] == StoryLogEntry(logs[i].role, logs[i].content, logs[i].createdAt)
  {
    if |logs| == 0 then Ok([])
    else
      var rest := ToEntries(logs[1..]);
      assert forall i :: 1 <= i < |logs| ==> logs[i] == logs[1..][i - 1];
      match NewStoryLogEntry(logs[0].role, logs[0].content, logs[0].createdAt)
      case Err(e) => Err(e)
      case Ok(e) => match rest case Err(x) => Err(x) case Ok(t) => Ok([e] + t)
  }

  /** No log of `all` left out of `kept` is newer than a kept one. */
  predicate NoNewerLeftOut(kept: seq<StoryLog>, all: multiset<StoryLog>) {
    forall l, i :: l in all - multiset(kept) && 0 <= i < |kept| ==> l.createdAt <= kept[i].createdAt
  }

  /** A prefix of a newest-first list is a sub-multiset of it that leaves out nothing newer. */
  lemma NewestPrefix(ordered: seq<StoryLog>, n: nat)
    requires n <= |ordered|
    requires forall i, j :: 0 <= i < j < |ordered| ==> ordered[i].createdAt >= ordered[j].createdAt
    ensures multiset(ordered[..n]) <= multiset(ordered)
    ensures NoNewerLeftOut(ordered[..n], multiset(ordered))
  {
    var top := ordered[..n];
    var rest := ordered[n..];
    assert ordered == top + rest;
    assert multiset(ordered) == multiset(top) + multiset(rest);
    forall l, i | l in multiset(ordered) - multiset(top) && 0 <= i < |top| ensures l.createdAt <= top[i].createdAt {
      assert l in multiset(rest);
      var j :| 0 <= j < |rest| && rest[j] == l;
      assert l == ordered[n + j];
    }
  }

  /**
   * The session's logs the query returns: newest first, at most 20, and the
   * newest ones: every session log left out is no newer than any kept one.
   */
  function TopHistory(logs: seq<StoryLog>, sessionId: int): (r: seq<StoryLog>)
    ensures |r| == if |SessionLogs(logs, sessionId)| < HistoryLimit then |SessionLogs(logs, sessionId)| else HistoryLimit
    ensures forall i, j :: 0 <= i < j < |r| ==> r[i].createdAt >= r[j].createdAt
    ensures forall i :: 0 <= i < |r| ==> r[i] in logs && r[i].sessionId == sessionId
    ensures multiset(r) <= multiset(SessionLogs(logs, sessionId))
    ensures NoNewerLeftOut(r, multiset(SessionLogs(logs, sessionId)))
  {
    var session := SessionLogs(logs, sessionId);
    var ordered := NewestFirst(session);
    var n := if |ordered| <= HistoryLimit then |ordered| else HistoryLimit;
    NewestPrefix(ordered, n);
    SessionPrefix(logs, sessionId, ordered, n);
    ordered[..n]
  }

  /** Every log of a prefix of the reordered session logs is a log of the session. */
  lemma SessionPrefix(logs: seq<StoryLog>, sessionId: int, ordered: seq<StoryLog>, n: nat)
    requires n <= |ordered|
    requires forall i :: 0 <= i < |ordered| ==> ordered[i] in SessionLogs(logs, sessionId)
    ensures forall i :: 0 <= i < n ==> ordered[..n][i] in logs && ordered[..n][i].sessionId == sessionId
  {
    forall i | 0 <= i < n ensures ordered[..n][i] in logs && ordered[..n][i].sessionId == sessionId {
      assert ordered[..n][i] == ordered[i];
      assert ordered[i] in SessionLogs(logs, sessionId);
    }
  }

  /** `_load_story_history`: the session's 20 newest logs, newest first, as entries. */
  function LoadStoryHistory(logs: seq<StoryLog>, sessionId: int): (r: Result<seq<StoryLogEntry>, string>)
    ensures r.Ok? <==> forall i :: 0 <= i < |TopHistory(logs, sessionId)| ==>
                         TopHistory(logs, sessionId)[i].role == "USER" || TopHistory(logs, sessionId)[i].role == "AI"
    ensures r.Ok? ==> |r.value| == |TopHistory(logs, sessionId)| && forall i :: 0 <= i < |r.value| ==>
              var l := TopHistory(logs, sessionId)[i];
              r.value[i] == StoryLogEntry(l.role, l.content, l.createdAt)
    ensures r.Ok? ==> |r.value| <= HistoryLimit
    ensures r.Ok? ==> forall i, j :: 0 <= i < j < |r.value| ==> r.value[i].createdAt >= r.value[j].createdAt
    ensures r.Ok? ==> forall i :: 0 <= i < |r.value| ==> FromSession(logs, sessionId, r.value[i])
    ensures r.Ok? ==> |r.value| == if |SessionLogs(logs, sessionId)| < HistoryLimit then |SessionLogs(logs, sessionId)| else HistoryLimit
  {
    var top := TopHistory(logs, sessionId);
    var r := ToEntries(top);
    if r.Ok? then
      EntriesKeepTop(logs, sessionId, top, r.value);
      r
    else r
  }

  /** `e` is the entry of one of the session's logs. */
  predicate FromSession(logs: seq<StoryLog>, sessionId: int, e: StoryLogEntry) {
    exists l :: l in logs && l.sessionId == sessionId && e == StoryLogEntry(l.role, l.content, l.createdAt)
  }

  /** Entries made pointwise from the session's newest logs keep their order and their origin. */
  lemma {:induction false} EntriesKeepTop(logs: seq<StoryLog>, sessionId: int, top: seq<StoryLog>, entries: seq<StoryLogEntry>)
    requires forall i, j :: 0 <= i < j < |top| ==> top[i].createdAt >= top[j].createdAt
    requires forall i :: 0 <= i < |top| ==> top[i] in logs && top[i].sessionId == sessionId
    requires |entries| == |top|
    requires forall i :: 0 <= i < |top| ==> entries[i] == StoryLogEntry(top[i].role, top[i].content, top[i].createdAt)
    ensures forall i, j :: 0 <= i < j < |entries| ==> entries[i].createdAt >= entries[j].createdAt
    ensures forall i :: 0 <= i < |entries| ==> FromSession(logs, sessionId, entries[i])
  {
    forall i | 0 <= i < |entries| ensures FromSession(logs, sessionId, entries[i]) {
      assert top[i] in logs;
    }
  }

  /** No session logs beyond the limit are dropped when there are at most 20. */
  lemma ShortHistoryKeepsAll(logs: seq<StoryLog>, sessionId: int)
    requires |SessionLogs(logs, sessionId)| <= HistoryLimit
    requires LoadStoryHistory(logs, sessionId).Ok?
    ensures |LoadStoryHistory(logs, sessionId).value| == |SessionLogs(logs, sessionId)|
  {
  }

  /** `load_game_context`: every failure is wrapped as a ContextLoadError. */
  function LoadGameContext(db: Db, sessionId: int, systemPrompt: string): (r: Result<GameContext, string>)
    ensures r.Err? ==> StartsWith(r.error, ContextLoadPrefix)
    ensures r.Err? <==> LoadSession(db.sessions, sessionId).Err? || LoadStoryHistory(db.logs, sessionId).Err?
    ensures LoadSession(db.sessions, sessionId).Err? ==>
              r == Err(ContextLoadPrefix + LoadSession(db.sessions, sessionId).error)
    ensures r.Ok? ==> r.value.Valid() && r.value.sessionId == sessionId
                      && r.value.worldPrompt == LoadSession(db.sessions, sessionId).value.worldPrompt
                      && r.value.characters == LoadCharacters(db.participants, db.characters, sessionId)
                      && r.value.storyHistory == LoadStoryHistory(db.logs, sessionId).value
                      && r.value.systemPrompt == systemPrompt
                      && r.value.aiSummary == LoadSession(db.sessions, sessionId).value.aiSummary
    ensures LoadSession(db.sessions, sessionId).Ok? && LoadStoryHistory(db.logs, sessionId).Err? ==>
              r == Err(ContextLoadPrefix + LoadStoryHistory(db.logs, sessionId).error)
  {
    match LoadSession(db.sessions, sessionId)
    case Err(e) =>
      assert StartsWith(ContextLoadPrefix + e, ContextLoadPrefix) by {
        assert (ContextLoadPrefix + e)[..|ContextLoadPrefix|] == ContextLoadPrefix;
      }
      Err(ContextLoadPrefix + e)
    case Ok(session) =>
      var characters := LoadCharacters(db.participants, db.characters, sessionId);
      match LoadStoryHistory(db.logs, sessionId)
      case Err(e) =>
        assert (ContextLoadPrefix + e)[..|ContextLoadPrefix|] == ContextLoadPrefix;
        Err(ContextLoadPrefix + e)
      case Ok(history) =>
        Ok(GameContext(sessionId, session.worldPrompt, systemPrompt, characters, history, session.aiSummary))
  }
}

=== FILE: dice_system.dfy ===
/**
 * D20 resolution (`backend/app/services/dice_system.py`). The character is
 * its raw `data` JSON; Python raises where the stored values have the wrong
 * type (`Err`). Booleans count as the integers 0 and 1, as in Python.
 */
module DiceSystem {
  import opened Common
  import opened Json
  import opened Schemas

  const TypeError := "TypeError"

  /** `random.randint(1, 20)`, with the random draw taken as an input. */
  function RollD20(draw: nat): (r: int)
    ensures IsD20(r)
  {
    draw % 20 + 1
  }

  /** Every face of the die can come up. */
  lemma RollD20Onto(face: int)
    requires IsD20(face)
    ensures RollD20(face - 1) == face
  {
  }

  /** `(score - 10) // 2`: floor division, so it rounds toward minus infinity. */
  function AbilityModifier(score: int): (r: int)
    ensures 2 * r <= score - 10 < 2 * r + 2
  {
    (score - 10) / 2
  }

  /** The floor characterisation pins the modifier down uniquely. */
  lemma AbilityModifierUnique(score: int, m: int)
    requires 2 * m <= score - 10 < 2 * m + 2
    ensures m == AbilityModifier(score)
  {
  }

  lemma AbilityModifierExamples()
    ensures AbilityModifier(10) == 0 && AbilityModifier(14) == 2 && AbilityModifier(18) == 4
    ensures AbilityModifier(8) == -1 && AbilityModifier(7) == -2 && AbilityModifier(1) == -5
  {
  }

  /** The modifier never decreases as the score grows. */
  lemma AbilityModifierMonotone(a: int, b: int)
    requires a <= b
    ensures AbilityModifier(a) <= AbilityModifier(b)
  {
  }

  /** A JSON value used in integer arithmetic: ints, and bools as 0/1; anything else raises. */
  function AsInt(j: Json): (r: Result<int, string>)
    ensures r.Ok? <==> j.JInt? || j.JBool?
    ensures j.JInt? ==> r == Ok(j.i)
  {
    match j
    case JInt(i) => Ok(i)
    case JBool(b) => Ok(if b then 1 else 0)
    case _ => Err(TypeError)
  }

  /** `character.data.get(action_type.value, 10)`; the data must be a dict. */
  function GetAbilityScore(data: Json, a: ActionType): (r: Result<Json, string>)
    ensures r.Ok? <==> data.JObj?
    ensures data.JObj? && Get(data.entries, a.Value()).None? ==> r == Ok(JInt(10))
    ensures data.JObj? && Get(data.entries, a.Value()).Some? ==> r == Ok(Get(data.entries, a.Value()).value)
  {
    match data
    case JObj(entries) => Ok(GetOr(entries, a.Value(), JInt(10)))
    case _ => Err("AttributeError")
  }

  /** What one status effect adds: a dict adds its `modifier` (default 0); other values add nothing. */
  function EffectDelta(effect: Json): Result<int, string> {
    match effect
    case JObj(entries) => AsInt(GetOr(entries, "modifier", JInt(0)))
    case _ => Ok(0)
  }

  /** The running total of the `for effect in status_effects` loop, left to right. */
  function Accumulate(total: int, effects: seq<Json>): Result<int, string>
    decreases |effects|
  {
    if |effects| == 0 then Ok(total)
    else
      match EffectDelta(effects[0])
      case Err(e) => Err(e)
      case Ok(d) => Accumulate(total + d, effects[1..])
  }

  /** Every effect can be added to an int. */
  predicate EffectsNumeric(effects: seq<Json>) {
    forall i :: 0 <= i < |effects| ==> EffectDelta(effects[i]).Ok?
  }

  /** The sum of the effects' deltas, counting a failing one as 0. */
  function DeltaSum(effects: seq<Json>): int {
    if |effects| == 0 then 0
    else EffectDelta(effects[0]).GetOr(0) + DeltaSum(effects[1..])
  }

  /** The loop raises iff some effect is not numeric, and otherwise adds the deltas. */
  lemma {:induction false} AccumulateSpec(total: int, effects: seq<Json>)
    ensures Accumulate(total, effects)
         == if EffectsNumeric(effects) then Ok(total + DeltaSum(effects)) else Err(TypeError)
    decreases |effects|
  {
    if |effects| > 0 {
      AccumulateSpec(total + EffectDelta(effects[0]).GetOr(0), effects[1..]);
      assert EffectsNumeric(effects) <==> EffectDelta(effects[0]).Ok? && EffectsNumeric(effects[1..]) by {
        if EffectDelta(effects[0]).Ok? && EffectsNumeric(effects[1..]) {
          forall i | 0 <= i < |effects| ensures EffectDelta(effects[i]).Ok? {
            if i > 0 { assert effects[i] == effects[1..][i - 1]; }
          }
        }
      }
    }
  }

  /**
   * The value iterated as `status_effects`: a list yields its elements, a dict
   * its keys and a string its characters (neither of which is a dict); null,
   * numbers and booleans are not iterable.
   */
  function EffectItems(effects: Json): Result<seq<Json>, string> {
    match effects
    case JArr(items) => Ok(items)
    case JObj(entries) => Ok(seq(|entries|, i requires 0 <= i < |entries| => JStr(entries[i].0)))
    case JStr(s) => Ok(seq(|s|, i requires 0 <= i < |s| => JStr([s[i]])))
    case _ => Err(TypeError)
  }

  /** `apply_status_effects`. */
  function ApplyStatusEffects(baseModifier: int, data: Json): (r: Result<int, string>)
    ensures data.JObj? && Get(data.entries, "status_effects").None? ==> r == Ok(baseModifier)
    ensures data.JObj? && EffectItems(GetOr(data.entries, "status_effects", JArr([]))).Ok?
            ==> var items := EffectItems(GetOr(data.entries, "status_effects", JArr([]))).value;
                r == if EffectsNumeric(items) then Ok(baseModifier + DeltaSum(items)) else Err(TypeError)
  {
    match data
    case JObj(entries) =>
      var effects := GetOr(entries, "status_effects", JArr([]));
      (match EffectItems(effects)
       case Err(e) => Err(e)
       case Ok(items) =>
         AccumulateSpec(baseModifier, items);
         Accumulate(baseModifier, items))
    case _ => Err("AttributeError")
  }

  /** Effects that are not dicts (strings, in particular) never change the modifier. */
  lemma {:induction false} NonDictEffectsAddNothing(effects: seq<Json>)
    requires forall i :: 0 <= i < |effects| ==> !effects[i].JObj?
    ensures EffectsNumeric(effects) && DeltaSum(effects) == 0
  {
    if |effects| > 0 {
      NonDictEffectsAddNothing(effects[1..]);
    }
  }

  lemma {:induction false} DeltaSumAppend(a: seq<Json>, b: seq<Json>)
    ensures DeltaSum(a + b) == DeltaSum(a) + DeltaSum(b)
  {
    if |a| == 0 {
      assert a + b == b;
    } else {
      assert (a + b)[1..] == a[1..] + b;
      DeltaSumAppend(a[1..], b);
    }
  }

  lemma {:induction false} NumericAppend(a: seq<Json>, b: seq<Json>)
    ensures EffectsNumeric(a + b) <==> EffectsNumeric(a) && EffectsNumeric(b)
  {
    if EffectsNumeric(a) && EffectsNumeric(b) {
      forall i | 0 <= i < |a + b| ensures EffectDelta((a + b)[i]).Ok? {
        if i >= |a| { assert (a + b)[i] == b[i - |a|]; }
      }
    }
    if EffectsNumeric(a + b) {
      forall i | 0 <= i < |b| ensures EffectDelta(b[i]).Ok? {
        assert b[i] == (a + b)[|a| + i];
      }
      forall i | 0 <= i < |a| ensures EffectDelta(a[i]).Ok? {
        assert a[i] == (a + b)[i];
      }
    }
  }

  lemma {:induction false} DeltaSumRemove(b: seq<Json>, j: int)
    requires 0 <= j < |b|
    ensures DeltaSum(b) == DeltaSum([b[j]]) + DeltaSum(b[..j] + b[j + 1..])
  {
    assert b == b[..j] + ([b[j]] + b[j + 1..]);
    DeltaSumAppend(b[..j], [b[j]] + b[j + 1..]);
    DeltaSumAppend([b[j]], b[j + 1..]);
    DeltaSumAppend(b[..j], b[j + 1..]);
  }

  lemma {:induction false} NumericRemove(b: seq<Json>, j: int)
    requires 0 <= j < |b|
    ensures EffectsNumeric(b) <==> EffectsNumeric([b[j]]) && EffectsNumeric(b[..j] + b[j + 1..])
  {
    assert b == b[..j] + ([b[j]] + b[j + 1..]);
    NumericAppend(b[..j], [b[j]] + b[j + 1..]);
    NumericAppend([b[j]], b[j + 1..]);
    NumericAppend(b[..j], b[j + 1..]);
  }

  lemma MultisetRemove<T>(a: seq<T>, b: seq<T>, j: int)
    requires |a| > 0 && 0 <= j < |b| && b[j] == a[0] && multiset(a) == multiset(b)
    ensures multiset(a[1..]) == multiset(b[..j] + b[j + 1..])
  {
    assert b == b[..j] + [b[j]] + b[j + 1..];
    assert a == [a[0]] + a[1..];
    assert multiset(b) == multiset(b[..j]) + multiset([b[j]]) + multiset(b[j + 1..]);
    assert multiset(a) == multiset([a[0]]) + multiset(a[1..]);
    assert multiset(b[..j] + b[j + 1..]) == multiset(b[..j]) + multiset(b[j + 1..]);
    calc {
      multiset(a[1..]);
      multiset(a) - multiset([a[0]]);
      multiset(b) - multiset([b[j]]);
      multiset(b[..j]) + multiset(b[j + 1..]);
    }
  }

  /** The order of the effects does not matter: any permutation gives the same result. */
  lemma {:induction false} EffectOrderIrrelevant(a: seq<Json>, b: seq<Json>)
    requires multiset(a) == multiset(b)
    ensures EffectsNumeric(a) <==> EffectsNumeric(b)
    ensures DeltaSum(a) == DeltaSum(b)
    decreases |a|
  {
    if |a| > 0 {
      assert a[0] in multiset(b);
      var j :| 0 <= j < |b| && b[j] == a[0];
      MultisetRemove(a, b, j);
      EffectOrderIrrelevant(a[1..], b[..j] + b[j + 1..]);
      DeltaSumRemove(a, 0);
      DeltaSumRemove(b, j);
      NumericRemove(a, 0);
      NumericRemove(b, j);
      assert a[..0] + a[1..] == a[1..];
    }
  }

  /** The skill bonus; skills do not contribute yet. */
  const SkillBonus := 0

  /** `calculate_modifier`: ability modifier, plus the skill bonus, plus status effects. */
  function CalculateModifier(data: Json, a: ActionType): (r: Result<int, string>)
    ensures r.Ok? ==> data.JObj?
  {
    match GetAbilityScore(data, a)
    case Err(e) => Err(e)
    case Ok(score) =>
      match AsInt(score)
      case Err(e) => Err(e)
      case Ok(s) => ApplyStatusEffects(AbilityModifier(s) + SkillBonus, data)
  }

  /**
   * For a dict whose ability value is an int (or missing, read as 10) and whose
   * effects are a list of numeric effects, the modifier is the ability modifier
   * plus the sum of the effect deltas.
   */
  lemma CalculateModifierSpec(entries: seq<(string, Json)>, a: ActionType, effects: seq<Json>)
    requires Get(entries, a.Value()).None? || Get(entries, a.Value()).value.JInt?
    requires GetOr(entries, "status_effects", JArr([])) == JArr(effects)
    requires EffectsNumeric(effects)
    ensures var score := if Get(entries, a.Value()).None? then 10 else Get(entries, a.Value()).value.i;
            CalculateModifier(JObj(entries), a) == Ok(AbilityModifier(score) + DeltaSum(effects))
  {
    var key := a.Value();
    var score := if Get(entries, key).None? then 10 else Get(entries, key).value.i;
    assert GetAbilityScore(JObj(entries), a) == Ok(JInt(score));
    assert AsInt(JInt(score)) == Ok(score);
    assert EffectItems(JArr(effects)) == Ok(effects);
    var base := AbilityModifier(score) + SkillBonus;
    assert ApplyStatusEffects(base, JObj(entries)) == Ok(base + DeltaSum(effects));
  }

  /** A missing ability reads as 10, so with no status effects the modifier is 0. */
  lemma MissingAbilityGivesZero(entries: seq<(string, Json)>, a: ActionType)
    requires Get(entries, a.Value()).None? && Get(entries, "status_effects").None?
    ensures CalculateModifier(JObj(entries), a) == Ok(0)
  {
  }

  /** `determine_outcome`: natural 1 and 20 are criticals, otherwise the total is compared to the DC. */
  function DetermineOutcome(diceResult: int, modifier: int, difficulty: int): (r: JudgmentOutcome)
    ensures diceResult == 1 ==> r == CriticalFailure
    ensures diceResult == 20 ==> r == CriticalSuccess
    ensures diceResult != 1 && diceResult != 20 ==>
              (r == Success <==> diceResult + modifier >= difficulty)
              && (r == Failure <==> diceResult + modifier < difficulty)
  {
    if diceResult == 1 then CriticalFailure
    else if diceResult == 20 then CriticalSuccess
    else if diceResult + modifier >= difficulty then Success
    else Failure
  }

  /** Criticals come from the die alone: the outcome is critical iff the die shows 1 or 20. */
  lemma CriticalIffNatural(diceResult: int, modifier: int, difficulty: int)
    ensures DetermineOutcome(diceResult, modifier, difficulty) == CriticalFailure <==> diceResult == 1
    ensures DetermineOutcome(diceResult, modifier, difficulty) == CriticalSuccess <==> diceResult == 20
  {
  }

  /** Outcomes ranked from worst to best. */
  function Rank(o: JudgmentOutcome): int {
    match o
    case CriticalFailure => 0
    case Failure => 1
    case Success => 2
    case CriticalSuccess => 3
  }

  /** A larger modifier or a lower DC never makes the outcome worse. */
  lemma OutcomeMonotone(diceResult: int, m1: int, m2: int, dc1: int, dc2: int)
    requires m1 <= m2 && dc2 <= dc1
    ensures Rank(DetermineOutcome(diceResult, m1, dc1)) <= Rank(DetermineOutcome(diceResult, m2, dc2))
  {
  }
}

=== FILE: gm_analysis.dfy ===
/**
 * Phase 1 of the game-master service of `backend/app/services/ai_gm_service_v2.py`
 * (`analyze_actions`): the actions are validated, the game context loaded,
 * the actions analysed by the AI judge, every die pre-rolled and a fresh
 * stream buffer opened. The judging and pre-roll steps it relies on are in
 * `GmService`.
 */
module GmAnalysis {
  import opened Common
  import opened Json
  import opened Schemas
  import opened Models
  import opened GmService
  import JudgmentNode
  import StreamBuffer
  import ContextLoader

  /**
   * The end of phase 1: pre-roll every analysed action and open a fresh stream
   * buffer. Analyses from the judgment node are always within the DC bounds,
   * so the pre-roll's validation cannot fail here.
   */
  function PreRollAndOpen(
    db: Db, reg: StreamBuffer.Registry, sessionId: int, analyses: seq<ActionAnalysis>, rolls: seq<int>, now: int)
    : (r: (Db, StreamBuffer.Registry))
    requires |rolls| >= |analyses|
    requires forall i :: 0 <= i < |rolls| ==> IsD20(rolls[i])
    requires forall i :: 0 <= i < |analyses| ==> analyses[i].Valid()
    ensures var (db', reg') := r;
            && |db'.judgments| == |db.judgments| + |analyses|
            && db'.judgments[..|db.judgments|] == db.judgments
            && (forall i :: 0 <= i < |analyses| ==>
                  && db'.judgments[|db.judgments| + i].phase == PhasePreRolled
                  && db'.judgments[|db.judgments| + i].sessionId == sessionId
                  && db'.judgments[|db.judgments| + i].characterId == analyses[i].characterId
                  && db'.judgments[|db.judgments| + i].diceResult == Some(rolls[i]))
            && db'.logs == db.logs
            && sessionId in reg'.buffers
            && reg'.buffers[sessionId] == StreamBuffer.NewBuffer(sessionId, StreamBuffer.DefaultMaxSize, now)
  {
    var used := rolls[..|analyses|];
    var db' := PreRollDice(db, sessionId, analyses, used, now).value.0;
    assert forall i :: 0 <= i < |analyses| ==>
      db'.judgments[|db.judgments| + i] == PreRollRecord(db.nextId + i, sessionId, analyses[i], used[i], now);
    var (reg', _) := StreamBuffer.CreateBuffer(reg, sessionId, StreamBuffer.DefaultMaxSize, now);
    (db', reg')
  }

  /**
   * Phase 1 writes nothing but judgment rows: the database is the pre-roll's,
   * which only appends rows with consecutive ids from the counter.
   */
  lemma PreRollAndOpenTables(
    db: Db, reg: StreamBuffer.Registry, sessionId: int, analyses: seq<ActionAnalysis>, rolls: seq<int>, now: int)
    requires |rolls| >= |analyses|
    requires forall i :: 0 <= i < |rolls| ==> IsD20(rolls[i])
    requires forall i :: 0 <= i < |analyses| ==> analyses[i].Valid()
    ensures var db' := PreRollAndOpen(db, reg, sessionId, analyses, rolls, now).0;
            && db' == PreRollDice(db, sessionId, analyses, rolls[..|analyses|], now).value.0
            && db' == db.(judgments := db'.judgments, nextId := db.nextId + |analyses|)
            && forall k :: |db.judgments| <= k < |db'.judgments| ==> db'.judgments[k].id == db.nextId + (k - |db.judgments|)
  {
    var used := rolls[..|analyses|];
    var db' := PreRollAndOpen(db, reg, sessionId, analyses, rolls, now).0;
    forall k | |db.judgments| <= k < |db'.judgments| ensures db'.judgments[k].id == db.nextId + (k - |db.judgments|) {
      PreRollRow(db, sessionId, analyses, used, now, k - |db.judgments|);
    }
  }

  /** Phase 1 replaces this session's stream buffer by a fresh one and keeps every other buffer. */
  lemma PreRollAndOpenBuffers(
    db: Db, reg: StreamBuffer.Registry, sessionId: int, analyses: seq<ActionAnalysis>, rolls: seq<int>, now: int)
    requires |rolls| >= |analyses|
    requires forall i :: 0 <= i < |rolls| ==> IsD20(rolls[i])
    requires forall i :: 0 <= i < |analyses| ==> analyses[i].Valid()
    ensures PreRollAndOpen(db, reg, sessionId, analyses, rolls, now).1.buffers
            == reg.buffers[sessionId := StreamBuffer.NewBuffer(sessionId, StreamBuffer.DefaultMaxSize, now)]
  {
  }

  /** Some action belongs to a character of the loaded context. */
  predicate AnyKnown(actions: seq<PlayerAction>, sheets: seq<CharacterSheet>) {
    exists i :: 0 <= i < |actions| && JudgmentNode.LookupSheet(sheets, actions[i].characterId).Some?
  }

  /**
   * `analyze_actions` once the game context is loaded: AI analysis, then the
   * pre-roll and a fresh stream buffer. An analysis error gets its prefix.
   */
  function AnalyzeInContext(
    db: Db,
    reg: StreamBuffer.Registry,
    sessionId: int,
    actions: seq<PlayerAction>,
    ctx: GameContext,
    judge: JudgmentNode.JudgeRequest -> JudgmentNode.JudgeReply,
    decode: string -> Option<Json>,
    rolls: seq<int>,
    now: int): (r: Result<(Db, StreamBuffer.Registry, seq<ActionAnalysis>), string>)
    requires |rolls| >= |actions|
    requires forall i :: 0 <= i < |rolls| ==> IsD20(rolls[i])
    ensures r.Ok? <==> AnyKnown(actions, ctx.characters)
    ensures r.Err? ==> r == Err(AnalysisFailurePrefix + JudgmentNode.NoValidActions)
    ensures r.Ok? ==>
              && 0 < |r.value.2| <= |actions|
              && (forall i :: 0 <= i < |r.value.2| ==> r.value.2[i].Valid())
              && (r.value.0, r.value.1) == PreRollAndOpen(db, reg, sessionId, r.value.2, rolls, now)
              && r.value.2 == JudgmentNode.AnalyzeAndJudge(actions, ctx.characters, ctx.worldPrompt, ctx.storyHistory, judge, decode).value
    ensures r.Ok? ==> forall i :: |db.judgments| <= i < |r.value.0.judgments| ==>
              JudgmentNode.Submitted(actions, ctx.characters, r.value.0.judgments[i].characterId)
  {
    var judged := JudgmentNode.AnalyzeAndJudge(actions, ctx.characters, ctx.worldPrompt, ctx.storyHistory, judge, decode);
    JudgedFacts(actions, ctx.characters, ctx.worldPrompt, ctx.storyHistory, judge, decode);
    if judged.Err? then Err(AnalysisFailurePrefix + judged.error)
    else
      var analyses := judged.value;
      var rolled := PreRollAndOpen(db, reg, sessionId, analyses, rolls, now);
      RowsFollowAnalyses(db, rolled.0, analyses, actions, ctx.characters);
      Ok((rolled.0, rolled.1, analyses))
  }

  /** What phase 1 needs of the judgment node: it succeeds iff some action is known, with valid analyses of submitted characters. */
  lemma JudgedFacts(
    actions: seq<PlayerAction>,
    sheets: seq<CharacterSheet>,
    worldContext: string,
    history: seq<StoryLogEntry>,
    judge: JudgmentNode.JudgeRequest -> JudgmentNode.JudgeReply,
    decode: string -> Option<Json>)
    ensures var r := JudgmentNode.AnalyzeAndJudge(actions, sheets, worldContext, history, judge, decode);
            && (r.Ok? <==> AnyKnown(actions, sheets))
            && (r.Err? ==> r.error == JudgmentNode.NoValidActions)
            && (r.Ok? ==> 0 < |r.value| <= |actions|)
            && (r.Ok? ==> forall i :: 0 <= i < |r.value| ==>
                  r.value[i].Valid() && JudgmentNode.Submitted(actions, sheets, r.value[i].characterId))
  {
    var r := JudgmentNode.AnalyzeAndJudge(actions, sheets, worldContext, history, judge, decode);
    JudgmentNode.AnalysesForSubmitted(actions, sheets, worldContext, history, judge, decode);
    if r.Ok? {
      var i :| 0 <= i < |actions| && JudgmentNode.LookupSheet(sheets, actions[i].characterId).Some?;
      assert actions[i] in JudgmentNode.Kept(actions, sheets);
    }
  }

  /**
   * `analyze_actions` up to starting the background task: validation, context,
   * AI analysis, pre-roll, then a fresh stream buffer. Errors from the context
   * loader and from everything after it carry different prefixes.
   */
  function AnalyzeActions(
    db: Db,
    reg: StreamBuffer.Registry,
    sessionId: int,
    actions: seq<PlayerAction>,
    judge: JudgmentNode.JudgeRequest -> JudgmentNode.JudgeReply,
    decode: string -> Option<Json>,
    rolls: seq<int>,
    now: int): (r: Result<(Db, StreamBuffer.Registry, seq<ActionAnalysis>), string>)
    requires |rolls| >= |actions|
    requires forall i :: 0 <= i < |rolls| ==> IsD20(rolls[i])
    ensures |actions| == 0 ==> r == Err(NoActions)
    ensures |actions| > 0 && ContextLoader.LoadGameContext(db, sessionId, "").Err? ==>
              r == Err(ContextFailurePrefix + ContextLoader.LoadGameContext(db, sessionId, "").error)
    ensures |actions| > 0 && ContextLoader.LoadGameContext(db, sessionId, "").Ok? ==>
              r == AnalyzeInContext(db, reg, sessionId, actions, ContextLoader.LoadGameContext(db, sessionId, "").value,
                                    judge, decode, rolls, now)
    ensures r.Ok? <==> ContextLoader.LoadGameContext(db, sessionId, "").Ok?
                       && AnyKnown(actions, ContextLoader.LoadGameContext(db, sessionId, "").value.characters)
    ensures r.Ok? ==>
              && 0 < |r.value.2| <= |actions|
              && (forall i :: 0 <= i < |r.value.2| ==> r.value.2[i].Valid())
              && (r.value.0, r.value.1) == PreRollAndOpen(db, reg, sessionId, r.value.2, rolls, now)
  {
    if |actions| == 0 then Err(NoActions)
    else
      match ContextLoader.LoadGameContext(db, sessionId, "")
      case Err(e) => Err(ContextFailurePrefix + e)
      case Ok(ctx) => AnalyzeInContext(db, reg, sessionId, actions, ctx, judge, decode, rolls, now)
  }

  /** The rows appended after `db`'s are those of the analyses, so they inherit their characters. */
  lemma RowsFollowAnalyses(
    db: Db, db': Db, analyses: seq<ActionAnalysis>, actions: seq<PlayerAction>, chars: seq<CharacterSheet>)
    requires |db'.judgments| == |db.judgments| + |analyses|
    requires forall i :: 0 <= i < |analyses| ==> db'.judgments[|db.judgments| + i].characterId == analyses[i].characterId
    requires forall i :: 0 <= i < |analyses| ==> JudgmentNode.Submitted(actions, chars, analyses[i].characterId)
    ensures forall i :: |db.judgments| <= i < |db'.judgments| ==>
              JudgmentNode.Submitted(actions, chars, db'.judgments[i].characterId)
  {
    forall i | |db.judgments| <= i < |db'.judgments|
      ensures JudgmentNode.Submitted(actions, chars, db'.judgments[i].characterId)
    {
      assert db'.judgments[|db.judgments| + (i - |db.judgments|)].characterId == analyses[i - |db.judgments|].characterId;
    }
  }
}

=== FILE: gm_delivery.dfy ===
/**
 * How `backend/app/services/ai_gm_service_v2.py` hands the narrative to the
 * players: the consumer loop of `stream_narrative`, which yields the buffer's
 * tokens while the producer may still be adding to it and then saves the
 * narrative, and the legacy `generate_narrative`, which judges dice results,
 * asks the narrator once and stores one phase-3 row per judgment.
 *
 * The interleaving of producer and consumer is a parameter: the buffer as
 * each pass of the loop observes it.
 */
module GmDelivery {
  import opened Common
  import opened Text
  import opened Schemas
  import opened Models
  import opened GmService
  import opened GmNarration
  import DiceSystem
  import StreamBuffer
  import ContextLoader

  const NoDiceResults := "주사위 결과가 제공되지 않았습니다"
  const NarrativeFailurePrefix := "서술 생성 실패: "
  const NoBufferPrefix := "이야기 버퍼 없음: 세션="

  // ---------------------------------------------------------------------
  // Phase 3: the streaming loop
  // ---------------------------------------------------------------------

  /**
   * One pass of the streaming loop as the consumer sees the shared buffer:
   * `read` when `get_tokens` runs, `check` when `is_complete` is checked after
   * the batch has been yielded (the producer may run in between).
   */
  datatype Poll = Poll(read: StreamBuffer.Buffer, check: StreamBuffer.Buffer)

  /**
   * The observations are in time order on one append-only buffer that starts
   * as `start`, and some check sees it complete.
   */
  predicate PollsFollow(start: StreamBuffer.Buffer, polls: seq<Poll>) {
    && (exists k :: 0 <= k < |polls| && polls[k].check.isComplete)
    && (|polls| > 0 ==> start.tokens <= polls[0].read.tokens)
    && (forall i :: 0 <= i < |polls| ==> polls[i].read.tokens <= polls[i].check.tokens)
    && (forall i :: 0 < i < |polls| ==> polls[i - 1].check.tokens <= polls[i].read.tokens)
  }

  /** The first pass whose check sees the buffer complete, or `|polls|` if none does. */
  function FirstComplete(polls: seq<Poll>): (r: nat)
    ensures r <= |polls|
    ensures r < |polls| ==> polls[r].check.isComplete
    ensures forall j :: 0 <= j < r ==> !polls[j].check.isComplete
  {
    if |polls| == 0 || polls[0].check.isComplete then 0
    else 1 + FirstComplete(polls[1..])
  }

  /** What the passes before `k` yielded is the start of what pass `k` reads. */
  lemma YieldedIsRead(start: StreamBuffer.Buffer, polls: seq<Poll>, k: nat, yielded: seq<string>)
    requires PollsFollow(start, polls)
    requires k < |polls|
    requires k == 0 ==> yielded == []
    requires k > 0 ==> yielded == polls[k - 1].read.tokens
    ensures yielded <= polls[k].read.tokens
  {
    if k > 0 {
      assert yielded <= polls[k - 1].check.tokens;
    }
  }

  /**
   * The loop of `stream_narrative` from pass `k` on, having yielded `yielded`:
   * each pass yields the tokens from the cursor on, then stops if the buffer
   * is complete. Everything read by the first complete pass is yielded.
   */
  function StreamLoop(start: StreamBuffer.Buffer, polls: seq<Poll>, k: nat, yielded: seq<string>): (r: seq<string>)
    requires PollsFollow(start, polls)
    requires k <= FirstComplete(polls)
    requires k == 0 ==> yielded == []
    requires k > 0 ==> yielded == polls[k - 1].read.tokens
    ensures r == polls[FirstComplete(polls)].read.tokens
    decreases FirstComplete(polls) - k
  {
    YieldedIsRead(start, polls, k, yielded);
    var passed := yielded + StreamBuffer.GetTokens(polls[k].read, |yielded|);
    if polls[k].check.isComplete then passed
    else StreamLoop(start, polls, k + 1, passed)
  }

  /** The whole streaming loop, from an empty cursor. */
  function StreamPolls(start: StreamBuffer.Buffer, polls: seq<Poll>): (yielded: seq<string>)
    requires PollsFollow(start, polls)
    ensures yielded == polls[FirstComplete(polls)].read.tokens
  {
    StreamLoop(start, polls, 0, [])
  }

  /** The concatenation of a prefix is a prefix of the concatenation. */
  lemma ConcatPrefix(a: seq<string>, b: seq<string>)
    requires a <= b
    ensures Concat(a) <= Concat(b)
  {
    assert b == a + b[|a|..];
    ConcatAppend(a, b[|a|..]);
  }

  /**
   * `stream_narrative`: no buffer or an errored buffer is an error; otherwise
   * the loop yields tokens until a check sees the buffer complete, and then
   * the buffer's full text is saved (a failing save is swallowed, so no
   * failure is modelled). The streamed text is a prefix of the saved text.
   */
  function StreamNarrative(reg: StreamBuffer.Registry, sessionId: int, polls: seq<Poll>, db: Db, now: int)
    : (r: (Result<seq<string>, string>, Db))
    requires sessionId in reg.buffers && !reg.buffers[sessionId].HasError() ==> PollsFollow(reg.buffers[sessionId], polls)
    ensures sessionId !in reg.buffers ==> r == (Err(NoBufferPrefix + IntToString(sessionId)), db)
    ensures sessionId in reg.buffers && reg.buffers[sessionId].HasError() ==>
              r == (Err(StoryFailurePrefix + reg.buffers[sessionId].error.value), db)
    ensures sessionId in reg.buffers && !reg.buffers[sessionId].HasError() ==>
              var last := polls[FirstComplete(polls)];
              && r.0 == Ok(last.read.tokens)
              && r.1 == SaveNarrativeToDatabase(db, sessionId, StreamBuffer.GetFullText(last.check), now)
              && r.0.value <= last.check.tokens
              && Concat(r.0.value) <= StreamBuffer.GetFullText(last.check)
  {
    if sessionId !in reg.buffers then (Err(NoBufferPrefix + IntToString(sessionId)), db)
    else
      var b := reg.buffers[sessionId];
      if b.HasError() then (Err(StoryFailurePrefix + b.error.value), db)
      else
        var yielded := StreamPolls(b, polls);
        var last := polls[FirstComplete(polls)];
        ConcatPrefix(yielded, last.check.tokens);
        (Ok(yielded), SaveNarrativeToDatabase(db, sessionId, StreamBuffer.GetFullText(last.check), now))
  }

  /**
   * Tokens the producer adds while the last batch is being yielded, just
   * before it completes the buffer, are saved but never streamed.
   */
  lemma LateTokensNotStreamed()
    ensures var start := StreamBuffer.NewBuffer(1, StreamBuffer.DefaultMaxSize, 0);
            var polls := [Poll(start.(tokens := ["a"], totalChars := 1),
                               start.(tokens := ["a", "b"], totalChars := 2, isComplete := true))];
            && PollsFollow(start, polls)
            && FirstComplete(polls) == 0
            && polls[0].read.tokens != polls[0].check.tokens
            && StreamBuffer.GetFullText(polls[0].check) == "ab"
  {
    var start := StreamBuffer.NewBuffer(1, StreamBuffer.DefaultMaxSize, 0);
    var polls := [Poll(start.(tokens := ["a"], totalChars := 1),
                       start.(tokens := ["a", "b"], totalChars := 2, isComplete := true))];
    assert polls[0].check.isComplete;
    assert Concat(["a", "b"]) == "a" + Concat(["b"]);
  }

  /**
   * `stream_narrative` with the loop drained once more after the completing
   * check: a complete buffer refuses every later token, so the consumer then
   * streams exactly the text it saves.
   */
  function StreamNarrativeDrained(reg: StreamBuffer.Registry, sessionId: int, polls: seq<Poll>, db: Db, now: int)
    : (r: (Result<seq<string>, string>, Db))
    requires sessionId in reg.buffers && !reg.buffers[sessionId].HasError() ==> PollsFollow(reg.buffers[sessionId], polls)
    ensures sessionId !in reg.buffers ==> r == (Err(NoBufferPrefix + IntToString(sessionId)), db)
    ensures sessionId in reg.buffers && reg.buffers[sessionId].HasError() ==>
              r == (Err(StoryFailurePrefix + reg.buffers[sessionId].error.value), db)
    ensures sessionId in reg.buffers && !reg.buffers[sessionId].HasError() ==>
              var last := polls[FirstComplete(polls)];
              && r.0 == Ok(last.check.tokens)
              && r.1 == SaveNarrativeToDatabase(db, sessionId, Concat(r.0.value), now)
  {
    if sessionId !in reg.buffers then (Err(NoBufferPrefix + IntToString(sessionId)), db)
    else
      var b := reg.buffers[sessionId];
      if b.HasError() then (Err(StoryFailurePrefix + b.error.value), db)
      else
        var yielded := StreamPolls(b, polls);
        var last := polls[FirstComplete(polls)];
        assert last.check.tokens[..|yielded|] == yielded;
        var drained := yielded + StreamBuffer.GetTokens(last.check, |yielded|);
        assert drained == last.check.tokens;
        (Ok(drained), SaveNarrativeToDatabase(db, sessionId, StreamBuffer.GetFullText(last.check), now))
  }

  // ---------------------------------------------------------------------
  // Legacy phase 3: judge, narrate, save
  // ---------------------------------------------------------------------

  /** What the narrator is given. */
  datatype NarrativeRequest = NarrativeRequest(
    judgments: seq<JudgmentResult>,
    characters: seq<CharacterSheet>,
    worldContext: string,
    history: seq<StoryLogEntry>)

  datatype NarratorReply = Narrated(text: string) | NarrationFailed(message: string)

  datatype NarrativeResult = NarrativeResult(
    sessionId: int,
    judgments: seq<JudgmentResult>,
    fullNarrative: string,
    isComplete: bool)

  /** The phase-3 row `_save_results` stores for one judgment: no action type, no DC reasoning. */
  function NarratedRecord(id: int, sessionId: int, logId: int, j: JudgmentResult, now: int): (row: ActionJudgment)
    ensures row.phase == PhaseNarrated && row.storyLogId == Some(logId)
    ensures row.actionType.None? && row.difficultyReasoning.None?
    ensures row.diceResult == Some(j.diceResult) && row.finalValue == Some(j.finalValue)
    ensures row.outcome == Some(j.outcome.Value())
  {
    ActionJudgment(id, sessionId, j.characterId, Some(logId), j.actionText, None, Some(j.diceResult),
                   j.modifier, Some(j.finalValue), j.difficulty, None, Some(j.outcome.Value()),
                   PhaseNarrated, now)
  }

  /** `_save_results`: one AI log, then one narrated row per judgment linked to it. */
  function SaveResults(db: Db, sessionId: int, judgments: seq<JudgmentResult>, narrative: string, now: int): (r: Db)
    ensures r.logs == db.logs + [AiLog(db.nextId, sessionId, narrative, now)]
    ensures |r.judgments| == |db.judgments| + |judgments|
    ensures r.judgments[..|db.judgments|] == db.judgments
    ensures forall i :: 0 <= i < |judgments| ==>
              r.judgments[|db.judgments| + i] == NarratedRecord(db.nextId + 1 + i, sessionId, db.nextId, judgments[i], now)
    ensures r.nextId == db.nextId + 1 + |judgments|
  {
    var logId := db.nextId;
    var rows := seq(|judgments|, i requires 0 <= i < |judgments| =>
      NarratedRecord(logId + 1 + i, sessionId, logId, judgments[i], now));
    db.(logs := db.logs + [AiLog(logId, sessionId, narrative, now)],
        judgments := db.judgments + rows,
        nextId := logId + 1 + |judgments|)
  }

  /** Every stored outcome string parses back to the judgment it came from. */
  lemma SavedOutcomesParse(db: Db, sessionId: int, judgments: seq<JudgmentResult>, narrative: string, now: int, i: int)
    requires 0 <= i < |judgments|
    ensures var row := SaveResults(db, sessionId, judgments, narrative, now).judgments[|db.judgments| + i];
            ParseOutcome(row.outcome.value) == Some(judgments[i].outcome)
  {
    OutcomeRoundTrip(judgments[i].outcome);
  }

  /** What `generate_narrative` hands the narrator: the judged results and the loaded context. */
  function RequestFor(ctx: GameContext, results: seq<DiceResult>): (q: NarrativeRequest)
    requires forall i :: 0 <= i < |results| ==> results[i].Valid()
    ensures |q.judgments| == |results|
    ensures q.characters == ctx.characters && q.worldContext == ctx.worldPrompt && q.history == ctx.storyHistory
  {
    NarrativeRequest(JudgeDiceResults(results), ctx.characters, ctx.worldPrompt, ctx.storyHistory)
  }

  /** `generate_narrative`. */
  function GenerateNarrative(
    db: Db,
    sessionId: int,
    results: seq<DiceResult>,
    narrate: NarrativeRequest -> NarratorReply,
    now: int): (r: Result<(Db, NarrativeResult), string>)
    requires forall i :: 0 <= i < |results| ==> results[i].Valid()
    ensures |results| == 0 ==> r == Err(NoDiceResults)
    ensures |results| > 0 && ContextLoader.LoadGameContext(db, sessionId, "").Err? ==>
              r == Err(ContextFailurePrefix + ContextLoader.LoadGameContext(db, sessionId, "").error)
    ensures |results| > 0 && ContextLoader.LoadGameContext(db, sessionId, "").Ok? ==>
              var reply := narrate(RequestFor(ContextLoader.LoadGameContext(db, sessionId, "").value, results));
              && (reply.NarrationFailed? ==> r == Err(NarrativeFailurePrefix + reply.message))
              && (reply.Narrated? ==> r.Ok? && r.value.1.fullNarrative == reply.text)
    ensures r.Ok? ==>
              var (db', res) := r.value;
              && res.judgments == JudgeDiceResults(results)
              && res.sessionId == sessionId && res.isComplete
              && db' == SaveResults(db, sessionId, res.judgments, res.fullNarrative, now)
  {
    if |results| == 0 then Err(NoDiceResults)
    else
      match ContextLoader.LoadGameContext(db, sessionId, "")
      case Err(e) => Err(ContextFailurePrefix + e)
      case Ok(ctx) =>
        var judgments := JudgeDiceResults(results);
        match narrate(RequestFor(ctx, results))
        case NarrationFailed(m) => Err(NarrativeFailurePrefix + m)
        case Narrated(text) =>
          Ok((SaveResults(db, sessionId, judgments, text, now), NarrativeResult(sessionId, judgments, text, true)))
  }

  /**
   * What `generate_narrative` stores for judged dice follows the judgment
   * rules: the new AI log holds the narrative, and each submitted die gets one
   * row linked to it with the die, the modifier's sum and the outcome the
   * rules give, stored as text that parses back.
   */
  lemma SavedRowsFollowRules(db: Db, sessionId: int, results: seq<DiceResult>, narrative: string, now: int, i: int)
    requires forall k :: 0 <= k < |results| ==> results[k].Valid()
    requires 0 <= i < |results|
    ensures var db' := SaveResults(db, sessionId, JudgeDiceResults(results), narrative, now);
            var row := db'.judgments[|db.judgments| + i];
            && db'.logs[|db.logs|].content == narrative
            && row.storyLogId == Some(db'.logs[|db.logs|].id)
            && row.characterId == results[i].characterId
            && row.diceResult == Some(results[i].diceRoll)
            && row.finalValue == Some(results[i].diceRoll + results[i].modifier)
            && ParseOutcome(row.outcome.value)
               == Some(DiceSystem.DetermineOutcome(results[i].diceRoll, results[i].modifier, results[i].difficulty))
  {
    SavedOutcomesParse(db, sessionId, JudgeDiceResults(results), narrative, now, i);
  }
}

=== FILE: gm_narration.dfy ===
/**
 * The part of `backend/app/services/ai_gm_service_v2.py` after the dice are
 * pre-rolled: phase 2 reveals a player's pre-rolled die; the background
 * producer fills the session's stream buffer with the narrator's tokens; at
 * the end of phase 3 the narrative is saved as one new AI story log and the
 * confirmed rows are linked to it. How the narrative reaches the players is
 * in `GmDelivery`.
 */
module GmNarration {
  import opened Common
  import opened Text
  import opened Schemas
  import opened Models
  import opened GmService
  import DiceSystem
  import StreamBuffer
  import ContextLoader

  // ---------------------------------------------------------------------
  // Phase 2: confirm a pre-rolled die
  // ---------------------------------------------------------------------

  predicate InPhase(j: ActionJudgment, sessionId: int, characterId: int, phase: int) {
    j.sessionId == sessionId && j.characterId == characterId && j.phase == phase
  }

  /** The character's row in this phase with the largest id (a query ordered by id, descending). */
  function LatestInPhase(js: seq<ActionJudgment>, sessionId: int, characterId: int, phase: int): (r: Option<nat>)
    ensures r.Some? ==> r.value < |js| && InPhase(js[r.value], sessionId, characterId, phase)
    ensures r.Some? ==> forall k :: 0 <= k < |js| && InPhase(js[k], sessionId, characterId, phase) ==> js[k].id <= js[r.value].id
    ensures r.None? <==> forall k :: 0 <= k < |js| ==> !InPhase(js[k], sessionId, characterId, phase)
  {
    if |js| == 0 then None
    else
      var last := |js| - 1;
      var init := js[..last];
      assert forall k :: 0 <= k < last ==> init[k] == js[k];
      match LatestInPhase(init, sessionId, characterId, phase)
      case None => if InPhase(js[last], sessionId, characterId, phase) then Some(last) else None
      case Some(k) =>
        if InPhase(js[last], sessionId, characterId, phase) && js[last].id > js[k].id then Some(last) else Some(k)
  }

  /** The newest pre-rolled row of the character. */
  function LatestPreRolled(js: seq<ActionJudgment>, sessionId: int, characterId: int): Option<nat> {
    LatestInPhase(js, sessionId, characterId, PhasePreRolled)
  }

  function ConfirmMissing(sessionId: int, characterId: int): string {
    "사전 굴림된 주사위 없음: 세션=" + IntToString(sessionId) + ", 캐릭터=" + IntToString(characterId)
  }

  /**
   * `confirm_dice_roll`: the newest phase-0 row of the character moves to
   * phase 2 and is committed; the stored values are then revealed as a
   * `DiceResult`. The commit comes before the result is validated, so a row
   * with an empty or out-of-range die is confirmed and still reported as an error.
   */
  function ConfirmDiceRoll(db: Db, sessionId: int, characterId: int): (r: (Db, Result<DiceResult, string>))
    ensures LatestPreRolled(db.judgments, sessionId, characterId).None? ==>
              r == (db, Err(ConfirmMissing(sessionId, characterId)))
    ensures LatestPreRolled(db.judgments, sessionId, characterId).Some? ==>
              var k := LatestPreRolled(db.judgments, sessionId, characterId).value;
              var row := db.judgments[k];
              && r.0 == db.(judgments := db.judgments[k := row.(phase := PhaseConfirmed)])
              && (r.1.Ok? <==> row.diceResult.Some? && IsD20(row.diceResult.value) && IsDc(row.difficulty))
              && (r.1.Ok? ==> r.1.value == DiceResult(characterId, row.actionText, row.diceResult.value,
                                                       row.modifier, row.difficulty))
  {
    match LatestPreRolled(db.judgments, sessionId, characterId)
    case None => (db, Err(ConfirmMissing(sessionId, characterId)))
    case Some(k) =>
      var row := db.judgments[k];
      var db' := db.(judgments := db.judgments[k := row.(phase := PhaseConfirmed)]);
      match row.diceResult
      case None => (db', Err(ValidationError))
      case Some(d) => (db', NewDiceResult(characterId, row.actionText, d, row.modifier, row.difficulty))
  }

  /**
   * Confirming right after a pre-roll reveals exactly the pre-rolled die: the
   * new row has the largest id, so it is the one picked, and re-judging the
   * revealed result reproduces the pre-rolled judgment.
   */
  lemma PreRollThenConfirm(db: Db, sessionId: int, a: ActionAnalysis, roll: int, now: int)
    requires db.IdsFresh() && IsD20(roll) && a.Valid()
    ensures PreRollDice(db, sessionId, [a], [roll], now).Ok?
    ensures var (db', js) := PreRollDice(db, sessionId, [a], [roll], now).value;
            var (db'', dr) := ConfirmDiceRoll(db', sessionId, a.characterId);
            && dr == Ok(DiceResult(a.characterId, a.actionText, roll, a.modifier, a.difficulty))
            && db''.judgments[|db.judgments|].phase == PhaseConfirmed
            && JudgeDiceResults([dr.value]) == js
  {
    var (db', js) := PreRollDice(db, sessionId, [a], [roll], now).value;
    var last := |db.judgments|;
    assert db'.judgments[last] == PreRollRecord(db.nextId, sessionId, a, roll, now);
    var found := LatestPreRolled(db'.judgments, sessionId, a.characterId);
    assert forall k :: 0 <= k < last ==> db'.judgments[k] == db.judgments[k];
    assert found.Some?;
    assert found.value == last;
    var dr := DiceResult(a.characterId, a.actionText, roll, a.modifier, a.difficulty);
    assert JudgeDiceResults([dr])[0] == js[0];
  }

  // ---------------------------------------------------------------------
  // Background producer
  // ---------------------------------------------------------------------

  /**
   * `_generate_narrative_background` on one buffer: the generator yields
   * `tokens` and then either finishes or raises `failure`. A refused token
   * stops the loop and completes the buffer; a raised failure marks the error.
   */
  function Produce(b: StreamBuffer.Buffer, tokens: seq<string>, failure: Option<string>): (r: StreamBuffer.Buffer)
    ensures r.isComplete
    ensures exists n :: 0 <= n <= |tokens| && r.tokens == b.tokens + tokens[..n]
    ensures b.Valid() ==> r.Valid()
    ensures r.error == b.error || (failure.Some? && r.error == Some(StoryFailurePrefix + failure.value))
  {
    var (fed, stopped) := StreamBuffer.Feed(b, tokens);
    if stopped then StreamBuffer.MarkComplete(fed)
    else
      match failure
      case None => StreamBuffer.MarkComplete(fed)
      case Some(m) => StreamBuffer.MarkError(fed, StoryFailurePrefix + m)
  }

  /** With room for everything, the producer stores the whole stream and reports exactly its failure. */
  lemma ProduceFits(b: StreamBuffer.Buffer, tokens: seq<string>, failure: Option<string>)
    requires b.Valid() && !b.isComplete && !b.HasError()
    requires b.totalChars + TotalLength(tokens) <= b.maxSize
    ensures Produce(b, tokens, failure).tokens == b.tokens + tokens
    ensures StreamBuffer.GetFullText(Produce(b, tokens, failure)) == StreamBuffer.GetFullText(b) + Concat(tokens)
    ensures failure.None? ==> Produce(b, tokens, failure).error == b.error
    ensures failure.Some? ==> Produce(b, tokens, failure).error == Some(StoryFailurePrefix + failure.value)
  {
    StreamBuffer.FeedFits(b, tokens);
    ConcatAppend(b.tokens, tokens);
  }

  /** The background task: nothing happens without a buffer; otherwise only that buffer changes. */
  function GenerateNarrativeBackground(reg: StreamBuffer.Registry, sessionId: int, tokens: seq<string>, failure: Option<string>)
    : (r: StreamBuffer.Registry)
    ensures sessionId !in reg.buffers ==> r == reg
    ensures sessionId in reg.buffers ==>
              r.buffers == reg.buffers[sessionId := Produce(reg.buffers[sessionId], tokens, failure)]
  {
    match StreamBuffer.GetBuffer(reg, sessionId)
    case None => reg
    case Some(b) => StreamBuffer.Registry(reg.buffers[sessionId := Produce(b, tokens, failure)])
  }

  // ---------------------------------------------------------------------
  // Phase 3: saving the narrative
  // ---------------------------------------------------------------------

  /** One AI story log, as `_save_narrative_to_database` and `_save_results` add it. */
  function AiLog(id: int, sessionId: int, narrative: string, now: int): (l: StoryLog)
    ensures l.role == "AI" && l.content == narrative && l.sessionId == sessionId && l.id == id
  {
    StoryLog(id, sessionId, "AI", narrative, now)
  }

  /** Every confirmed row of the session is linked to the log and narrated; the rest is kept. */
  function LinkConfirmed(js: seq<ActionJudgment>, sessionId: int, logId: int): (r: seq<ActionJudgment>)
    ensures |r| == |js|
    ensures forall i :: 0 <= i < |js| ==>
              if js[i].sessionId == sessionId && js[i].phase == PhaseConfirmed
              then r[i] == js[i].(storyLogId := Some(logId), phase := PhaseNarrated)
              else r[i] == js[i]
  {
    seq(|js|, i requires 0 <= i < |js| =>
      if js[i].sessionId == sessionId && js[i].phase == PhaseConfirmed
      then js[i].(storyLogId := Some(logId), phase := PhaseNarrated)
      else js[i])
  }

  /** `_save_narrative_to_database`: one new AI log, and the session's confirmed rows point at it. */
  function SaveNarrativeToDatabase(db: Db, sessionId: int, narrative: string, now: int): (r: Db)
    ensures r.logs == db.logs + [AiLog(db.nextId, sessionId, narrative, now)]
    ensures r.judgments == LinkConfirmed(db.judgments, sessionId, db.nextId)
    ensures r.nextId == db.nextId + 1
    ensures r.sessions == db.sessions && r.characters == db.characters && r.participants == db.participants
  {
    db.(logs := db.logs + [AiLog(db.nextId, sessionId, narrative, now)],
        judgments := LinkConfirmed(db.judgments, sessionId, db.nextId),
        nextId := db.nextId + 1)
  }

  /** After saving, no row of the session is left confirmed, and no other phase changes. */
  lemma SaveNarrativeLeavesNoConfirmed(db: Db, sessionId: int, narrative: string, now: int)
    ensures var r := SaveNarrativeToDatabase(db, sessionId, narrative, now);
            && (forall i :: 0 <= i < |r.judgments| && r.judgments[i].sessionId == sessionId ==>
                  r.judgments[i].phase != PhaseConfirmed)
            && (forall i :: 0 <= i < |r.judgments| && db.judgments[i].phase != PhaseConfirmed ==>
                  r.judgments[i] == db.judgments[i])
  {
  }
}

=== FILE: gm_service.dfy ===
/**
 * The game-master service of `backend/app/services/ai_gm_service_v2.py`:
 * the outcome texts, judging dice results and pre-rolling every die into
 * phase-0 rows. Phase 1 (`analyze_actions`) is in `GmAnalysis`; revealing
 * the dice (phase 2), the background producer and saving the narrative
 * (phase 3) are in `GmNarration`; streaming it and the legacy non-streaming
 * path are in `GmDelivery`.
 *
 * Random draws, the clock, the AI judge and narrator, and the token stream
 * are parameters. A call that raises returns `Err` and leaves the database
 * as it was, as the source's rollback does.
 */
module GmService {
  import opened Common
  import opened Text
  import opened Schemas
  import opened Models
  import DiceSystem

  const NoActions := "플레이어 행동이 제공되지 않았습니다"
  const ContextFailurePrefix := "게임 컨텍스트 로드 실패: "
  const AnalysisFailurePrefix := "행동 분석 실패: "
  const StoryFailurePrefix := "이야기 생성 실패: "
  const ValidationError := "validation error"

  // ---------------------------------------------------------------------
  // Outcome reasoning texts
  // ---------------------------------------------------------------------

  /** Which of the six explanation texts `_get_outcome_reasoning` picks. */
  datatype ReasonKind = NaturalOne | FarBelow | ShortOfDc | BeatDc | NaturalTwenty | FarAbove

  /** The text choice: criticals split on the natural die, the others on the outcome alone. */
  function ReasonKindOf(diceResult: int, outcome: JudgmentOutcome): (k: ReasonKind)
    ensures outcome.CriticalFailure? <==> k in {NaturalOne, FarBelow}
    ensures outcome.CriticalSuccess? <==> k in {NaturalTwenty, FarAbove}
    ensures k == NaturalOne <==> outcome.CriticalFailure? && diceResult == 1
    ensures k == NaturalTwenty <==> outcome.CriticalSuccess? && diceResult == 20
  {
    match outcome
    case CriticalFailure => if diceResult == 1 then NaturalOne else FarBelow
    case Failure => ShortOfDc
    case Success => BeatDc
    case CriticalSuccess => if diceResult == 20 then NaturalTwenty else FarAbove
  }

  /** The outcome each text describes. */
  function OutcomeOfKind(k: ReasonKind): JudgmentOutcome {
    match k
    case NaturalOne => CriticalFailure
    case FarBelow => CriticalFailure
    case ShortOfDc => Failure
    case BeatDc => Success
    case NaturalTwenty => CriticalSuccess
    case FarAbove => CriticalSuccess
  }

  /** The text names the outcome it was chosen for: the outcome is recoverable from it. */
  lemma ReasonKindNamesOutcome(diceResult: int, outcome: JudgmentOutcome)
    ensures OutcomeOfKind(ReasonKindOf(diceResult, outcome)) == outcome
  {
  }

  function ReasonText(k: ReasonKind, finalValue: int, difficulty: int): string {
    var f := IntToString(finalValue);
    var d := IntToString(difficulty);
    match k
    case NaturalOne => "자연적 1이 나와 자동으로 대실패했습니다."
    case FarBelow => "최종 값 " + f + "이(가) 난이도 " + d + "보다 10 이상 낮아 대실패했습니다."
    case ShortOfDc => "최종 값 " + f + "이(가) 난이도 " + d + "에 미치지 못해 실패했습니다."
    case BeatDc => "최종 값 " + f + "이(가) 난이도 " + d + "을(를) 넘어 성공했습니다."
    case NaturalTwenty => "자연적 20이 나와 자동으로 대성공했습니다!"
    case FarAbove => "최종 값 " + f + "이(가) 난이도 " + d + "보다 10 이상 높아 대성공했습니다!"
  }

  /** `_get_outcome_reasoning`; the enum has four members, so the final fallback text is never reached. */
  function OutcomeReasoning(diceResult: int, finalValue: int, difficulty: int, outcome: JudgmentOutcome): string {
    ReasonText(ReasonKindOf(diceResult, outcome), finalValue, difficulty)
  }

  /**
   * With outcomes from `determine_outcome`, criticals only come from a natural
   * 1 or 20, so the two "10 or more beyond the DC" texts are unreachable and a
   * natural 1 or 20 always gets its own text.
   */
  lemma MarginTextsUnreachable(diceResult: int, modifier: int, difficulty: int)
    ensures var k := ReasonKindOf(diceResult, DiceSystem.DetermineOutcome(diceResult, modifier, difficulty));
            && k != FarBelow && k != FarAbove
            && (k == NaturalOne <==> diceResult == 1)
            && (k == NaturalTwenty <==> diceResult == 20)
  {
    DiceSystem.CriticalIffNatural(diceResult, modifier, difficulty);
  }

  // ---------------------------------------------------------------------
  // Judging dice results
  // ---------------------------------------------------------------------

  /** One `JudgmentResult` as `_judge_dice_results` and `_preroll_dice` build it. */
  function Judge(characterId: int, actionText: string, roll: int, modifier: int, difficulty: int): (j: JudgmentResult)
    ensures j.characterId == characterId && j.actionText == actionText
    ensures j.modifier == modifier && j.difficulty == difficulty
    ensures j.finalValue == roll + modifier && j.diceResult == roll
    ensures j.outcome == DiceSystem.DetermineOutcome(roll, modifier, difficulty)
    ensures j.difficultyReasoning.None? && j.outcomeReasoning.Some?
    ensures OutcomeOfKind(ReasonKindOf(roll, j.outcome)) == j.outcome
  {
    var o := DiceSystem.DetermineOutcome(roll, modifier, difficulty);
    JudgmentResult(characterId, actionText, roll, modifier, roll + modifier, difficulty, None, o,
                   Some(OutcomeReasoning(roll, roll + modifier, difficulty, o)))
  }

  /** `_judge_dice_results`: one judgment per result, in order; the inputs already passed validation. */
  function JudgeDiceResults(results: seq<DiceResult>): (r: seq<JudgmentResult>)
    requires forall i :: 0 <= i < |results| ==> results[i].Valid()
    ensures |r| == |results|
    ensures forall i :: 0 <= i < |results| ==>
              && r[i].Valid()
              && r[i].characterId == results[i].characterId
              && r[i].actionText == results[i].actionText
              && r[i].diceResult == results[i].diceRoll
              && r[i].modifier == results[i].modifier
              && r[i].difficulty == results[i].difficulty
              && r[i].finalValue == results[i].diceRoll + results[i].modifier
              && r[i].outcome == DiceSystem.DetermineOutcome(results[i].diceRoll, results[i].modifier, results[i].difficulty)
  {
    var r := seq(|results|, i requires 0 <= i < |results| =>
      Judge(results[i].characterId, results[i].actionText, results[i].diceRoll,
            results[i].modifier, results[i].difficulty));
    assert forall i :: 0 <= i < |results| ==> r[i].Valid() by {
      forall i | 0 <= i < |results| ensures r[i].Valid() {
        assert results[i].Valid();
      }
    }
    r
  }

  // ---------------------------------------------------------------------
  // Pre-rolling (phase 0)
  // ---------------------------------------------------------------------

  /** The phase-0 row `_preroll_dice` stores for one analysis; the action type is not stored. */
  function PreRollRecord(id: int, sessionId: int, a: ActionAnalysis, roll: int, now: int): (j: ActionJudgment)
    ensures j.phase == PhasePreRolled && j.storyLogId.None? && j.actionType.None?
    ensures j.diceResult == Some(roll) && j.finalValue == Some(roll + a.modifier)
    ensures j.difficultyReasoning == Some(a.difficultyReasoning)
  {
    ActionJudgment(id, sessionId, a.characterId, None, a.actionText, None, Some(roll), a.modifier,
                   Some(roll + a.modifier), a.difficulty, Some(a.difficultyReasoning),
                   Some(DiceSystem.DetermineOutcome(roll, a.modifier, a.difficulty).Value()),
                   PhasePreRolled, now)
  }

  function PreRollRecords(firstId: int, sessionId: int, analyses: seq<ActionAnalysis>, rolls: seq<int>, now: int)
    : (r: seq<ActionJudgment>)
    requires |rolls| == |analyses|
    ensures |r| == |analyses|
    ensures forall i :: 0 <= i < |analyses| ==> r[i] == PreRollRecord(firstId + i, sessionId, analyses[i], rolls[i], now)
  {
    seq(|analyses|, i requires 0 <= i < |analyses| => PreRollRecord(firstId + i, sessionId, analyses[i], rolls[i], now))
  }

  /**
   * `_preroll_dice` with the i-th die showing `rolls[i]`: a validation failure
   * of any judgment rolls the whole batch back; otherwise one phase-0 row per
   * analysis is appended with fresh, increasing ids.
   */
  function PreRollDice(db: Db, sessionId: int, analyses: seq<ActionAnalysis>, rolls: seq<int>, now: int)
    : (r: Result<(Db, seq<JudgmentResult>), string>)
    requires |rolls| == |analyses|
    requires forall i :: 0 <= i < |rolls| ==> IsD20(rolls[i])
    ensures r.Err? <==> exists i :: 0 <= i < |analyses| && !analyses[i].Valid()
    ensures r.Ok? ==> |r.value.1| == |analyses|
    ensures r.Ok? ==> forall i :: 0 <= i < |analyses| ==>
              && r.value.1[i].Valid()
              && r.value.1[i].characterId == analyses[i].characterId
              && r.value.1[i].actionText == analyses[i].actionText
              && r.value.1[i].modifier == analyses[i].modifier
              && r.value.1[i].difficulty == analyses[i].difficulty
              && r.value.1[i].diceResult == rolls[i]
              && r.value.1[i].finalValue == rolls[i] + analyses[i].modifier
              && r.value.1[i].outcome == DiceSystem.DetermineOutcome(rolls[i], analyses[i].modifier, analyses[i].difficulty)
    ensures r.Ok? ==> r.value.0 == db.(judgments := db.judgments + PreRollRecords(db.nextId, sessionId, analyses, rolls, now),
                                       nextId := db.nextId + |analyses|)
  {
    if exists i :: 0 <= i < |analyses| && !analyses[i].Valid() then Err(ValidationError)
    else
      var results := seq(|analyses|, i requires 0 <= i < |analyses| =>
        Judge(analyses[i].characterId, analyses[i].actionText, rolls[i], analyses[i].modifier, analyses[i].difficulty));
      Ok((db.(judgments := db.judgments + PreRollRecords(db.nextId, sessionId, analyses, rolls, now),
              nextId := db.nextId + |analyses|), results))
  }

  /** The i-th appended row is the pre-roll record of the i-th analysis, with the next id. */
  lemma PreRollRow(db: Db, sessionId: int, analyses: seq<ActionAnalysis>, rolls: seq<int>, now: int, i: int)
    requires |rolls| == |analyses|
    requires forall k :: 0 <= k < |rolls| ==> IsD20(rolls[k])
    requires forall k :: 0 <= k < |analyses| ==> analyses[k].Valid()
    requires 0 <= i < |analyses|
    ensures var (db', js) := PreRollDice(db, sessionId, analyses, rolls, now).value;
            && |db.judgments| + i < |db'.judgments|
            && db'.judgments[|db.judgments| + i] == PreRollRecord(db.nextId + i, sessionId, analyses[i], rolls[i], now)
            && js[i].characterId == analyses[i].characterId
            && js[i].outcome == DiceSystem.DetermineOutcome(rolls[i], analyses[i].modifier, analyses[i].difficulty)
  {
    var recs := PreRollRecords(db.nextId, sessionId, analyses, rolls, now);
    assert (db.judgments + recs)[|db.judgments| + i] == recs[i];
  }

  /** The stored outcome string parses back to the outcome of the returned judgment. */
  lemma PreRollStoresOutcome(db: Db, sessionId: int, analyses: seq<ActionAnalysis>, rolls: seq<int>, now: int, i: int)
    requires |rolls| == |analyses|
    requires forall k :: 0 <= k < |rolls| ==> IsD20(rolls[k])
    requires forall k :: 0 <= k < |analyses| ==> analyses[k].Valid()
    requires 0 <= i < |analyses|
    ensures var (db', js) := PreRollDice(db, sessionId, analyses, rolls, now).value;
            var row := db'.judgments[|db.judgments| + i];
            && row.outcome.Some?
            && ParseOutcome(row.outcome.value) == Some(js[i].outcome)
            && row.id == db.nextId + i && row.characterId == js[i].characterId
  {
    PreRollRow(db, sessionId, analyses, rolls, now, i);
    OutcomeRoundTrip(DiceSystem.DetermineOutcome(rolls[i], analyses[i].modifier, analyses[i].difficulty));
  }

  /** Pre-rolling keeps every stored id below the counter. */
  lemma PreRollKeepsIdsFresh(db: Db, sessionId: int, analyses: seq<ActionAnalysis>, rolls: seq<int>, now: int)
    requires |rolls| == |analyses|
    requires forall k :: 0 <= k < |rolls| ==> IsD20(rolls[k])
    requires db.IdsFresh()
    requires forall k :: 0 <= k < |analyses| ==> analyses[k].Valid()
    ensures PreRollDice(db, sessionId, analyses, rolls, now).value.0.IdsFresh()
  {
    var db' := PreRollDice(db, sessionId, analyses, rolls, now).value.0;
    forall i | 0 <= i < |db'.judgments|
      ensures db'.judgments[i].id < db'.nextId
    {
      if i >= |db.judgments| {
        PreRollRow(db, sessionId, analyses, rolls, now, i - |db.judgments|);
      }
    }
  }
}

=== FILE: json.dfy ===
/**
 * JSON values as the source handles them after `json.loads` or inside the
 * `Character.data` column: objects are association lists so that key order
 * and duplicate keys behave as in a Python `dict` built from them.
 */
module Json {
  import opened Common

  datatype Json =
    | JNull
    | JBool(b: bool)
    | JInt(i: int)
    | JStr(s: string)
    | JArr(items: seq<Json>)
    | JObj(entries: seq<(string, Json)>)

  /** `d.get(key)`: the value stored last under `key` (a later duplicate overrides). */
  function Get(entries: seq<(string, Json)>, key: string): (r: Option<Json>)
    ensures r.None? <==> forall i :: 0 <= i < |entries| ==> entries[i].0 != key
    ensures r.Some? ==> exists i :: 0 <= i < |entries| && entries[i] == (key, r.value)
  {
    if |entries| == 0 then None
    else
      var last := entries[|entries| - 1];
      if last.0 == key then Some(last.1)
      else
        Get(entries[..|entries| - 1], key)
  }

  /** A lookup in a concatenation finds the later part first. */
  lemma {:induction false} GetAfterPrefix(a: seq<(string, Json)>, b: seq<(string, Json)>, key: string)
    ensures Get(a + b, key) == if Get(b, key).Some? then Get(b, key) else Get(a, key)
    decreases |b|
  {
    if |b| > 0 {
      assert (a + b)[..|a + b| - 1] == a + b[..|b| - 1];
      GetAfterPrefix(a, b[..|b| - 1], key);
    } else {
      assert a + b == a;
    }
  }

  /** `d.get(key, default)`. */
  function GetOr(entries: seq<(string, Json)>, key: string, default: Json): Json {
    Get(entries, key).GetOr(default)
  }

  /** Python truthiness of a decoded value. */
  predicate Truthy(j: Json) {
    match j
    case JNull => false
    case JBool(b) => b
    case JInt(i) => i != 0
    case JStr(s) => |s| > 0
    case JArr(items) => |items| > 0
    case JObj(entries) => |entries| > 0
  }

  /** The name Python gives the type of a decoded value, as error messages print it. */
  function TypeName(j: Json): string {
    match j
    case JNull => "NoneType"
    case JBool(_) => "bool"
    case JInt(_) => "int"
    case JStr(_) => "str"
    case JArr(_) => "list"
    case JObj(_) => "dict"
  }
}

=== FILE: judgment_node.dfy ===
/**
 * Phase-1 judgment (`backend/app/services/ai_nodes/judgment_node.py`):
 * modifiers from the character sheets and difficulty classes (DCs) from an
 * AI judge. The judge is an opaque function from the request to its reply,
 * and `json.loads` is an opaque partial function `decode`.
 */
module JudgmentNode {
  import opened Common
  import opened Json
  import opened Text
  import opened Schemas
  import DiceSystem

  const DefaultDifficulty := 15
  const MinDifficulty := 5
  const MaxDifficulty := 30
  /** The reasoning given to a character the judge said nothing about. */
  const DefaultReasoning := "기본 난이도 적용"
  const NoValidActions := "No valid actions to analyze"

  /** The reasoning recorded for every action when the DC step raised `message`. */
  function FallbackReasoning(message: string): string {
    DefaultReasoning + " (AI 오류: " + message + ")"
  }

  /** `_calculate_modifier`: `(score - 10) // 2` of the ability the action type selects. */
  function CalculateModifier(sheet: CharacterSheet, a: ActionType): (r: int)
    ensures 2 * r <= sheet.abilities.Score(a) - 10 < 2 * r + 2
    ensures sheet.Valid() ==> -5 <= r <= 10
  {
    DiceSystem.AbilityModifier(sheet.abilities.Score(a))
  }

  /** `{char.id: char for char in characters}.get(id)`: a later sheet with the same id wins. */
  function LookupSheet(sheets: seq<CharacterSheet>, id: int): (r: Option<CharacterSheet>)
    ensures r.None? <==> forall i :: 0 <= i < |sheets| ==> sheets[i].id != id
    ensures r.Some? ==> r.value.id == id && r.value in sheets
  {
    if |sheets| == 0 then None
    else if sheets[|sheets| - 1].id == id then Some(sheets[|sheets| - 1])
    else LookupSheet(sheets[..|sheets| - 1], id)
  }

  /** The actions whose character is loaded, in input order; the rest are skipped. */
  function Kept(actions: seq<PlayerAction>, sheets: seq<CharacterSheet>): (r: seq<PlayerAction>)
    ensures |r| <= |actions|
    ensures forall i :: 0 <= i < |r| ==> r[i] in actions && LookupSheet(sheets, r[i].characterId).Some?
    ensures forall i :: 0 <= i < |actions| && LookupSheet(sheets, actions[i].characterId).Some? ==> actions[i] in r
  {
    if |actions| == 0 then []
    else if LookupSheet(sheets, actions[0].characterId).Some? then [actions[0]] + Kept(actions[1..], sheets)
    else Kept(actions[1..], sheets)
  }

  /**
   * Skipping is per action and keeps the input order: the kept actions of a
   * concatenation are the kept actions of each part, one after the other.
   */
  lemma {:induction false} KeptAppend(a: seq<PlayerAction>, b: seq<PlayerAction>, sheets: seq<CharacterSheet>)
    ensures Kept(a + b, sheets) == Kept(a, sheets) + Kept(b, sheets)
    decreases |a|
  {
    if |a| == 0 {
      assert a + b == b;
    } else {
      assert (a + b)[1..] == a[1..] + b;
      KeptAppend(a[1..], b, sheets);
    }
  }

  /** One action is kept exactly when its character is loaded. */
  lemma KeptOne(action: PlayerAction, sheets: seq<CharacterSheet>)
    ensures Kept([action], sheets) == if LookupSheet(sheets, action.characterId).Some? then [action] else []
  {
    assert [action][1..] == [];
  }

  /** The analysis of a kept action before any DC is known: DC 15, no reasoning. */
  function Initial(action: PlayerAction, sheets: seq<CharacterSheet>): ActionAnalysis
    requires LookupSheet(sheets, action.characterId).Some?
  {
    var sheet := LookupSheet(sheets, action.characterId).value;
    ActionAnalysis(action.characterId, action.actionText, action.actionType,
                   CalculateModifier(sheet, action.actionType), DefaultDifficulty, "")
  }

  /** What the judge reported for one character: the raw `difficulty` and `reasoning` values. */
  datatype DcInfo = DcInfo(difficulty: Json, reasoning: Json)

  /** `{"difficulty": item.get("difficulty", 15), "reasoning": item.get("reasoning", "") or item.get("difficulty_reasoning", "")}`. */
  function ItemInfo(entries: seq<(string, Json)>): (r: DcInfo)
    ensures Get(entries, "difficulty").None? ==> r.difficulty == JInt(DefaultDifficulty)
    ensures Truthy(GetOr(entries, "reasoning", JStr(""))) ==> r.reasoning == GetOr(entries, "reasoning", JStr(""))
    ensures !Truthy(GetOr(entries, "reasoning", JStr("")))
            ==> r.reasoning == GetOr(entries, "difficulty_reasoning", JStr(""))
  {
    var first := GetOr(entries, "reasoning", JStr(""));
    DcInfo(GetOr(entries, "difficulty", JInt(DefaultDifficulty)),
           if Truthy(first) then first else GetOr(entries, "difficulty_reasoning", JStr("")))
  }

  /**
   * The integer key an item's `character_id` stores under, seen from integer
   * lookups: ints as themselves, booleans as 0/1; null or absent ids and
   * string ids are never found by an integer lookup (`NoKey`); lists and
   * dicts are unhashable and raise (`Unhashable`).
   */
  datatype IdKey = IntKey(k: int) | NoKey | Unhashable

  function ItemKey(entries: seq<(string, Json)>): IdKey {
    match Get(entries, "character_id")
    case None => NoKey
    case Some(v) =>
      match v
      case JNull => NoKey
      case JInt(i) => IntKey(i)
      case JBool(b) => IntKey(if b then 1 else 0)
      case JStr(_) => NoKey
      case JArr(_) => Unhashable
      case JObj(_) => Unhashable
  }

  /** The `for item in results` loop from a partial map; `None` when it raises. */
  function BuildDcMap(items: seq<Json>, acc: map<int, DcInfo>): (r: Option<map<int, DcInfo>>)
    ensures r.Some? ==> acc.Keys <= r.value.Keys
    ensures r.Some? ==> forall k :: k in r.value && k !in acc ==>
              exists i :: 0 <= i < |items| && items[i].JObj? && ItemKey(items[i].entries) == IntKey(k)
  {
    if |items| == 0 then Some(acc)
    else
      match items[0]
      case JObj(entries) =>
        (match ItemKey(entries)
         case Unhashable => None
         case NoKey =>
           var r := BuildDcMap(items[1..], acc);
           assert forall i :: 0 <= i < |items| - 1 ==> items[1..][i] == items[i + 1];
           r
         case IntKey(k) =>
           var r := BuildDcMap(items[1..], acc[k := ItemInfo(entries)]);
           assert forall i :: 0 <= i < |items| - 1 ==> items[1..][i] == items[i + 1];
           r)
      case _ => None
  }

  /** An item without a usable `character_id` leaves the map as it is. */
  lemma ItemWithoutIdDropped(entries: seq<(string, Json)>, rest: seq<Json>, acc: map<int, DcInfo>)
    requires ItemKey(entries) == NoKey
    ensures BuildDcMap([JObj(entries)] + rest, acc) == BuildDcMap(rest, acc)
  {
    assert ([JObj(entries)] + rest)[1..] == rest;
  }

  /** A later item for the same character overrides an earlier one. */
  lemma LaterItemWins(items: seq<Json>, k: int, entries: seq<(string, Json)>)
    requires forall i :: 0 <= i < |items| ==> items[i].JObj? && ItemKey(items[i].entries) != Unhashable
    requires ItemKey(entries) == IntKey(k)
    ensures BuildDcMap(items + [JObj(entries)], map[]).Some?
    ensures k in BuildDcMap(items + [JObj(entries)], map[]).value
    ensures BuildDcMap(items + [JObj(entries)], map[]).value[k] == ItemInfo(entries)
  {
    LaterItemWinsFrom(items, map[], k, entries);
  }

  lemma {:induction false} LaterItemWinsFrom(items: seq<Json>, acc: map<int, DcInfo>, k: int, entries: seq<(string, Json)>)
    requires forall i :: 0 <= i < |items| ==> items[i].JObj? && ItemKey(items[i].entries) != Unhashable
    requires ItemKey(entries) == IntKey(k)
    ensures BuildDcMap(items + [JObj(entries)], acc).Some?
    ensures k in BuildDcMap(items + [JObj(entries)], acc).value
    ensures BuildDcMap(items + [JObj(entries)], acc).value[k] == ItemInfo(entries)
  {
    if |items| == 0 {
      assert items + [JObj(entries)] == [JObj(entries)];
      assert [JObj(entries)][1..] == [];
    } else {
      assert (items + [JObj(entries)])[1..] == items[1..] + [JObj(entries)];
      var e := items[0].entries;
      match ItemKey(e)
      case NoKey =>
        LaterItemWinsFrom(items[1..], acc, k, entries);
      case IntKey(j) =>
        LaterItemWinsFrom(items[1..], acc[j := ItemInfo(e)], k, entries);
    }
  }

  /** `json.loads` result to DC map: only a list whose items are all dicts (with hashable ids) gives entries. */
  function DcMapOf(results: Json): (r: map<int, DcInfo>)
    ensures !results.JArr? ==> r == map[]
  {
    match results
    case JArr(items) => BuildDcMap(items, map[]).GetOr(map[])
    case _ => map[]
  }

  /** The text after removing Markdown code fences. */
  function Cleaned(response: string): string {
    var text := Strip(response);
    if Contains(text, "```") then Strip(ReplaceAll(ReplaceAll(text, "```json", ""), "```", ""))
    else text
  }

  /** Without a fence, cleaning only strips surrounding whitespace. */
  lemma CleanedWithoutFence(response: string)
    requires !Contains(Strip(response), "```")
    ensures Cleaned(response) == Strip(response)
  {
  }

  /** `text[i:j]` for `0 <= i` and `j <= len(text)`: empty when `i > j`. */
  function Slice(text: string, i: int, j: int): (r: string)
    requires 0 <= i <= |text| && 0 <= j <= |text|
    ensures i <= j ==> r == text[i..j]
    ensures i > j ==> r == []
  {
    if i <= j then text[i..j] else []
  }

  /** The text `json.loads` receives: from the first `[` to the last `]`, both included. */
  function ArraySlice(text: string): (r: Option<string>)
    ensures r.None? <==> '[' !in text || ']' !in text
    ensures r.Some? && Find(text, '[') <= RFind(text, ']') ==>
              |r.value| >= 2 && r.value[0] == '[' && r.value[|r.value| - 1] == ']'
              && '[' !in text[..Find(text, '[')]
              && ']' !in text[RFind(text, ']') + 1..]
    ensures r.Some? && Find(text, '[') > RFind(text, ']') ==> r.value == []
  {
    var start := Find(text, '[');
    var stop := RFind(text, ']') + 1;
    if start == -1 || stop == 0 then None
    else Some(Slice(text, start, stop))
  }

  /** `_parse_dc_response`: never raises; every failure gives the empty map. */
  function ParseDcResponse(response: string, decode: string -> Option<Json>): (r: map<int, DcInfo>)
    ensures ArraySlice(Cleaned(response)).None? ==> r == map[]
    ensures ArraySlice(Cleaned(response)).Some? && decode(ArraySlice(Cleaned(response)).value).None? ==> r == map[]
    ensures ArraySlice(Cleaned(response)).Some? && decode(ArraySlice(Cleaned(response)).value).Some?
            ==> r == DcMapOf(decode(ArraySlice(Cleaned(response)).value).value)
  {
    match ArraySlice(Cleaned(response))
    case None => map[]
    case Some(jsonText) =>
      match decode(jsonText)
      case None => map[]
      case Some(results) => DcMapOf(results)
  }

  /** Two decoders that agree on the extracted slice give the same map: nothing else is decoded. */
  lemma ParseDecodesOnlySlice(response: string, d1: string -> Option<Json>, d2: string -> Option<Json>)
    requires ArraySlice(Cleaned(response)).Some? ==> d1(ArraySlice(Cleaned(response)).value) == d2(ArraySlice(Cleaned(response)).value)
    ensures ParseDcResponse(response, d1) == ParseDcResponse(response, d2)
  {
  }

  /** The `TypeError` Python raises when `min` compares a value of this type with an int. */
  function NotComparable(d: Json): string {
    "'<' not supported between instances of '" + TypeName(d) + "' and 'int'"
  }

  /** `max(5, min(30, d))`: booleans compare as 0/1 and give 5; other non-ints raise. */
  function Clamp(d: Json): (r: Result<int, string>)
    ensures r.Ok? <==> d.JInt? || d.JBool?
    ensures r.Err? ==> r.error == NotComparable(d)
    ensures r.Ok? ==> IsDc(r.value)
    ensures d.JInt? && IsDc(d.i) ==> r == Ok(d.i)
    ensures d.JInt? && d.i < MinDifficulty ==> r == Ok(MinDifficulty)
    ensures d.JInt? && d.i > MaxDifficulty ==> r == Ok(MaxDifficulty)
  {
    match d
    case JInt(i) => Ok(if i < MinDifficulty then MinDifficulty else if i > MaxDifficulty then MaxDifficulty else i)
    case JBool(_) => Ok(MinDifficulty)
    case _ => Err(NotComparable(d))
  }

  /** A reasoning value as text (see the README for non-string values). */
  function ReasoningText(j: Json): string {
    match j
    case JStr(s) => s
    case _ => []
  }

  /** The DC step for one analysis: the judge's entry, or 15 and the default reasoning. */
  function ApplyOne(a: ActionAnalysis, dc: map<int, DcInfo>): (r: Result<ActionAnalysis, string>)
    ensures r.Ok? ==> r.value.Valid()
    ensures r.Ok? ==> r.value.characterId == a.characterId && r.value.actionText == a.actionText
                      && r.value.actionType == a.actionType && r.value.modifier == a.modifier
    ensures a.characterId !in dc ==>
              r == Ok(a.(difficulty := DefaultDifficulty, difficultyReasoning := DefaultReasoning))
    ensures a.characterId in dc ==>
              && (r.Ok? <==> Clamp(dc[a.characterId].difficulty).Ok?)
              && (r.Err? ==> r.error == Clamp(dc[a.characterId].difficulty).error)
              && (r.Ok? ==> r.value.difficulty == Clamp(dc[a.characterId].difficulty).value
                            && r.value.difficultyReasoning == ReasoningText(dc[a.characterId].reasoning))
  {
    var info := if a.characterId in dc then dc[a.characterId]
                else DcInfo(JInt(DefaultDifficulty), JStr(DefaultReasoning));
    match Clamp(info.difficulty)
    case Err(e) => Err(e)
    case Ok(d) => Ok(a.(difficulty := d, difficultyReasoning := ReasoningText(info.reasoning)))
  }

  /** The loop applying the DC map; raising on any analysis aborts the whole loop. */
  function ApplyDc(analyses: seq<ActionAnalysis>, dc: map<int, DcInfo>): (r: Result<seq<ActionAnalysis>, string>)
    ensures r.Ok? ==> |r.value| == |analyses|
    ensures r.Ok? ==> forall i :: 0 <= i < |analyses| ==> ApplyOne(analyses[i], dc) == Ok(r.value[i])
    ensures r.Ok? ==> forall i :: 0 <= i < |analyses| ==> SameAction(analyses[i], r.value[i])
    ensures r.Err? ==> exists i :: 0 <= i < |analyses| && ApplyOne(analyses[i], dc).Err?
  {
    if |analyses| == 0 then Ok([])
    else
      match ApplyOne(analyses[0], dc)
      case Err(e) => Err(e)
      case Ok(a) =>
        match ApplyDc(analyses[1..], dc)
        case Err(e) =>
          assert exists i :: 0 <= i < |analyses| - 1 && ApplyOne(analyses[1..][i], dc).Err?;
          Err(e)
        case Ok(rest) => Ok([a] + rest)
  }

  /** `b` is the same action as `a`, now carrying a valid DC. */
  predicate SameAction(a: ActionAnalysis, b: ActionAnalysis) {
    && b.Valid()
    && b.characterId == a.characterId && b.actionText == a.actionText
    && b.actionType == a.actionType && b.modifier == a.modifier
  }

  /** The except branch: every analysis gets DC 15 and the error in its reasoning. */
  function Fallback(analyses: seq<ActionAnalysis>, message: string): (r: seq<ActionAnalysis>)
    ensures |r| == |analyses|
    ensures forall i :: 0 <= i < |r| ==> SameAction(analyses[i], r[i])
    ensures forall i :: 0 <= i < |r| ==>
              r[i] == analyses[i].(difficulty := DefaultDifficulty, difficultyReasoning := FallbackReasoning(message))
  {
    seq(|analyses|, i requires 0 <= i < |analyses| =>
      analyses[i].(difficulty := DefaultDifficulty, difficultyReasoning := FallbackReasoning(message)))
  }

  /** `story_history[-5:]`, as written. */
  function RecentHistory<T>(history: seq<T>): (r: seq<T>)
    ensures |r| == if |history| < 5 then |history| else 5
    ensures r == history[|history| - |r|..]
  {
    if |history| <= 5 then history else history[|history| - 5..]
  }

  /** The five newest entries of a newest-first history. */
  function NewestHistory<T>(history: seq<T>): (r: seq<T>)
    ensures |r| == if |history| < 5 then |history| else 5
    ensures r == history[..|r|]
  {
    if |history| <= 5 then history else history[..5]
  }

  /**
   * On a newest-first history of more than five entries (which is what the
   * context loader supplies) the as-written selection misses the newest entry.
   */
  lemma RecentHistoryMissesNewest<T>(history: seq<T>)
    requires |history| > 5
    requires forall i, j :: 0 <= i < j < |history| ==> history[i] != history[j]
    ensures history[0] !in RecentHistory(history)
    ensures history[0] in NewestHistory(history)
  {
  }

  /** A concrete instance: of the ten newest entries 9, 8, …, 0, the as-written slice keeps 4..0. */
  lemma RecentHistoryCounterexample()
    ensures RecentHistory([9, 8, 7, 6, 5, 4, 3, 2, 1, 0]) == [4, 3, 2, 1, 0]
    ensures NewestHistory([9, 8, 7, 6, 5, 4, 3, 2, 1, 0]) == [9, 8, 7, 6, 5]
  {
    assert [9, 8, 7, 6, 5, 4, 3, 2, 1, 0][5..] == [4, 3, 2, 1, 0];
  }

  /** What the judge is asked about: the world, all loaded sheets, recent history, and every action. */
  datatype JudgeRequest = JudgeRequest(
    worldContext: string,
    characters: seq<CharacterSheet>,
    history: seq<StoryLogEntry>,
    actions: seq<PlayerAction>)

  /**
   * How the judge step ended: a reply text, a failure of the call (wrapped as
   * "AI 호출 실패: …"), or a failure before the call (loading the prompt).
   */
  datatype JudgeReply = Replied(text: string) | CallFailed(message: string) | SetupFailed(message: string)

  /**
   * The DC step (the `try`/`except` around the judge): apply the parsed reply,
   * or, if anything in the step raised, give every analysis DC 15 and the error.
   */
  function DifficultyStep(initial: seq<ActionAnalysis>, reply: JudgeReply, decode: string -> Option<Json>)
    : (r: seq<ActionAnalysis>)
    ensures |r| == |initial|
    ensures forall i :: 0 <= i < |r| ==> SameAction(initial[i], r[i])
    ensures reply.CallFailed? ==> r == Fallback(initial, "AI 호출 실패: " + reply.message)
    ensures reply.SetupFailed? ==> r == Fallback(initial, reply.message)
    ensures reply.Replied? && ApplyDc(initial, ParseDcResponse(reply.text, decode)).Err?
            ==> r == Fallback(initial, ApplyDc(initial, ParseDcResponse(reply.text, decode)).error)
    ensures reply.Replied? && ApplyDc(initial, ParseDcResponse(reply.text, decode)).Ok?
            ==> r == ApplyDc(initial, ParseDcResponse(reply.text, decode)).value
  {
    match reply
    case Replied(text) =>
      (match ApplyDc(initial, ParseDcResponse(text, decode))
       case Ok(judged) => judged
       case Err(e) => Fallback(initial, e))
    case CallFailed(message) => Fallback(initial, "AI 호출 실패: " + message)
    case SetupFailed(message) => Fallback(initial, message)
  }

  /** The DC loop raises only on a judged difficulty that is not a number. */
  lemma {:induction false} ApplyDcSucceeds(analyses: seq<ActionAnalysis>, dc: map<int, DcInfo>)
    requires forall k :: 0 <= k < |analyses| && analyses[k].characterId in dc ==>
               dc[analyses[k].characterId].difficulty.JInt?
    ensures ApplyDc(analyses, dc).Ok?
  {
    if |analyses| > 0 {
      ApplyDcSucceeds(analyses[1..], dc);
    }
  }

  /** A character the judge's reply does not mention gets DC 15 and the default reasoning. */
  lemma AbsentCharacterGetsDefault(initial: seq<ActionAnalysis>, text: string, decode: string -> Option<Json>, i: int)
    requires forall k :: 0 <= k < |initial| && initial[k].characterId in ParseDcResponse(text, decode) ==>
               ParseDcResponse(text, decode)[initial[k].characterId].difficulty.JInt?
    requires 0 <= i < |initial| && initial[i].characterId !in ParseDcResponse(text, decode)
    ensures DifficultyStep(initial, Replied(text), decode)[i].difficulty == DefaultDifficulty
    ensures DifficultyStep(initial, Replied(text), decode)[i].difficultyReasoning == DefaultReasoning
  {
    ApplyDcSucceeds(initial, ParseDcResponse(text, decode));
  }

  /** The initial analyses of the kept actions, in order. */
  function Initials(kept: seq<PlayerAction>, sheets: seq<CharacterSheet>): (r: seq<ActionAnalysis>)
    requires forall i :: 0 <= i < |kept| ==> LookupSheet(sheets, kept[i].characterId).Some?
    ensures |r| == |kept|
    ensures forall i :: 0 <= i < |kept| ==> r[i] == Initial(kept[i], sheets)
  {
    seq(|kept|, i requires 0 <= i < |kept| => Initial(kept[i], sheets))
  }

  /** `analyze_and_judge_actions`. */
  function AnalyzeAndJudge(
    actions: seq<PlayerAction>,
    sheets: seq<CharacterSheet>,
    worldContext: string,
    history: seq<StoryLogEntry>,
    judge: JudgeRequest -> JudgeReply,
    decode: string -> Option<Json>): (r: Result<seq<ActionAnalysis>, string>)
    ensures r.Err? <==> forall i :: 0 <= i < |actions| ==> LookupSheet(sheets, actions[i].characterId).None?
    ensures r.Err? ==> r.error == NoValidActions
    ensures r.Ok? ==> |r.value| == |Kept(actions, sheets)|
    ensures r.Ok? ==> forall i :: 0 <= i < |r.value| ==>
              var a := Kept(actions, sheets)[i];
              && r.value[i].Valid()
              && r.value[i].characterId == a.characterId
              && r.value[i].actionText == a.actionText
              && r.value[i].actionType == a.actionType
              && r.value[i].modifier == CalculateModifier(LookupSheet(sheets, a.characterId).value, a.actionType)
    ensures r.Ok? ==>
              r.value == DifficultyStep(Initials(Kept(actions, sheets), sheets),
                                        judge(JudgeRequest(worldContext, sheets, NewestHistory(history), actions)), decode)
  {
    var kept := Kept(actions, sheets);
    if |kept| == 0 then
      assert forall i :: 0 <= i < |actions| ==> LookupSheet(sheets, actions[i].characterId).None?;
      Err(NoValidActions)
    else
      assert kept[0] in actions && LookupSheet(sheets, kept[0].characterId).Some?;
      var request := JudgeRequest(worldContext, sheets, NewestHistory(history), actions);
      Ok(DifficultyStep(Initials(kept, sheets), judge(request), decode))
  }

  /** Some submitted action is for this character, and the character is loaded. */
  predicate Submitted(actions: seq<PlayerAction>, sheets: seq<CharacterSheet>, characterId: int) {
    exists j :: 0 <= j < |actions| && actions[j].characterId == characterId
                && LookupSheet(sheets, characterId).Some?
  }

  /** Every analysis is for the character of a submitted action whose sheet is loaded. */
  lemma AnalysesForSubmitted(
    actions: seq<PlayerAction>,
    sheets: seq<CharacterSheet>,
    worldContext: string,
    history: seq<StoryLogEntry>,
    judge: JudgeRequest -> JudgeReply,
    decode: string -> Option<Json>)
    ensures var r := AnalyzeAndJudge(actions, sheets, worldContext, history, judge, decode);
            r.Ok? ==> forall i :: 0 <= i < |r.value| ==> Submitted(actions, sheets, r.value[i].characterId)
  {
    var r := AnalyzeAndJudge(actions, sheets, worldContext, history, judge, decode);
    if r.Ok? {
      var kept := Kept(actions, sheets);
      forall i | 0 <= i < |r.value|
        ensures Submitted(actions, sheets, r.value[i].characterId)
      {
        var j :| 0 <= j < |actions| && actions[j] == kept[i];
        assert actions[j].characterId == r.value[i].characterId;
      }
    }
  }

  /**
   * The judge decides the DC: when the reply's array gives the character of
   * the i-th kept action an integer difficulty `d` (and every difficulty it
   * gives the kept characters is an integer, so no analysis raises), that
   * analysis ends with `max(5, min(30, d))` and the judge's reasoning.
   */
  lemma JudgeDcReachesAnalysis(
    actions: seq<PlayerAction>,
    sheets: seq<CharacterSheet>,
    worldContext: string,
    history: seq<StoryLogEntry>,
    judge: JudgeRequest -> JudgeReply,
    decode: string -> Option<Json>,
    i: int,
    d: int)
    requires judge(JudgeRequest(worldContext, sheets, NewestHistory(history), actions)).Replied?
    requires var dc := ParseDcResponse(judge(JudgeRequest(worldContext, sheets, NewestHistory(history), actions)).text, decode);
             forall k :: 0 <= k < |actions| && actions[k].characterId in dc ==> dc[actions[k].characterId].difficulty.JInt?
    requires 0 <= i < |Kept(actions, sheets)|
    requires var dc := ParseDcResponse(judge(JudgeRequest(worldContext, sheets, NewestHistory(history), actions)).text, decode);
             Kept(actions, sheets)[i].characterId in dc && dc[Kept(actions, sheets)[i].characterId].difficulty == JInt(d)
    ensures var r := AnalyzeAndJudge(actions, sheets, worldContext, history, judge, decode);
            var dc := ParseDcResponse(judge(JudgeRequest(worldContext, sheets, NewestHistory(history), actions)).text, decode);
            && r.Ok? && i < |r.value|
            && r.value[i].difficulty == (if d < MinDifficulty then MinDifficulty else if d > MaxDifficulty then MaxDifficulty else d)
            && r.value[i].difficultyReasoning == ReasoningText(dc[Kept(actions, sheets)[i].characterId].reasoning)
  {
    var kept := Kept(actions, sheets);
    var reply := judge(JudgeRequest(worldContext, sheets, NewestHistory(history), actions));
    var dc := ParseDcResponse(reply.text, decode);
    var initial := Initials(kept, sheets);
    assert kept[i] in actions;
    forall k | 0 <= k < |initial| && initial[k].characterId in dc
      ensures dc[initial[k].characterId].difficulty.JInt?
    {
      assert kept[k] in actions;
      var j :| 0 <= j < |actions| && actions[j] == kept[k];
    }
    ApplyDcSucceeds(initial, dc);
    var applied := ApplyDc(initial, dc).value;
    assert ApplyOne(initial[i], dc) == Ok(applied[i]);
  }
}

=== FILE: models.dfy ===
/**
 * The database rows of `backend/app/models.py`. Nullable columns are
 * `Option`s, timestamps are integers, and `Character.data` is a JSON value.
 * Tables are sequences in insertion order inside `Db`; one counter hands out
 * increasing primary keys, so a larger id always means a later insert.
 */
module Models {
  import opened Common
  import opened Json

  /** `ActionJudgment.phase` values: 0 pre-rolled, 1 analysed, 2 dice confirmed, 3 narrated. */
  const PhasePreRolled := 0
  const PhaseAnalyzed := 1
  const PhaseConfirmed := 2
  const PhaseNarrated := 3

  datatype User = User(id: int, username: string)

  datatype GameSession = GameSession(
    id: int,
    hostUserId: int,
    title: string,
    worldPrompt: string,
    aiSummary: Option<string>,
    createdAt: int,
    isActive: bool)

  datatype Character = Character(id: int, userId: int, name: string, data: Json, createdAt: int)

  datatype Participant = Participant(id: int, sessionId: int, userId: int, characterId: int, joinedAt: int)

  datatype StoryLog = StoryLog(id: int, sessionId: int, role: string, content: string, createdAt: int)

  /** One judged action; dice, final value and outcome stay empty until a roll exists. */
  datatype ActionJudgment = ActionJudgment(
    id: int,
    sessionId: int,
    characterId: int,
    storyLogId: Option<int>,
    actionText: string,
    actionType: Option<string>,
    diceResult: Option<int>,
    modifier: int,
    finalValue: Option<int>,
    difficulty: int,
    difficultyReasoning: Option<string>,
    outcome: Option<string>,
    phase: int,
    createdAt: int)

  /** A row built with only the required columns: every nullable column is empty, phase is 1. */
  function NewActionJudgment(
    id: int, sessionId: int, characterId: int, actionText: string,
    modifier: int, difficulty: int, createdAt: int): (j: ActionJudgment)
    ensures j.phase == PhaseAnalyzed
    ensures j.storyLogId.None? && j.actionType.None? && j.diceResult.None?
    ensures j.finalValue.None? && j.outcome.None? && j.difficultyReasoning.None?
    ensures j.modifier == modifier && j.difficulty == difficulty
  {
    ActionJudgment(id, sessionId, characterId, None, actionText, None, None,
                   modifier, None, difficulty, None, None, PhaseAnalyzed, createdAt)
  }

  /** Per-round dice tracking row. */
  datatype DiceRollState = DiceRollState(
    id: int,
    sessionId: int,
    roundId: int,
    characterId: int,
    judgmentId: Option<int>,
    diceResult: Option<int>,
    hasRolled: bool,
    createdAt: int)

  /** A row built with only the required columns: not rolled, no result, no judgment. */
  function NewDiceRollState(id: int, sessionId: int, roundId: int, characterId: int, createdAt: int)
    : (r: DiceRollState)
    ensures !r.hasRolled && r.diceResult.None? && r.judgmentId.None?
    ensures r.sessionId == sessionId && r.roundId == roundId && r.characterId == characterId
  {
    DiceRollState(id, sessionId, roundId, characterId, None, None, false, createdAt)
  }

  /** The tables the core reads and writes. */
  datatype Db = Db(
    users: seq<User>,
    sessions: seq<GameSession>,
    characters: seq<Character>,
    participants: seq<Participant>,
    logs: seq<StoryLog>,
    judgments: seq<ActionJudgment>,
    nextId: int)
  {
    /** Every stored id was handed out by the counter. */
    predicate IdsFresh() {
      && (forall i :: 0 <= i < |sessions| ==> sessions[i].id < nextId)
      && (forall i :: 0 <= i < |participants| ==> participants[i].id < nextId)
      && (forall i :: 0 <= i < |logs| ==> logs[i].id < nextId)
      && (forall i :: 0 <= i < |judgments| ==> judgments[i].id < nextId)
    }
  }

  /** The position of the first row whose key is `id`: the primary-key lookup `.filter(T.id == id).first()`. */
  function FindFirst<T>(rows: seq<T>, key: T -> int, id: int): (r: Option<nat>)
    ensures r.Some? ==> r.value < |rows| && key(rows[r.value]) == id
                        && forall k :: 0 <= k < r.value ==> key(rows[k]) != id
    ensures r.None? <==> forall k :: 0 <= k < |rows| ==> key(rows[k]) != id
  {
    if |rows| == 0 then None
    else if key(rows[0]) == id then Some(0)
    else
      match FindFirst(rows[1..], key, id)
      case None => None
      case Some(k) => Some(k + 1)
  }

  /** The first session row with this id. */
  function FindSession(sessions: seq<GameSession>, id: int): (r: Option<nat>)
    ensures r.Some? ==> r.value < |sessions| && sessions[r.value].id == id
                        && forall k :: 0 <= k < r.value ==> sessions[k].id != id
    ensures r.None? <==> forall k :: 0 <= k < |sessions| ==> sessions[k].id != id
  {
    FindFirst(sessions, (s: GameSession) => s.id, id)
  }

  /** The first character row with this id. */
  function FindCharacter(chars: seq<Character>, id: int): (r: Option<nat>)
    ensures r.Some? ==> r.value < |chars| && chars[r.value].id == id
                        && forall k :: 0 <= k < r.value ==> chars[k].id != id
    ensures r.None? <==> forall k :: 0 <= k < |chars| ==> chars[k].id != id
  {
    FindFirst(chars, (c: Character) => c.id, id)
  }
}

=== FILE: schemas.dfy ===
/**
 * The request/response records of the AI game master (`backend/app/schemas.py`).
 * Field bounds that pydantic enforces on construction are the `Valid`
 * predicates; the `New…` functions are the validating constructors, which
 * raise a validation error (an `Err`) when a bound is broken.
 */
module Schemas {
  import opened Common
  import opened Json

  /** The six action types, one per D&D ability. */
  datatype ActionType = Strength | Dexterity | Constitution | Intelligence | Wisdom | Charisma {
    /** The enum's string value. */
    function Value(): string {
      match this
      case Strength => "strength"
      case Dexterity => "dexterity"
      case Constitution => "constitution"
      case Intelligence => "intelligence"
      case Wisdom => "wisdom"
      case Charisma => "charisma"
    }
  }

  /** `ActionType(s)`: the member whose value is `s`, if any. */
  function ParseActionType(s: string): (r: Option<ActionType>)
    ensures r.Some? ==> r.value.Value() == s
  {
    if s == "strength" then Some(Strength)
    else if s == "dexterity" then Some(Dexterity)
    else if s == "constitution" then Some(Constitution)
    else if s == "intelligence" then Some(Intelligence)
    else if s == "wisdom" then Some(Wisdom)
    else if s == "charisma" then Some(Charisma)
    else None
  }

  /** Every action type is recovered from its own value. */
  lemma ActionTypeRoundTrip(a: ActionType)
    ensures ParseActionType(a.Value()) == Some(a)
  {
  }

  /** The four judgment outcomes. */
  datatype JudgmentOutcome = CriticalFailure | Failure | Success | CriticalSuccess {
    function Value(): string {
      match this
      case CriticalFailure => "critical_failure"
      case Failure => "failure"
      case Success => "success"
      case CriticalSuccess => "critical_success"
    }
  }

  /** `JudgmentOutcome(s)`. */
  function ParseOutcome(s: string): (r: Option<JudgmentOutcome>)
    ensures r.Some? ==> r.value.Value() == s
  {
    if s == "critical_failure" then Some(CriticalFailure)
    else if s == "failure" then Some(Failure)
    else if s == "success" then Some(Success)
    else if s == "critical_success" then Some(CriticalSuccess)
    else None
  }

  lemma OutcomeRoundTrip(o: JudgmentOutcome)
    ensures ParseOutcome(o.Value()) == Some(o)
  {
  }

  predicate IsD20(n: int) { 1 <= n <= 20 }

  predicate IsDc(n: int) { 5 <= n <= 30 }

  predicate IsAbilityScore(n: int) { 1 <= n <= 30 }

  /** An action a player wants judged. */
  datatype PlayerAction = PlayerAction(characterId: int, actionText: string, actionType: ActionType)

  /** Phase-1 result: modifier and difficulty, before the die is rolled. */
  datatype ActionAnalysis = ActionAnalysis(
    characterId: int,
    actionText: string,
    actionType: ActionType,
    modifier: int,
    difficulty: int,
    difficultyReasoning: string)
  {
    predicate Valid() { IsDc(difficulty) }
  }

  /** Phase-2 input: the d20 roll together with the phase-1 values. */
  datatype DiceResult = DiceResult(
    characterId: int,
    actionText: string,
    diceRoll: int,
    modifier: int,
    difficulty: int)
  {
    predicate Valid() { IsD20(diceRoll) && IsDc(difficulty) }
  }

  /** `DiceResult(...)`: raises a validation error when the roll or DC is out of range. */
  function NewDiceResult(characterId: int, actionText: string, diceRoll: int, modifier: int, difficulty: int)
    : (r: Result<DiceResult, string>)
    ensures r.Ok? <==> IsD20(diceRoll) && IsDc(difficulty)
    ensures r.Ok? ==> r.value.Valid() && r.value.diceRoll == diceRoll && r.value.difficulty == difficulty
                      && r.value.modifier == modifier && r.value.characterId == characterId
                      && r.value.actionText == actionText
  {
    if IsD20(diceRoll) && IsDc(difficulty)
    then Ok(DiceResult(characterId, actionText, diceRoll, modifier, difficulty))
    else Err("validation error")
  }

  /** Phase-2 result: the final judgment of one action. */
  datatype JudgmentResult = JudgmentResult(
    characterId: int,
    actionText: string,
    diceResult: int,
    modifier: int,
    finalValue: int,
    difficulty: int,
    difficultyReasoning: Option<string>,
    outcome: JudgmentOutcome,
    outcomeReasoning: Option<string>)
  {
    predicate Valid() { IsD20(diceResult) && IsDc(difficulty) }
  }

  /** The six ability scores of a character sheet. */
  datatype Abilities = Abilities(
    strength: int, dexterity: int, constitution: int,
    intelligence: int, wisdom: int, charisma: int)
  {
    predicate Valid() {
      IsAbilityScore(strength) && IsAbilityScore(dexterity) && IsAbilityScore(constitution)
      && IsAbilityScore(intelligence) && IsAbilityScore(wisdom) && IsAbilityScore(charisma)
    }

    /** The score an action type relies on. */
    function Score(a: ActionType): int {
      match a
      case Strength => strength
      case Dexterity => dexterity
      case Constitution => constitution
      case Intelligence => intelligence
      case Wisdom => wisdom
      case Charisma => charisma
    }
  }

  /** The field defaults: every ability is 10. */
  const DefaultAbilities := Abilities(10, 10, 10, 10, 10, 10)

  /** The simplified character sheet the AI works with. */
  datatype CharacterSheet = CharacterSheet(
    id: int,
    name: string,
    age: Option<int>,
    race: Option<string>,
    concept: Option<string>,
    abilities: Abilities,
    skills: seq<seq<(string, Json)>>,
    weaknesses: seq<string>,
    statusEffects: seq<string>)
  {
    predicate Valid() { abilities.Valid() }
  }

  /** One entry of the story history; `role` must match `^(USER|AI)$`. */
  datatype StoryLogEntry = StoryLogEntry(role: string, content: string, createdAt: int)
  {
    predicate Valid() { role == "USER" || role == "AI" }
  }

  /** `StoryLogEntry(...)`: raises a validation error for any other role. */
  function NewStoryLogEntry(role: string, content: string, createdAt: int): (r: Result<StoryLogEntry, string>)
    ensures r.Ok? <==> role == "USER" || role == "AI"
    ensures r.Ok? ==> r.value == StoryLogEntry(role, content, createdAt)
  {
    if role == "USER" || role == "AI" then Ok(StoryLogEntry(role, content, createdAt))
    else Err("validation error")
  }

  /** The most story entries a game context may hold. */
  const MaxStoryHistory := 20

  /** Everything the AI needs to judge and narrate a round. */
  datatype GameContext = GameContext(
    sessionId: int,
    worldPrompt: string,
    systemPrompt: string,
    characters: seq<CharacterSheet>,
    storyHistory: seq<StoryLogEntry>,
    aiSummary: Option<string>)
  {
    predicate Valid() { |storyHistory| <= MaxStoryHistory }
  }
}

=== FILE: session_state.dfy ===
/**
 * Round readiness tracking (`backend/app/services/session_state_manager.py`):
 * per session, which characters still have to roll, who rolled and with what,
 * and a per-session round counter. The database helpers work on the
 * `dice_roll_states` table as a sequence of rows.
 */
module SessionState {
  import opened Common
  import opened Json
  import opened Models

  datatype RoundState = RoundState(
    roundId: int,
    pending: set<int>,
    rolled: set<int>,
    analyses: map<int, Json>,
    diceResults: map<int, int>)

  /** The state of every session and the round counters. */
  datatype Manager = Manager(states: map<int, RoundState>, counters: map<int, int>)

  const EmptyManager := Manager(map[], map[])

  /** `set(character_ids)`. */
  function SetOf(ids: seq<int>): (r: set<int>)
    ensures forall x :: x in r <==> x in ids
  {
    set i | i in ids
  }

  /** Pending and rolled split the round's characters, and results exist exactly for those who rolled. */
  predicate RoundInv(rs: RoundState, initial: set<int>) {
    && rs.pending !! rs.rolled
    && rs.pending + rs.rolled == initial
    && rs.diceResults.Keys == rs.rolled
  }

  /** The id the next `initialize_round` of the session hands out. */
  function NextRoundId(m: Manager, sessionId: int): int {
    (if sessionId in m.counters then m.counters[sessionId] else 0) + 1
  }

  /** `initialize_round`: bumps the counter and replaces the session's round state. */
  function InitializeRound(m: Manager, sessionId: int, ids: seq<int>, analyses: Option<map<int, Json>>)
    : (r: (Manager, int))
    ensures r.1 == NextRoundId(m, sessionId)
    ensures r.0.counters == m.counters[sessionId := r.1]
    ensures sessionId in r.0.states
    ensures var rs := r.0.states[sessionId];
            && rs.roundId == r.1
            && rs.pending == SetOf(ids) && rs.rolled == {} && rs.diceResults == map[]
            && rs.analyses == analyses.GetOr(map[])
            && RoundInv(rs, SetOf(ids))
    ensures forall s :: s != sessionId ==> (s in r.0.states <==> s in m.states)
    ensures forall s :: s != sessionId && s in m.states ==> r.0.states[s] == m.states[s]
  {
    var rid := NextRoundId(m, sessionId);
    var rs := RoundState(rid, SetOf(ids), {}, analyses.GetOr(map[]), map[]);
    (Manager(m.states[sessionId := rs], m.counters[sessionId := rid]), rid)
  }

  /** Round ids of a session keep growing: each is larger than every earlier one. */
  lemma RoundIdsIncrease(m: Manager, sessionId: int, ids1: seq<int>, ids2: seq<int>, a1: Option<map<int, Json>>, a2: Option<map<int, Json>>)
    ensures var (m1, r1) := InitializeRound(m, sessionId, ids1, a1);
            InitializeRound(m1, sessionId, ids2, a2).1 == r1 + 1
  {
  }

  /** `n` initialisations on a session without a counter hand out 1, 2, …, n. */
  function InitializeTimes(m: Manager, sessionId: int, n: nat): Manager
    decreases n
  {
    if n == 0 then m else InitializeRound(InitializeTimes(m, sessionId, n - 1), sessionId, [], None).0
  }

  lemma {:induction false} RoundIdsCountFromOne(m: Manager, sessionId: int, n: nat)
    requires sessionId !in m.counters
    ensures n > 0 ==> InitializeTimes(m, sessionId, n).counters[sessionId] == n
    ensures n > 0 ==> InitializeTimes(m, sessionId, n).states[sessionId].roundId == n
    decreases n
  {
    if n > 1 {
      RoundIdsCountFromOne(m, sessionId, n - 1);
    }
  }

  /** The current state of a session, if any (`get_round_state`). */
  function GetRoundState(m: Manager, sessionId: int): (r: Option<RoundState>)
    ensures r.Some? <==> sessionId in m.states
    ensures r.Some? ==> r.value == m.states[sessionId]
  {
    if sessionId in m.states then Some(m.states[sessionId]) else None
  }

  /** `record_dice_roll` without persistence: only a pending character of a known session can roll. */
  function RecordDiceRoll(m: Manager, sessionId: int, characterId: int, diceResult: int): (r: (Manager, bool))
    ensures r.1 <==> sessionId in m.states && characterId in m.states[sessionId].pending
    ensures !r.1 ==> r.0 == m
    ensures r.1 ==> sessionId in r.0.states
    ensures r.1 ==> var old_ := m.states[sessionId]; var new_ := r.0.states[sessionId];
                    && new_.pending == old_.pending - {characterId}
                    && new_.rolled == old_.rolled + {characterId}
                    && new_.diceResults == old_.diceResults[characterId := diceResult]
                    && new_.roundId == old_.roundId && new_.analyses == old_.analyses
    ensures r.0.counters == m.counters
    ensures r.0.states.Keys == m.states.Keys
    ensures forall s :: s in m.states && s != sessionId ==> r.0.states[s] == m.states[s]
  {
    match GetRoundState(m, sessionId)
    case None => (m, false)
    case Some(rs) =>
      if characterId !in rs.pending then (m, false)
      else
        var rs' := rs.(pending := rs.pending - {characterId},
                       rolled := rs.rolled + {characterId},
                       diceResults := rs.diceResults[characterId := diceResult]);
        (m.(states := m.states[sessionId := rs']), true)
  }

  /** A roll keeps the round invariant. */
  lemma RecordPreservesInv(m: Manager, sessionId: int, characterId: int, diceResult: int, initial: set<int>)
    requires sessionId in m.states && RoundInv(m.states[sessionId], initial)
    ensures var r := RecordDiceRoll(m, sessionId, characterId, diceResult);
            sessionId in r.0.states && RoundInv(r.0.states[sessionId], initial)
  {
  }

  /** A second roll of the same character is refused and the first value is kept. */
  lemma DuplicateRollKeepsFirst(m: Manager, sessionId: int, characterId: int, d1: int, d2: int)
    requires RecordDiceRoll(m, sessionId, characterId, d1).1
    ensures var m1 := RecordDiceRoll(m, sessionId, characterId, d1).0;
            && !RecordDiceRoll(m1, sessionId, characterId, d2).1
            && RecordDiceRoll(m1, sessionId, characterId, d2).0.states[sessionId].diceResults[characterId] == d1
  {
  }

  /** `check_all_rolled`: false for a session without a round, else whether nobody is pending. */
  function CheckAllRolled(m: Manager, sessionId: int): (r: bool)
    ensures sessionId !in m.states ==> !r
    ensures sessionId in m.states ==> (r <==> GetPendingCharacters(m, sessionId) == {})
  {
    sessionId in m.states && |m.states[sessionId].pending| == 0
  }

  /** Within a round, everybody has rolled exactly when the rolled set is the round's whole cast. */
  lemma AllRolledIffCastRolled(m: Manager, sessionId: int, initial: set<int>)
    requires sessionId in m.states && RoundInv(m.states[sessionId], initial)
    ensures CheckAllRolled(m, sessionId) <==> GetRolledCharacters(m, sessionId) == initial
  {
    var rs := m.states[sessionId];
    if rs.rolled == initial {
      assert forall c :: c in rs.pending ==> c in initial && c !in rs.rolled;
    }
  }

  /** Once everyone of a round has rolled, every one of them has a result. */
  lemma AllRolledMeansAllResults(m: Manager, sessionId: int, initial: set<int>)
    requires sessionId in m.states && RoundInv(m.states[sessionId], initial)
    requires CheckAllRolled(m, sessionId)
    ensures m.states[sessionId].diceResults.Keys == initial
  {
  }

  /** `get_dice_results`: a copy of the results, or an empty map for an unknown session. */
  function GetDiceResults(m: Manager, sessionId: int): (r: map<int, int>)
    ensures sessionId !in m.states ==> r == map[]
    ensures sessionId in m.states ==> r == m.states[sessionId].diceResults
  {
    match GetRoundState(m, sessionId)
    case None => map[]
    case Some(rs) => rs.diceResults
  }

  function GetPendingCharacters(m: Manager, sessionId: int): (r: set<int>)
    ensures sessionId !in m.states ==> r == {}
    ensures sessionId in m.states ==> r == m.states[sessionId].pending
  {
    match GetRoundState(m, sessionId)
    case None => {}
    case Some(rs) => rs.pending
  }

  function GetRolledCharacters(m: Manager, sessionId: int): (r: set<int>)
    ensures sessionId !in m.states ==> r == {}
    ensures sessionId in m.states ==> r == m.states[sessionId].rolled
  {
    match GetRoundState(m, sessionId)
    case None => {}
    case Some(rs) => rs.rolled
  }

  /** `get_analysis`: `None` for an unknown session or character. */
  function GetAnalysis(m: Manager, sessionId: int, characterId: int): (r: Option<Json>)
    ensures r.Some? <==> sessionId in m.states && characterId in m.states[sessionId].analyses
    ensures r.Some? ==> r.value == m.states[sessionId].analyses[characterId]
  {
    match GetRoundState(m, sessionId)
    case None => None
    case Some(rs) => if characterId in rs.analyses then Some(rs.analyses[characterId]) else None
  }

  /** `set_analysis`: false for an unknown session, which stays unknown. */
  function SetAnalysis(m: Manager, sessionId: int, characterId: int, analysis: Json): (r: (Manager, bool))
    ensures r.1 <==> sessionId in m.states
    ensures !r.1 ==> r.0 == m
    ensures r.1 ==> GetAnalysis(r.0, sessionId, characterId) == Some(analysis)
    ensures r.0.counters == m.counters && r.0.states.Keys == m.states.Keys
    ensures forall s :: s in m.states && s != sessionId ==> r.0.states[s] == m.states[s]
    ensures r.1 ==> var o := m.states[sessionId]; var n := r.0.states[sessionId];
                    n.pending == o.pending && n.rolled == o.rolled && n.diceResults == o.diceResults
  {
    match GetRoundState(m, sessionId)
    case None => (m, false)
    case Some(rs) =>
      (m.(states := m.states[sessionId := rs.(analyses := rs.analyses[characterId := analysis])]), true)
  }

  /** `reset_round`: drops the round state but keeps the counter. */
  function ResetRound(m: Manager, sessionId: int): (r: (Manager, bool))
    ensures r.1 <==> sessionId in m.states
    ensures sessionId !in r.0.states && r.0.counters == m.counters
    ensures forall s :: s != sessionId ==> (s in r.0.states <==> s in m.states)
    ensures forall s :: s in r.0.states ==> r.0.states[s] == m.states[s]
  {
    if sessionId in m.states then (m.(states := m.states - {sessionId}), true) else (m, false)
  }

  /** `clear_session`: drops the round state and the counter. */
  function ClearSession(m: Manager, sessionId: int): (r: (Manager, bool))
    ensures r.1 <==> sessionId in m.states || sessionId in m.counters
    ensures sessionId !in r.0.states && sessionId !in r.0.counters
    ensures r.0.states == m.states - {sessionId} && r.0.counters == m.counters - {sessionId}
  {
    (Manager(m.states - {sessionId}, m.counters - {sessionId}), sessionId in m.states || sessionId in m.counters)
  }

  /** After a reset the next round id is still larger; after a clear it starts again at 1. */
  lemma ResetKeepsCounterClearRestarts(m: Manager, sessionId: int)
    requires sessionId in m.counters && m.counters[sessionId] >= 1
    ensures NextRoundId(ResetRound(m, sessionId).0, sessionId) > m.counters[sessionId]
    ensures NextRoundId(ClearSession(m, sessionId).0, sessionId) == 1
  {
  }

  // ---- The dice_roll_states table --------------------------------------

  /** The table with its id counter. */
  datatype RollTable = RollTable(rows: seq<DiceRollState>, nextId: int)

  predicate Matches(row: DiceRollState, sessionId: int, roundId: int) {
    row.sessionId == sessionId && row.roundId == roundId
  }

  /** The first row of (session, round, character), as `.first()` finds it. */
  function FindRow(rows: seq<DiceRollState>, sessionId: int, roundId: int, characterId: int): (r: Option<nat>)
    ensures r.None? <==> forall i :: 0 <= i < |rows| ==>
              !(Matches(rows[i], sessionId, roundId) && rows[i].characterId == characterId)
    ensures r.Some? ==> r.value < |rows| && Matches(rows[r.value], sessionId, roundId)
                        && rows[r.value].characterId == characterId
    ensures r.Some? ==> forall i :: 0 <= i < r.value ==>
              !(Matches(rows[i], sessionId, roundId) && rows[i].characterId == characterId)
  {
    if |rows| == 0 then None
    else if Matches(rows[0], sessionId, roundId) && rows[0].characterId == characterId then Some(0)
    else
      match FindRow(rows[1..], sessionId, roundId, characterId)
      case None => None
      case Some(k) => Some(k + 1)
  }

  /** `_persist_dice_roll`: update the row of (session, round, character), or add one, as rolled. */
  function PersistDiceRoll(t: RollTable, sessionId: int, roundId: int, characterId: int, diceResult: int, now: int)
    : (r: RollTable)
    ensures FindRow(r.rows, sessionId, roundId, characterId).Some?
    ensures var k := FindRow(r.rows, sessionId, roundId, characterId).value;
            r.rows[k].hasRolled && r.rows[k].diceResult == Some(diceResult)
    ensures |r.rows| == |t.rows| + (if FindRow(t.rows, sessionId, roundId, characterId).None? then 1 else 0)
    ensures forall i :: 0 <= i < |t.rows| && Some(i) != FindRow(t.rows, sessionId, roundId, characterId)
              ==> r.rows[i] == t.rows[i]
    ensures FindRow(t.rows, sessionId, roundId, characterId).Some? ==>
              var k := FindRow(t.rows, sessionId, roundId, characterId).value;
              && r.nextId == t.nextId
              && r.rows[k] == t.rows[k].(diceResult := Some(diceResult), hasRolled := true)
    ensures FindRow(t.rows, sessionId, roundId, characterId).None? ==>
              && r.nextId == t.nextId + 1
              && r.rows[|t.rows|] == DiceRollState(t.nextId, sessionId, roundId, characterId, None, Some(diceResult), true, now)
  {
    match FindRow(t.rows, sessionId, roundId, characterId)
    case Some(k) =>
      var rows := t.rows[k := t.rows[k].(diceResult := Some(diceResult), hasRolled := true)];
      FindRowSameKeys(t.rows, rows, sessionId, roundId, characterId);
      t.(rows := rows)
    case None =>
      var row := DiceRollState(t.nextId, sessionId, roundId, characterId, None, Some(diceResult), true, now);
      var rows := t.rows + [row];
      assert FindRow(rows, sessionId, roundId, characterId) == Some(|t.rows|) by {
        FindRowAppend(t.rows, row, sessionId, roundId, characterId);
      }
      RollTable(rows, t.nextId + 1)
  }

  /** Lookups only see the (session, round, character) columns. */
  predicate SameKeys(a: seq<DiceRollState>, b: seq<DiceRollState>) {
    |a| == |b| && forall i :: 0 <= i < |a| ==>
      a[i].sessionId == b[i].sessionId && a[i].roundId == b[i].roundId && a[i].characterId == b[i].characterId
  }

  lemma {:induction false} FindRowSameKeys(a: seq<DiceRollState>, b: seq<DiceRollState>, sessionId: int, roundId: int, characterId: int)
    requires SameKeys(a, b)
    ensures FindRow(a, sessionId, roundId, characterId) == FindRow(b, sessionId, roundId, characterId)
  {
    if |a| > 0 {
      assert SameKeys(a[1..], b[1..]) by {
        forall i | 0 <= i < |a| - 1 ensures a[1..][i] == a[i + 1] && b[1..][i] == b[i + 1] {}
      }
      FindRowSameKeys(a[1..], b[1..], sessionId, roundId, characterId);
    }
  }

  lemma {:induction false} FindRowAppend(rows: seq<DiceRollState>, row: DiceRollState, sessionId: int, roundId: int, characterId: int)
    ensures FindRow(rows + [row], sessionId, roundId, characterId)
         == if FindRow(rows, sessionId, roundId, characterId).Some? then FindRow(rows, sessionId, roundId, characterId)
            else if Matches(row, sessionId, roundId) && row.characterId == characterId then Some(|rows|)
            else None
  {
    if |rows| > 0 {
      assert (rows + [row])[1..] == rows[1..] + [row];
      FindRowAppend(rows[1..], row, sessionId, roundId, characterId);
    }
  }

  /** The result of `record_dice_roll` with an optional database session. */
  datatype RecordOutcome = RecordOutcome(manager: Manager, recorded: bool, table: Option<RollTable>)

  /** `record_dice_roll`: a successful roll is also written through when a database is given. */
  function RecordDiceRollPersisted(m: Manager, sessionId: int, characterId: int, diceResult: int,
                                   db: Option<RollTable>, now: int): (r: RecordOutcome)
    ensures (r.manager, r.recorded) == RecordDiceRoll(m, sessionId, characterId, diceResult)
    ensures !r.recorded || db.None? ==> r.table == db
    ensures r.recorded && db.Some? ==> r.table.Some?
    ensures r.recorded && db.Some? ==>
              (var k := FindRow(r.table.value.rows, sessionId, m.states[sessionId].roundId, characterId);
               k.Some? && r.table.value.rows[k.value].diceResult == Some(diceResult))
  {
    var (m', ok) := RecordDiceRoll(m, sessionId, characterId, diceResult);
    if ok && db.Some? then
      RecordOutcome(m', ok, Some(PersistDiceRoll(db.value, sessionId, m.states[sessionId].roundId, characterId, diceResult, now)))
    else RecordOutcome(m', ok, db)
  }

  /** One iteration of the `initialize_round_from_db` loop. */
  function AddIfMissing(t: RollTable, p: Participant, sessionId: int, roundId: int, now: int): (t1: RollTable)
    ensures |t1.rows| >= |t.rows| && t1.rows[..|t.rows|] == t.rows
    ensures p.sessionId == sessionId ==> FindRow(t1.rows, sessionId, roundId, p.characterId).Some?
    ensures forall i :: |t.rows| <= i < |t1.rows| ==>
              Matches(t1.rows[i], sessionId, roundId) && !t1.rows[i].hasRolled
              && FindRow(t1.rows, sessionId, roundId, t1.rows[i].characterId) == Some(i)
    ensures forall c :: FindRow(t.rows, sessionId, roundId, c).Some? ==>
              FindRow(t1.rows, sessionId, roundId, c) == FindRow(t.rows, sessionId, roundId, c)
  {
    if p.sessionId != sessionId || FindRow(t.rows, sessionId, roundId, p.characterId).Some? then t
    else
      var row := NewDiceRollState(t.nextId, sessionId, roundId, p.characterId, now);
      assert forall c :: FindRow(t.rows + [row], sessionId, roundId, c)
                       == if FindRow(t.rows, sessionId, roundId, c).Some? then FindRow(t.rows, sessionId, roundId, c)
                          else if c == p.characterId then Some(|t.rows|) else None by {
        forall c ensures FindRow(t.rows + [row], sessionId, roundId, c)
                       == if FindRow(t.rows, sessionId, roundId, c).Some? then FindRow(t.rows, sessionId, roundId, c)
                          else if c == p.characterId then Some(|t.rows|) else None {
          FindRowAppend(t.rows, row, sessionId, roundId, c);
        }
      }
      assert (t.rows + [row])[..|t.rows|] == t.rows;
      RollTable(t.rows + [row], t.nextId + 1)
  }

  /**
   * `initialize_round_from_db`: one not-rolled row per participant of the
   * session unless the (session, round, character) row exists. Rows added in
   * the same call are visible to later lookups (autoflush), so a character
   * seated twice still gets one row.
   */
  function InitializeRoundFromDb(t: RollTable, participants: seq<Participant>, sessionId: int, roundId: int, now: int)
    : (r: RollTable)
    ensures |r.rows| >= |t.rows| && r.rows[..|t.rows|] == t.rows
    decreases |participants|
  {
    if |participants| == 0 then t
    else
      var t1 := AddIfMissing(t, participants[0], sessionId, roundId, now);
      var r := InitializeRoundFromDb(t1, participants[1..], sessionId, roundId, now);
      assert r.rows[..|t.rows|] == r.rows[..|t1.rows|][..|t.rows|];
      r
  }

  /**
   * Afterwards every participant of the session has a row of the round; rows
   * that existed keep answering lookups; each added row is unrolled and is the
   * only row of its character.
   */
  lemma {:induction false} InitializeRoundFromDbSpec(t: RollTable, participants: seq<Participant>, sessionId: int, roundId: int, now: int)
    ensures var r := InitializeRoundFromDb(t, participants, sessionId, roundId, now);
            && (forall i :: 0 <= i < |participants| && participants[i].sessionId == sessionId ==>
                  FindRow(r.rows, sessionId, roundId, participants[i].characterId).Some?)
            && (forall i :: |t.rows| <= i < |r.rows| ==>
                  Matches(r.rows[i], sessionId, roundId) && !r.rows[i].hasRolled
                  && FindRow(r.rows, sessionId, roundId, r.rows[i].characterId) == Some(i))
            && (forall c :: FindRow(t.rows, sessionId, roundId, c).Some? ==>
                  FindRow(r.rows, sessionId, roundId, c) == FindRow(t.rows, sessionId, roundId, c))
    decreases |participants|
  {
    if |participants| > 0 {
      var t1 := AddIfMissing(t, participants[0], sessionId, roundId, now);
      var r := InitializeRoundFromDb(t1, participants[1..], sessionId, roundId, now);
      InitializeRoundFromDbSpec(t1, participants[1..], sessionId, roundId, now);
      assert r == InitializeRoundFromDb(t, participants, sessionId, roundId, now);
      assert r.rows[..|t1.rows|] == t1.rows;
      forall i | 0 <= i < |participants| && participants[i].sessionId == sessionId
        ensures FindRow(r.rows, sessionId, roundId, participants[i].characterId).Some?
      {
        if i > 0 {
          assert participants[i] == participants[1..][i - 1];
        }
      }
      forall i | |t.rows| <= i < |r.rows|
        ensures Matches(r.rows[i], sessionId, roundId) && !r.rows[i].hasRolled
                && FindRow(r.rows, sessionId, roundId, r.rows[i].characterId) == Some(i)
      {
        if i < |t1.rows| {
          assert r.rows[i] == t1.rows[i];
          assert Matches(t1.rows[i], sessionId, roundId) && !t1.rows[i].hasRolled;
          assert FindRow(t1.rows, sessionId, roundId, t1.rows[i].characterId) == Some(i);
        } else {
          assert FindRow(r.rows, sessionId, roundId, r.rows[i].characterId) == Some(i);
        }
      }
    }
  }

  /** `check_all_rolled_from_db`: no row of the round is still unrolled (true for no rows at all). */
  function CheckAllRolledFromDb(t: RollTable, sessionId: int, roundId: int): (r: bool)
    ensures r <==> forall i :: 0 <= i < |t.rows| && Matches(t.rows[i], sessionId, roundId) ==> t.rows[i].hasRolled
  {
    PendingCount(t.rows, sessionId, roundId) == 0
  }

  /** The `count()` of unrolled rows of the round. */
  function PendingCount(rows: seq<DiceRollState>, sessionId: int, roundId: int): (n: nat)
    ensures n == 0 <==> forall i :: 0 <= i < |rows| && Matches(rows[i], sessionId, roundId) ==> rows[i].hasRolled
  {
    if |rows| == 0 then 0
    else
      (if Matches(rows[0], sessionId, roundId) && !rows[0].hasRolled then 1 else 0)
      + PendingCount(rows[1..], sessionId, roundId)
  }

  /** One entry of `get_dice_results_from_db`. */
  datatype RollRecord = RollRecord(characterId: int, diceResult: Option<int>, judgmentId: Option<int>)

  /** `get_dice_results_from_db`: the rolled rows of the round, in table order. */
  function GetDiceResultsFromDb(rows: seq<DiceRollState>, sessionId: int, roundId: int): (r: seq<RollRecord>)
    ensures |r| <= |rows|
    ensures forall e :: e in r <==>
              (exists i :: 0 <= i < |rows| && Matches(rows[i], sessionId, roundId) && rows[i].hasRolled
                           && e == RollRecord(rows[i].characterId, rows[i].diceResult, rows[i].judgmentId))
  {
    if |rows| == 0 then []
    else
      var rest := GetDiceResultsFromDb(rows[1..], sessionId, roundId);
      assert forall i :: 1 <= i < |rows| ==> rows[i] == rows[1..][i - 1];
      if Matches(rows[0], sessionId, roundId) && rows[0].hasRolled
      then [RollRecord(rows[0].characterId, rows[0].diceResult, rows[0].judgmentId)] + rest
      else rest
  }

  /** The listing distributes over concatenation, so the rolled rows come out in table order. */
  lemma {:induction false} DiceResultsAppend(a: seq<DiceRollState>, b: seq<DiceRollState>, sessionId: int, roundId: int)
    ensures GetDiceResultsFromDb(a + b, sessionId, roundId)
            == GetDiceResultsFromDb(a, sessionId, roundId) + GetDiceResultsFromDb(b, sessionId, roundId)
    decreases |a|
  {
    if |a| == 0 {
      assert a + b == b;
    } else {
      assert (a + b)[1..] == a[1..] + b;
      DiceResultsAppend(a[1..], b, sessionId, roundId);
    }
  }

  /** One row is listed exactly when it belongs to the round and has rolled. */
  lemma DiceResultsOne(row: DiceRollState, sessionId: int, roundId: int)
    ensures GetDiceResultsFromDb([row], sessionId, roundId)
            == if Matches(row, sessionId, roundId) && row.hasRolled
               then [RollRecord(row.characterId, row.diceResult, row.judgmentId)] else []
  {
    assert [row][1..] == [];
  }

  /** `reset_round_in_db`: deletes exactly the rows of the round; the others keep their order. */
  function ResetRoundInDb(rows: seq<DiceRollState>, sessionId: int, roundId: int): (r: seq<DiceRollState>)
    ensures forall i :: 0 <= i < |r| ==> !Matches(r[i], sessionId, roundId)
    ensures forall x :: x in r <==> x in rows && !Matches(x, sessionId, roundId)
    ensures |r| <= |rows|
  {
    if |rows| == 0 then []
    else if Matches(rows[0], sessionId, roundId) then ResetRoundInDb(rows[1..], sessionId, roundId)
    else [rows[0]] + ResetRoundInDb(rows[1..], sessionId, roundId)
  }

  /** After a reset the round's readiness check is vacuously true. */
  lemma ResetThenAllRolled(t: RollTable, sessionId: int, roundId: int)
    ensures CheckAllRolledFromDb(RollTable(ResetRoundInDb(t.rows, sessionId, roundId), t.nextId), sessionId, roundId)
  {
  }
}

=== FILE: sessions.dfy ===
/**
 * The session routes of `backend/app/routes/sessions.py`: listing, creating,
 * joining, leaving, ending, restarting and deleting game sessions. Each route
 * returns the new database or the `HTTPException` it raises; a raise before
 * any commit leaves the database as it was.
 */
module Sessions {
  import opened Common
  import opened Models
  import Text
  import Sorting
  import SocketServer

  const TitleRequired := "Title is required and cannot be empty"
  const WorldPromptRequired := "World prompt is required and cannot be empty"
  const CharacterNotOwned := "Character not found or doesn't belong to user"
  const AlreadyJoined := "User already joined this session"
  const SessionNotFound := "Session not found"
  const EndFirst := "End the session before deleting"

  /** One row of a session listing, with its participant count. */
  datatype SessionItem = SessionItem(id: int, title: string, hostUserId: int, participantCount: nat, createdAt: int, isActive: bool)

  // ---------------------------------------------------------------------
  // Listings
  // ---------------------------------------------------------------------

  /** `order_by(created_at.desc())`: a larger key comes first when sorting ascending by its negation. */
  function NewestFirstKey(s: GameSession): int {
    -s.createdAt
  }

  function ActiveOnly(sessions: seq<GameSession>): (r: seq<GameSession>)
    ensures forall s :: s in r <==> s in sessions && s.isActive
  {
    if |sessions| == 0 then []
    else (if sessions[0].isActive then [sessions[0]] else []) + ActiveOnly(sessions[1..])
  }

  function HostedBy(sessions: seq<GameSession>, hostUserId: int): (r: seq<GameSession>)
    ensures forall s :: s in r <==> s in sessions && s.hostUserId == hostUserId
  {
    if |sessions| == 0 then []
    else (if sessions[0].hostUserId == hostUserId then [sessions[0]] else []) + HostedBy(sessions[1..], hostUserId)
  }

  /** The active filter distributes over concatenation: table order is kept and each row appears once. */
  lemma {:induction false} ActiveOnlyAppend(a: seq<GameSession>, b: seq<GameSession>)
    ensures ActiveOnly(a + b) == ActiveOnly(a) + ActiveOnly(b)
    decreases |a|
  {
    if |a| == 0 {
      assert a + b == b;
    } else {
      assert (a + b)[1..] == a[1..] + b;
      ActiveOnlyAppend(a[1..], b);
    }
  }

  /** One session passes the active filter exactly when it is active. */
  lemma ActiveOnlyOne(s: GameSession)
    ensures ActiveOnly([s]) == if s.isActive then [s] else []
  {
    assert [s][1..] == [];
  }

  /** The host filter distributes over concatenation: table order is kept and each row appears once. */
  lemma {:induction false} HostedByAppend(a: seq<GameSession>, b: seq<GameSession>, hostUserId: int)
    ensures HostedBy(a + b, hostUserId) == HostedBy(a, hostUserId) + HostedBy(b, hostUserId)
    decreases |a|
  {
    if |a| == 0 {
      assert a + b == b;
    } else {
      assert (a + b)[1..] == a[1..] + b;
      HostedByAppend(a[1..], b, hostUserId);
    }
  }

  /** One session passes the host filter exactly when the user hosts it. */
  lemma HostedByOne(s: GameSession, hostUserId: int)
    ensures HostedBy([s], hostUserId) == if s.hostUserId == hostUserId then [s] else []
  {
    assert [s][1..] == [];
  }

  /** Sessions newest first, each with the number of participant rows pointing at it. */
  function Listing(db: Db, sessions: seq<GameSession>): (r: seq<SessionItem>)
    ensures |r| == |sessions|
    ensures var sorted := Sorting.SortBy(sessions, NewestFirstKey);
            forall i :: 0 <= i < |r| ==>
              && r[i].id == sorted[i].id
              && r[i].title == sorted[i].title
              && r[i].hostUserId == sorted[i].hostUserId
              && r[i].createdAt == sorted[i].createdAt
              && r[i].isActive == sorted[i].isActive
              && r[i].participantCount == SocketServer.ParticipantCount(db.participants, sorted[i].id)
    ensures forall i, j :: 0 <= i < j < |r| ==> r[i].createdAt >= r[j].createdAt
  {
    var sorted := Sorting.SortBy(sessions, NewestFirstKey);
    seq(|sorted|, i requires 0 <= i < |sorted| =>
      SessionItem(sorted[i].id, sorted[i].title, sorted[i].hostUserId,
                  SocketServer.ParticipantCount(db.participants, sorted[i].id),
                  sorted[i].createdAt, sorted[i].isActive))
  }

  /** Some row of the listing shows the session with this id. */
  predicate Listed(items: seq<SessionItem>, id: int) {
    exists i :: 0 <= i < |items| && items[i].id == id
  }

  /** The listing row shows this session with its head count. */
  predicate Shows(item: SessionItem, s: GameSession, participants: seq<Participant>) {
    && item.id == s.id && item.title == s.title && item.hostUserId == s.hostUserId
    && item.createdAt == s.createdAt && item.isActive == s.isActive
    && item.participantCount == SocketServer.ParticipantCount(participants, s.id)
  }

  /** Every listed row stands for one of the given sessions. */
  lemma ListingFrom(db: Db, sessions: seq<GameSession>)
    ensures var r := Listing(db, sessions);
            forall i :: 0 <= i < |r| ==> exists s :: s in sessions && Shows(r[i], s, db.participants)
  {
    var r := Listing(db, sessions);
    var sorted := Sorting.SortBy(sessions, NewestFirstKey);
    forall i | 0 <= i < |r|
      ensures exists s :: s in sessions && Shows(r[i], s, db.participants)
    {
      assert sorted[i] in multiset(sorted);
      assert Shows(r[i], sorted[i], db.participants);
    }
  }

  /** Every given session is listed. */
  lemma ListingCovers(db: Db, sessions: seq<GameSession>)
    ensures forall s :: s in sessions ==> Listed(Listing(db, sessions), s.id)
  {
    var r := Listing(db, sessions);
    var sorted := Sorting.SortBy(sessions, NewestFirstKey);
    forall s | s in sessions
      ensures Listed(r, s.id)
    {
      assert s in multiset(sorted);
      var i :| 0 <= i < |sorted| && sorted[i] == s;
      assert r[i].id == s.id;
    }
  }

  /** `list_sessions`: only active sessions, newest first, with their head counts. */
  function ListSessions(db: Db): (r: seq<SessionItem>)
    ensures forall i :: 0 <= i < |r| ==> r[i].isActive
    ensures forall i, j :: 0 <= i < j < |r| ==> r[i].createdAt >= r[j].createdAt
    ensures forall i :: 0 <= i < |r| ==> exists s :: s in db.sessions && s.isActive && Shows(r[i], s, db.participants)
    ensures forall s :: s in db.sessions && s.isActive ==> Listed(r, s.id)
    ensures |r| == |ActiveOnly(db.sessions)|
  {
    ListingFrom(db, ActiveOnly(db.sessions));
    ListingCovers(db, ActiveOnly(db.sessions));
    Listing(db, ActiveOnly(db.sessions))
  }

  /** `list_host_sessions`: every session of the host, active or not, newest first. */
  function ListHostSessions(db: Db, hostUserId: int): (r: seq<SessionItem>)
    ensures forall i, j :: 0 <= i < j < |r| ==> r[i].createdAt >= r[j].createdAt
    ensures forall i :: 0 <= i < |r| ==> r[i].hostUserId == hostUserId
    ensures forall i :: 0 <= i < |r| ==> exists s :: s in db.sessions && Shows(r[i], s, db.participants)
    ensures forall s :: s in db.sessions && s.hostUserId == hostUserId ==> Listed(r, s.id)
    ensures |r| == |HostedBy(db.sessions, hostUserId)|
  {
    ListingFrom(db, HostedBy(db.sessions, hostUserId));
    ListingCovers(db, HostedBy(db.sessions, hostUserId));
    Listing(db, HostedBy(db.sessions, hostUserId))
  }

  // ---------------------------------------------------------------------
  // Creating and joining
  // ---------------------------------------------------------------------

  /**
   * `create_session`: an empty title or world prompt breaks the request model
   * (`min_length=1`, a 422); a blank one is a 400; otherwise an active session
   * with stripped texts.
   */
  function CreateSession(db: Db, hostUserId: int, title: string, worldPrompt: string, now: int)
    : (r: Result<(Db, int), HttpError>)
    ensures r.Err? <==> Text.IsBlank(title) || Text.IsBlank(worldPrompt)
    ensures |title| == 0 || |worldPrompt| == 0 ==> r == Err(HttpError(422, RequestInvalid))
    ensures |title| > 0 && |worldPrompt| > 0 && Text.IsBlank(title) ==> r == Err(HttpError(400, TitleRequired))
    ensures |title| > 0 && |worldPrompt| > 0 && !Text.IsBlank(title) && Text.IsBlank(worldPrompt)
            ==> r == Err(HttpError(400, WorldPromptRequired))
    ensures r.Ok? ==>
              && r.value.1 == db.nextId
              && r.value.0.nextId > db.nextId
              && r.value.0 == db.(sessions := r.value.0.sessions, nextId := r.value.0.nextId)
              && |r.value.0.sessions| == |db.sessions| + 1
              && r.value.0.sessions[..|db.sessions|] == db.sessions
              && var s := r.value.0.sessions[|db.sessions|];
                 && s.id == r.value.1 && s.hostUserId == hostUserId && s.isActive && s.aiSummary.None?
                 && s.title == Text.Strip(title) && s.worldPrompt == Text.Strip(worldPrompt)
                 && s.title != [] && s.worldPrompt != []
  {
    if |title| == 0 || |worldPrompt| == 0 then Err(HttpError(422, RequestInvalid))
    else if Text.IsBlank(title) then Err(HttpError(400, TitleRequired))
    else if Text.IsBlank(worldPrompt) then Err(HttpError(400, WorldPromptRequired))
    else
      var s := GameSession(db.nextId, hostUserId, Text.Strip(title), Text.Strip(worldPrompt), None, now, true);
      Ok((db.(sessions := db.sessions + [s], nextId := db.nextId + 1), db.nextId))
  }

  /**
   * A fresh session shows up in the listing of active sessions with nobody in
   * it, given that participant rows only point at ids handed out earlier.
   */
  lemma CreateThenList(db: Db, hostUserId: int, title: string, worldPrompt: string, now: int)
    requires forall k :: 0 <= k < |db.participants| ==> db.participants[k].sessionId < db.nextId
    requires CreateSession(db, hostUserId, title, worldPrompt, now).Ok?
    ensures var created := CreateSession(db, hostUserId, title, worldPrompt, now).value;
            && SocketServer.ParticipantCount(created.0.participants, created.1) == 0
            && Listed(ListSessions(created.0), created.1)
  {
    var created := CreateSession(db, hostUserId, title, worldPrompt, now).value;
    var db' := created.0;
    assert db'.participants == db.participants;
    var s := db'.sessions[|db.sessions|];
    assert s in db'.sessions && s.isActive && s.id == created.1;
    assert Listed(ListSessions(db'), s.id);
  }

  /** The first character with this id that belongs to the user. */
  function OwnedCharacter(chars: seq<Character>, characterId: int, userId: int): (r: Option<nat>)
    ensures r.Some? ==> r.value < |chars| && chars[r.value].id == characterId && chars[r.value].userId == userId
    ensures r.None? <==> forall k :: 0 <= k < |chars| ==> !(chars[k].id == characterId && chars[k].userId == userId)
  {
    if |chars| == 0 then None
    else if chars[0].id == characterId && chars[0].userId == userId then Some(0)
    else
      match OwnedCharacter(chars[1..], characterId, userId)
      case None => None
      case Some(k) => Some(k + 1)
  }

  /**
   * `join_session`: 404 for a missing session or a character the user does
   * not own, 400 for a second seat; otherwise one participant row is added
   * and the character's name is returned.
   */
  function JoinSession(db: Db, sessionId: int, userId: int, characterId: int, now: int)
    : (r: Result<(Db, string), HttpError>)
    ensures FindSession(db.sessions, sessionId).None? ==> r.Err? && r.error.status == 404
    ensures FindSession(db.sessions, sessionId).Some? && OwnedCharacter(db.characters, characterId, userId).None?
            ==> r == Err(HttpError(404, CharacterNotOwned))
    ensures r.Ok? <==> && FindSession(db.sessions, sessionId).Some?
                       && OwnedCharacter(db.characters, characterId, userId).Some?
                       && SocketServer.FindParticipant(db.participants, sessionId, userId).None?
    ensures r.Ok? ==>
              && r.value.0 == db.(participants := db.participants + [Participant(db.nextId, sessionId, userId, characterId, now)],
                                  nextId := db.nextId + 1)
              && r.value.1 == db.characters[OwnedCharacter(db.characters, characterId, userId).value].name
  {
    match FindSession(db.sessions, sessionId)
    case None => Err(HttpError(404, "Session with id " + Text.IntToString(sessionId) + " not found"))
    case Some(_) =>
      match OwnedCharacter(db.characters, characterId, userId)
      case None => Err(HttpError(404, CharacterNotOwned))
      case Some(c) =>
        if SocketServer.FindParticipant(db.participants, sessionId, userId).Some? then Err(HttpError(400, AlreadyJoined))
        else
          var p := Participant(db.nextId, sessionId, userId, characterId, now);
          Ok((db.(participants := db.participants + [p], nextId := db.nextId + 1), db.characters[c].name))
  }

  /** `leave_session`: deletes the user's first seat in the session, if any; it always succeeds. */
  function LeaveSession(db: Db, sessionId: int, userId: int): (r: Db)
    ensures SocketServer.FindParticipant(db.participants, sessionId, userId).None? ==> r == db
    ensures SocketServer.FindParticipant(db.participants, sessionId, userId).Some? ==>
              var k := SocketServer.FindParticipant(db.participants, sessionId, userId).value;
              r == db.(participants := db.participants[..k] + db.participants[k + 1..])
  {
    match SocketServer.FindParticipant(db.participants, sessionId, userId)
    case None => db
    case Some(k) => db.(participants := db.participants[..k] + db.participants[k + 1..])
  }

  /** Leaving right after a successful join restores the participant table exactly. */
  lemma JoinThenLeaveRestores(db: Db, sessionId: int, userId: int, characterId: int, now: int)
    requires JoinSession(db, sessionId, userId, characterId, now).Ok?
    ensures LeaveSession(JoinSession(db, sessionId, userId, characterId, now).value.0, sessionId, userId).participants
            == db.participants
  {
    var joined := JoinSession(db, sessionId, userId, characterId, now).value.0;
    var n := |db.participants|;
    assert SocketServer.Seat(joined.participants[n], sessionId, userId);
    assert forall k :: 0 <= k < n ==> joined.participants[k] == db.participants[k];
    assert SocketServer.FindParticipant(joined.participants, sessionId, userId) == Some(n);
    assert joined.participants[..n] == db.participants;
  }

  /** A user who joined cannot join the same session a second time. */
  lemma NoSecondSeat(db: Db, sessionId: int, userId: int, characterId: int, otherCharacter: int, now: int, later: int)
    requires JoinSession(db, sessionId, userId, characterId, now).Ok?
    ensures var db' := JoinSession(db, sessionId, userId, characterId, now).value.0;
            JoinSession(db', sessionId, userId, otherCharacter, later).Err?
  {
    var db' := JoinSession(db, sessionId, userId, characterId, now).value.0;
    assert SocketServer.Seat(db'.participants[|db.participants|], sessionId, userId);
  }

  // ---------------------------------------------------------------------
  // Host-only lifecycle
  // ---------------------------------------------------------------------

  /** The position of the session when the user hosts it; 404 or 403 otherwise. */
  function HostedSession(db: Db, sessionId: int, userId: int, forbidden: string): (r: Result<nat, HttpError>)
    ensures r.Ok? <==> FindSession(db.sessions, sessionId).Some?
                       && db.sessions[FindSession(db.sessions, sessionId).value].hostUserId == userId
    ensures r.Ok? ==> r.value == FindSession(db.sessions, sessionId).value
    ensures FindSession(db.sessions, sessionId).None? ==> r == Err(HttpError(404, SessionNotFound))
    ensures FindSession(db.sessions, sessionId).Some? && r.Err? ==> r == Err(HttpError(403, forbidden))
  {
    match FindSession(db.sessions, sessionId)
    case None => Err(HttpError(404, SessionNotFound))
    case Some(k) => if db.sessions[k].hostUserId != userId then Err(HttpError(403, forbidden)) else Ok(k)
  }

  /** `end_session`: the host's session becomes inactive and all its participant rows go. */
  function EndSession(db: Db, sessionId: int, userId: int): (r: Result<Db, HttpError>)
    ensures r.Ok? <==> HostedSession(db, sessionId, userId, "Only the host can end the session").Ok?
    ensures r.Err? ==> r.error == HostedSession(db, sessionId, userId, "Only the host can end the session").error
    ensures r.Ok? ==> var k := FindSession(db.sessions, sessionId).value;
                      && |r.value.sessions| == |db.sessions|
                      && !r.value.sessions[k].isActive
                      && r.value.sessions[k] == db.sessions[k].(isActive := false)
                      && (forall i :: 0 <= i < |db.sessions| && i != k ==> r.value.sessions[i] == db.sessions[i])
                      && SocketServer.ParticipantCount(r.value.participants, sessionId) == 0
                      && (forall p :: p in db.participants && p.sessionId != sessionId ==> p in r.value.participants)
                      && r.value.logs == db.logs && r.value.judgments == db.judgments
  {
    match HostedSession(db, sessionId, userId, "Only the host can end the session")
    case Err(e) => Err(e)
    case Ok(k) =>
      var ps := SocketServer.WithoutSession(db.participants, sessionId);
      assert SocketServer.ParticipantCount(ps, sessionId) == 0;
      Ok(db.(sessions := db.sessions[k := db.sessions[k].(isActive := false)], participants := ps))
  }

  /** `restart_session`: the host's session becomes active again; nothing else changes. */
  function RestartSession(db: Db, sessionId: int, userId: int): (r: Result<Db, HttpError>)
    ensures r.Ok? <==> HostedSession(db, sessionId, userId, "Only the host can restart the session").Ok?
    ensures r.Err? ==> r.error == HostedSession(db, sessionId, userId, "Only the host can restart the session").error
    ensures r.Ok? ==> var k := FindSession(db.sessions, sessionId).value;
                      && |r.value.sessions| == |db.sessions| && r.value.sessions[k].isActive
                      && r.value == db.(sessions := db.sessions[k := db.sessions[k].(isActive := true)])
  {
    match HostedSession(db, sessionId, userId, "Only the host can restart the session")
    case Err(e) => Err(e)
    case Ok(k) => Ok(db.(sessions := db.sessions[k := db.sessions[k].(isActive := true)]))
  }

  /** Every story log not belonging to the session, in order. */
  function LogsWithoutSession(logs: seq<StoryLog>, sessionId: int): (r: seq<StoryLog>)
    ensures forall l :: l in r <==> l in logs && l.sessionId != sessionId
  {
    if |logs| == 0 then []
    else (if logs[0].sessionId == sessionId then [] else [logs[0]]) + LogsWithoutSession(logs[1..], sessionId)
  }

  /**
   * `delete_session`: host only, and refused with 400 while the session is
   * active; otherwise its participants, its story logs and the row go.
   */
  function DeleteSession(db: Db, sessionId: int, userId: int): (r: Result<Db, HttpError>)
    ensures r.Ok? <==> HostedSession(db, sessionId, userId, "Only the host can delete the session").Ok?
                       && !db.sessions[FindSession(db.sessions, sessionId).value].isActive
    ensures HostedSession(db, sessionId, userId, "Only the host can delete the session").Err? ==>
              r.Err? && r.error == HostedSession(db, sessionId, userId, "Only the host can delete the session").error
    ensures HostedSession(db, sessionId, userId, "Only the host can delete the session").Ok? && r.Err? ==>
              r == Err(HttpError(400, EndFirst))
    ensures r.Ok? ==> var k := FindSession(db.sessions, sessionId).value;
                      && r.value.sessions == db.sessions[..k] + db.sessions[k + 1..]
                      && (forall p :: p in r.value.participants <==> p in db.participants && p.sessionId != sessionId)
                      && (forall l :: l in r.value.logs <==> l in db.logs && l.sessionId != sessionId)
                      && r.value.judgments == db.judgments && r.value.characters == db.characters
  {
    match HostedSession(db, sessionId, userId, "Only the host can delete the session")
    case Err(e) => Err(e)
    case Ok(k) =>
      if db.sessions[k].isActive then Err(HttpError(400, EndFirst))
      else
        Ok(db.(sessions := db.sessions[..k] + db.sessions[k + 1..],
               participants := SocketServer.WithoutSession(db.participants, sessionId),
               logs := LogsWithoutSession(db.logs, sessionId)))
  }

  /** A session the host has ended can be deleted by the host, and ending then restarting reopens it empty. */
  lemma EndThenDeleteOrRestart(db: Db, sessionId: int, userId: int)
    requires EndSession(db, sessionId, userId).Ok?
    ensures var ended := EndSession(db, sessionId, userId).value;
            && DeleteSession(ended, sessionId, userId).Ok?
            && RestartSession(ended, sessionId, userId).Ok?
            && var k := FindSession(db.sessions, sessionId).value;
               && RestartSession(ended, sessionId, userId).value.sessions[k] == db.sessions[k].(isActive := true)
               && SocketServer.ParticipantCount(RestartSession(ended, sessionId, userId).value.participants, sessionId) == 0
  {
    var ended := EndSession(db, sessionId, userId).value;
    var k := FindSession(db.sessions, sessionId).value;
    assert forall i :: 0 <= i < k ==> ended.sessions[i] == db.sessions[i];
    assert FindSession(ended.sessions, sessionId) == Some(k);
  }

  /** An active session is never deleted, whoever asks. */
  lemma ActiveNeverDeleted(db: Db, sessionId: int, userId: int)
    requires FindSession(db.sessions, sessionId).Some?
    requires db.sessions[FindSession(db.sessions, sessionId).value].isActive
    ensures DeleteSession(db, sessionId, userId).Err?
  {
  }
}

=== FILE: socket_server.dfy ===
/**
 * The state rules of the Socket.IO server (`backend/app/socket_server.py`):
 * chat validation, participant upsert and removal, session deactivation,
 * host authorisation, the in-memory action queue, the phase-1 single-action
 * handler and the phase-2 dice gate. Emitted events are return values.
 */
module SocketServer {
  import opened Common
  import opened Json
  import opened Text
  import opened Schemas
  import opened Models
  import Sorting
  import StreamBuffer
  import JudgmentNode
  import GmService
  import GmAnalysis
  import GmNarration
  import ContextLoader

  // ---------------------------------------------------------------------
  // Chat messages
  // ---------------------------------------------------------------------

  const MaxChatLength := 500
  const EmptyMessage := "Message cannot be empty"
  const WhitespaceMessage := "Message cannot be only whitespace"
  const TooLongMessage := "Message exceeds maximum length of 500 characters"

  /**
   * `validate_chat_message`: `None` is valid, otherwise the error text. The
   * length limit applies to the raw text, surrounding whitespace included.
   */
  function ValidateChatMessage(message: string): (r: Option<string>)
    ensures r.None? <==> !AllSpace(message) && |message| <= MaxChatLength
    ensures AllSpace(message) ==> r == Some(EmptyMessage)
    ensures r != Some(WhitespaceMessage)
  {
    BlankIffAllSpace(message);
    if |message| == 0 || IsBlank(message) then Some(EmptyMessage)
    else if Strip(message) == "" then Some(WhitespaceMessage)
    else if |message| > MaxChatLength then Some(TooLongMessage)
    else None
  }

  /** 500 letters followed by one space are rejected although they strip to 500 characters. */
  lemma LengthCountsWhitespace()
    ensures var m := seq(500, _ => 'a') + [' '];
            |Strip(m)| <= MaxChatLength && ValidateChatMessage(m) == Some(TooLongMessage)
  {
    var m := seq(500, _ => 'a') + [' '];
    assert !IsSpace(m[0]);
    assert !AllSpace(m);
    BlankIffAllSpace(m);
    assert |RStrip(m)| <= 500 by {
      assert RStrip(m) == RStrip(m[..500]);
    }
  }

  // ---------------------------------------------------------------------
  // Participants
  // ---------------------------------------------------------------------

  predicate Seat(p: Participant, sessionId: int, userId: int) {
    p.sessionId == sessionId && p.userId == userId
  }

  /** The first participant row of this user in this session. */
  function FindParticipant(ps: seq<Participant>, sessionId: int, userId: int): (r: Option<nat>)
    ensures r.Some? ==> r.value < |ps| && Seat(ps[r.value], sessionId, userId)
                        && forall k :: 0 <= k < r.value ==> !Seat(ps[k], sessionId, userId)
    ensures r.None? <==> forall k :: 0 <= k < |ps| ==> !Seat(ps[k], sessionId, userId)
  {
    if |ps| == 0 then None
    else if Seat(ps[0], sessionId, userId) then Some(0)
    else
      match FindParticipant(ps[1..], sessionId, userId)
      case None => None
      case Some(k) => Some(k + 1)
  }

  /** At most one row per (session, user). */
  predicate OneSeatEach(ps: seq<Participant>) {
    forall i, j :: 0 <= i < j < |ps| ==> !(ps[i].sessionId == ps[j].sessionId && ps[i].userId == ps[j].userId)
  }

  /** `get_participant_count`. */
  function ParticipantCount(ps: seq<Participant>, sessionId: int): (r: nat)
    ensures r <= |ps|
    ensures r == 0 <==> forall k :: 0 <= k < |ps| ==> ps[k].sessionId != sessionId
  {
    if |ps| == 0 then 0
    else (if ps[0].sessionId == sessionId then 1 else 0) + ParticipantCount(ps[1..], sessionId)
  }

  /** `add_participant`: an upsert on (session, user); a repeat only changes the character and join time. */
  function AddParticipant(db: Db, sessionId: int, userId: int, characterId: int, now: int): (r: Db)
    ensures FindParticipant(db.participants, sessionId, userId).Some? ==>
              var k := FindParticipant(db.participants, sessionId, userId).value;
              r == db.(participants := db.participants[k := db.participants[k].(characterId := characterId, joinedAt := now)])
    ensures FindParticipant(db.participants, sessionId, userId).None? ==>
              r == db.(participants := db.participants + [Participant(db.nextId, sessionId, userId, characterId, now)],
                       nextId := db.nextId + 1)
  {
    match FindParticipant(db.participants, sessionId, userId)
    case Some(k) =>
      db.(participants := db.participants[k := db.participants[k].(characterId := characterId, joinedAt := now)])
    case None =>
      db.(participants := db.participants + [Participant(db.nextId, sessionId, userId, characterId, now)],
          nextId := db.nextId + 1)
  }

  lemma {:induction false} CountAppend(ps: seq<Participant>, p: Participant, sessionId: int)
    ensures ParticipantCount(ps + [p], sessionId) == ParticipantCount(ps, sessionId) + (if p.sessionId == sessionId then 1 else 0)
    decreases |ps|
  {
    if |ps| > 0 {
      assert (ps + [p])[1..] == ps[1..] + [p];
      CountAppend(ps[1..], p, sessionId);
    }
  }

  lemma {:induction false} CountUpdate(ps: seq<Participant>, k: int, p: Participant, sessionId: int)
    requires 0 <= k < |ps| && p.sessionId == ps[k].sessionId
    ensures ParticipantCount(ps[k := p], sessionId) == ParticipantCount(ps, sessionId)
    decreases |ps|
  {
    if k > 0 {
      assert ps[k := p][1..] == ps[1..][k - 1 := p];
      CountUpdate(ps[1..], k - 1, p, sessionId);
    }
  }

  /** The upsert keeps one row per seat; a repeat leaves the count alone and a newcomer adds one. */
  lemma AddParticipantSeats(db: Db, sessionId: int, userId: int, characterId: int, now: int)
    requires OneSeatEach(db.participants)
    ensures var r := AddParticipant(db, sessionId, userId, characterId, now);
            && OneSeatEach(r.participants)
            && FindParticipant(r.participants, sessionId, userId).Some?
            && ParticipantCount(r.participants, sessionId)
               == ParticipantCount(db.participants, sessionId)
                  + (if FindParticipant(db.participants, sessionId, userId).Some? then 0 else 1)
  {
    var r := AddParticipant(db, sessionId, userId, characterId, now);
    match FindParticipant(db.participants, sessionId, userId)
    case Some(k) =>
      CountUpdate(db.participants, k, db.participants[k].(characterId := characterId, joinedAt := now), sessionId);
      assert Seat(r.participants[k], sessionId, userId);
    case None =>
      var p := Participant(db.nextId, sessionId, userId, characterId, now);
      CountAppend(db.participants, p, sessionId);
      assert Seat(r.participants[|db.participants|], sessionId, userId);
  }

  /** `remove_participant`: deletes the row and reports whether there was one. */
  function RemoveParticipant(db: Db, sessionId: int, userId: int): (r: (Db, bool))
    ensures r.1 <==> exists k :: 0 <= k < |db.participants| && Seat(db.participants[k], sessionId, userId)
    ensures !r.1 ==> r.0 == db
    ensures r.1 ==> |r.0.participants| == |db.participants| - 1
    ensures r.1 ==> exists k :: 0 <= k < |db.participants| && Seat(db.participants[k], sessionId, userId)
                               && r.0 == db.(participants := db.participants[..k] + db.participants[k + 1..])
    ensures OneSeatEach(db.participants) ==>
              forall k :: 0 <= k < |r.0.participants| ==> !Seat(r.0.participants[k], sessionId, userId)
  {
    match FindParticipant(db.participants, sessionId, userId)
    case None => (db, false)
    case Some(k) =>
      var ps := db.participants[..k] + db.participants[k + 1..];
      assert forall i :: 0 <= i < |ps| ==> ps[i] == (if i < k then db.participants[i] else db.participants[i + 1]);
      (db.(participants := ps), true)
  }

  /** Session rows of the participants, without the removed seat. */
  lemma {:induction false} CountRemove(ps: seq<Participant>, k: int, sessionId: int)
    requires 0 <= k < |ps|
    ensures ParticipantCount(ps[..k] + ps[k + 1..], sessionId)
            == ParticipantCount(ps, sessionId) - (if ps[k].sessionId == sessionId then 1 else 0)
    decreases |ps|
  {
    if k == 0 {
      assert ps[..0] + ps[1..] == ps[1..];
    } else {
      assert (ps[..k] + ps[k + 1..])[1..] == ps[1..][..k - 1] + ps[1..][k..];
      CountRemove(ps[1..], k - 1, sessionId);
    }
  }

  /** Joining and then leaving restores the session's head count. */
  lemma JoinThenLeave(db: Db, sessionId: int, userId: int, characterId: int, now: int)
    requires OneSeatEach(db.participants)
    requires FindParticipant(db.participants, sessionId, userId).None?
    ensures var (r, removed) := RemoveParticipant(AddParticipant(db, sessionId, userId, characterId, now), sessionId, userId);
            removed && ParticipantCount(r.participants, sessionId) == ParticipantCount(db.participants, sessionId)
  {
    var added := AddParticipant(db, sessionId, userId, characterId, now);
    AddParticipantSeats(db, sessionId, userId, characterId, now);
    var k := FindParticipant(added.participants, sessionId, userId).value;
    CountRemove(added.participants, k, sessionId);
  }

  /** Deletes every participant row of the session. */
  function WithoutSession(ps: seq<Participant>, sessionId: int): (r: seq<Participant>)
    ensures forall k :: 0 <= k < |r| ==> r[k].sessionId != sessionId && r[k] in ps
    ensures forall p :: p in ps && p.sessionId != sessionId ==> p in r
    ensures (forall k :: 0 <= k < |ps| ==> ps[k].sessionId != sessionId) ==> r == ps
  {
    if |ps| == 0 then []
    else (if ps[0].sessionId == sessionId then [] else [ps[0]]) + WithoutSession(ps[1..], sessionId)
  }

  /**
   * `check_and_deactivate_session`: an empty, existing, active session is
   * deactivated and loses its participant rows; otherwise nothing changes.
   */
  function CheckAndDeactivateSession(db: Db, sessionId: int): (r: (Db, bool))
    ensures r.1 <==> ParticipantCount(db.participants, sessionId) == 0
                     && FindSession(db.sessions, sessionId).Some?
                     && db.sessions[FindSession(db.sessions, sessionId).value].isActive
    ensures !r.1 ==> r.0 == db
    ensures r.1 ==> var k := FindSession(db.sessions, sessionId).value;
                    && |r.0.sessions| == |db.sessions|
                    && !r.0.sessions[k].isActive
                    && (forall i :: 0 <= i < |db.sessions| && i != k ==> r.0.sessions[i] == db.sessions[i])
                    && ParticipantCount(r.0.participants, sessionId) == 0
    ensures r.1 ==> var k := FindSession(db.sessions, sessionId).value;
                    r.0 == db.(sessions := db.sessions[k := db.sessions[k].(isActive := false)])
  {
    if ParticipantCount(db.participants, sessionId) > 0 then (db, false)
    else
      match FindSession(db.sessions, sessionId)
      case None => (db, false)
      case Some(k) =>
        if !db.sessions[k].isActive then (db, false)
        else
          (db.(sessions := db.sessions[k := db.sessions[k].(isActive := false)],
               participants := WithoutSession(db.participants, sessionId)), true)
  }

  // ---------------------------------------------------------------------
  // Host authorisation
  // ---------------------------------------------------------------------

  const SessionNotFound := "Session not found"
  const NotHost := "Unauthorized: Only the host can perform this action"

  /** `verify_host_authorization`: `None` when the user hosts the session. */
  function VerifyHostAuthorization(sessions: seq<GameSession>, sessionId: int, userId: int): (r: Option<string>)
    ensures r.None? <==> FindSession(sessions, sessionId).Some?
                         && sessions[FindSession(sessions, sessionId).value].hostUserId == userId
    ensures FindSession(sessions, sessionId).None? ==> r == Some(SessionNotFound)
    ensures FindSession(sessions, sessionId).Some? && r.Some? ==> r == Some(NotHost)
  {
    match FindSession(sessions, sessionId)
    case None => Some(SessionNotFound)
    case Some(k) => if sessions[k].hostUserId != userId then Some(NotHost) else None
  }

  // ---------------------------------------------------------------------
  // The action queue
  // ---------------------------------------------------------------------

  const EmptyAction := "Action text cannot be empty"
  const NothingToCommit := "No actions to commit"

  /**
   * One queued action. Entries with equal ids are a single shared object in
   * the source (they arise only from a reorder that lists an id twice), so
   * every operation treats all entries with one id alike.
   */
  datatype QueuedAction = QueuedAction(id: int, playerId: int, characterName: string, actionText: string, order: int)

  /** The per-session queues and the process-wide id counter. */
  datatype Queues = Queues(queues: map<int, seq<QueuedAction>>, counter: int)

  function QueueOf(q: Queues, sessionId: int): seq<QueuedAction> {
    if sessionId in q.queues then q.queues[sessionId] else []
  }

  predicate UniqueIds(queue: seq<QueuedAction>) {
    forall i, j :: 0 <= i < j < |queue| ==> queue[i].id != queue[j].id
  }

  /** Orders are the positions 0..n-1. */
  predicate Numbered(queue: seq<QueuedAction>) {
    forall i :: 0 <= i < |queue| ==> queue[i].order == i
  }

  /** Every id was handed out by the counter, and each queue is duplicate-free and numbered. */
  predicate WellFormed(q: Queues) {
    forall s :: s in q.queues ==>
      && UniqueIds(q.queues[s])
      && Numbered(q.queues[s])
      && (forall i :: 0 <= i < |q.queues[s]| ==> q.queues[s][i].id <= q.counter)
  }

  /** `submit_action`: the stripped text is appended with the next id and the next position. */
  function SubmitAction(q: Queues, sessionId: int, playerId: int, characterName: string, actionText: string)
    : (r: Result<Queues, string>)
    ensures r.Err? <==> IsBlank(actionText)
    ensures r.Err? ==> r.error == EmptyAction
    ensures r.Ok? ==>
              && r.value.counter == q.counter + 1
              && QueueOf(r.value, sessionId)
                 == QueueOf(q, sessionId)
                    + [QueuedAction(q.counter + 1, playerId, characterName, Strip(actionText), |QueueOf(q, sessionId)|)]
              && (forall s :: s != sessionId ==> QueueOf(r.value, s) == QueueOf(q, s))
  {
    var text := Strip(actionText);
    if text == "" then Err(EmptyAction)
    else
      var queue := QueueOf(q, sessionId);
      var action := QueuedAction(q.counter + 1, playerId, characterName, text, |queue|);
      Ok(Queues(q.queues[sessionId := queue + [action]], q.counter + 1))
  }

  /** Submitting keeps every queue duplicate-free and numbered, and the new id is larger than all queued ones. */
  lemma SubmitKeepsWellFormed(q: Queues, sessionId: int, playerId: int, characterName: string, actionText: string)
    requires WellFormed(q)
    requires SubmitAction(q, sessionId, playerId, characterName, actionText).Ok?
    ensures WellFormed(SubmitAction(q, sessionId, playerId, characterName, actionText).value)
  {
    var r := SubmitAction(q, sessionId, playerId, characterName, actionText).value;
    assert forall s :: s in r.queues && s != sessionId ==> s in q.queues && r.queues[s] == q.queues[s];
    var queue := QueueOf(q, sessionId);
    assert forall i :: 0 <= i < |queue| ==> queue[i].id <= q.counter;
  }

  /** `get_queue`: a session without a queue has an empty one. */
  function GetQueue(q: Queues, sessionId: int): (r: (Queues, seq<QueuedAction>))
    ensures r.1 == QueueOf(q, sessionId) && sessionId in r.0.queues
    ensures forall s :: QueueOf(r.0, s) == QueueOf(q, s)
  {
    if sessionId in q.queues then (q, q.queues[sessionId])
    else (q.(queues := q.queues[sessionId := []]), [])
  }

  /** `edit_action`: host only, non-blank text; the entries with that id get the stripped text. */
  function EditAction(q: Queues, sessions: seq<GameSession>, sessionId: int, userId: int, actionId: int, newText: string)
    : (r: Result<Queues, string>)
    ensures VerifyHostAuthorization(sessions, sessionId, userId).Some? ==>
              r == Err(VerifyHostAuthorization(sessions, sessionId, userId).value)
    ensures VerifyHostAuthorization(sessions, sessionId, userId).None? ==> (r.Err? <==> IsBlank(newText))
    ensures r.Ok? ==>
              && r.value.counter == q.counter
              && |QueueOf(r.value, sessionId)| == |QueueOf(q, sessionId)|
              && (forall i :: 0 <= i < |QueueOf(q, sessionId)| ==>
                    var a := QueueOf(q, sessionId)[i];
                    QueueOf(r.value, sessionId)[i] == if a.id == actionId then a.(actionText := Strip(newText)) else a)
              && (forall s :: s != sessionId ==> QueueOf(r.value, s) == QueueOf(q, s))
  {
    match VerifyHostAuthorization(sessions, sessionId, userId)
    case Some(e) => Err(e)
    case None =>
      var text := Strip(newText);
      if text == "" then Err(EmptyAction)
      else if sessionId !in q.queues then Ok(q)
      else
        Ok(q.(queues := q.queues[sessionId := Edited(q.queues[sessionId], actionId, text)]))
  }

  /** The queue with every entry of the given id carrying the new text, in place. */
  function Edited(queue: seq<QueuedAction>, actionId: int, text: string): (r: seq<QueuedAction>)
    ensures |r| == |queue|
    ensures forall i :: 0 <= i < |queue| ==>
              r[i] == if queue[i].id == actionId then queue[i].(actionText := text) else queue[i]
  {
    seq(|queue|, i requires 0 <= i < |queue| =>
      if queue[i].id == actionId then queue[i].(actionText := text) else queue[i])
  }

  /** The last position at which `x` occurs, or -1. */
  function LastIndex(xs: seq<int>, x: int): (r: int)
    ensures -1 <= r < |xs|
    ensures r >= 0 ==> xs[r] == x && forall j :: r < j < |xs| ==> xs[j] != x
    ensures r == -1 <==> x !in xs
  {
    if |xs| == 0 then -1
    else if xs[|xs| - 1] == x then |xs| - 1
    else LastIndex(xs[..|xs| - 1], x)
  }

  function IdsOf(queue: seq<QueuedAction>): (r: seq<int>)
    ensures |r| == |queue| && forall i :: 0 <= i < |queue| ==> r[i] == queue[i].id
  {
    seq(|queue|, i requires 0 <= i < |queue| => queue[i].id)
  }

  /** The queued entry a reorder takes for this id (the id-to-action map keeps the last entry). */
  function FindLast(queue: seq<QueuedAction>, id: int): (r: Option<QueuedAction>)
    ensures r.Some? <==> id in IdsOf(queue)
    ensures r.Some? ==> r.value in queue && r.value.id == id
  {
    var k := LastIndex(IdsOf(queue), id);
    if k < 0 then None else Some(queue[k])
  }

  /** The listed ids that are queued, in listed order. */
  function KnownIds(ids: seq<int>, queue: seq<QueuedAction>): (r: seq<int>)
    ensures |r| <= |ids|
  {
    if |ids| == 0 then []
    else KnownIds(ids[..|ids| - 1], queue) + (if ids[|ids| - 1] in IdsOf(queue) then [ids[|ids| - 1]] else [])
  }

  /** The queue rebuilt from a prefix of the listed ids; every order is the last listed position of the id. */
  function Rebuild(queue: seq<QueuedAction>, prefix: seq<int>, ids: seq<int>): (r: seq<QueuedAction>)
    ensures IdsOf(r) == KnownIds(prefix, queue)
    ensures forall i :: 0 <= i < |r| ==>
              FindLast(queue, r[i].id).Some? && r[i] == FindLast(queue, r[i].id).value.(order := LastIndex(ids, r[i].id))
  {
    if |prefix| == 0 then []
    else
      var id := prefix[|prefix| - 1];
      var head := Rebuild(queue, prefix[..|prefix| - 1], ids);
      match FindLast(queue, id)
      case None => head
      case Some(a) =>
        var r := head + [a.(order := LastIndex(ids, id))];
        assert IdsOf(r) == IdsOf(head) + [id];
        r
  }

  /** `reorder_actions`: host only; the listed, queued actions in listed order. */
  function ReorderActions(q: Queues, sessions: seq<GameSession>, sessionId: int, userId: int, ids: seq<int>)
    : (r: Result<Queues, string>)
    ensures VerifyHostAuthorization(sessions, sessionId, userId).Some? ==>
              r == Err(VerifyHostAuthorization(sessions, sessionId, userId).value)
    ensures VerifyHostAuthorization(sessions, sessionId, userId).None? ==>
              && r.Ok? && r.value.counter == q.counter
              && IdsOf(QueueOf(r.value, sessionId)) == KnownIds(ids, QueueOf(q, sessionId))
              && (forall i :: 0 <= i < |QueueOf(r.value, sessionId)| ==>
                    var a := QueueOf(r.value, sessionId)[i];
                    && FindLast(QueueOf(q, sessionId), a.id).Some?
                    && a == FindLast(QueueOf(q, sessionId), a.id).value.(order := LastIndex(ids, a.id)))
              && (forall s :: s != sessionId ==> QueueOf(r.value, s) == QueueOf(q, s))
  {
    match VerifyHostAuthorization(sessions, sessionId, userId)
    case Some(e) => Err(e)
    case None =>
      if sessionId !in q.queues then
        assert KnownIds(ids, []) == [] by { KnownIdsEmpty(ids); }
        Ok(q)
      else Ok(q.(queues := q.queues[sessionId := Rebuild(q.queues[sessionId], ids, ids)]))
  }

  lemma {:induction false} KnownIdsEmpty(ids: seq<int>)
    ensures KnownIds(ids, []) == []
    decreases |ids|
  {
    if |ids| > 0 {
      KnownIdsEmpty(ids[..|ids| - 1]);
    }
  }

  lemma {:induction false} KnownIdsAll(ids: seq<int>, queue: seq<QueuedAction>)
    requires forall i :: 0 <= i < |ids| ==> ids[i] in IdsOf(queue)
    ensures KnownIds(ids, queue) == ids
    decreases |ids|
  {
    if |ids| > 0 {
      KnownIdsAll(ids[..|ids| - 1], queue);
      assert ids[..|ids| - 1] + [ids[|ids| - 1]] == ids;
    }
  }

  /** Listing every queued id once, in some order, yields exactly that order, numbered 0..n-1. */
  lemma ReorderFullListing(q: Queues, sessions: seq<GameSession>, sessionId: int, userId: int, ids: seq<int>)
    requires VerifyHostAuthorization(sessions, sessionId, userId).None?
    requires forall i, j :: 0 <= i < j < |ids| ==> ids[i] != ids[j]
    requires forall i :: 0 <= i < |ids| ==> ids[i] in IdsOf(QueueOf(q, sessionId))
    ensures var queue := QueueOf(ReorderActions(q, sessions, sessionId, userId, ids).value, sessionId);
            IdsOf(queue) == ids && Numbered(queue)
  {
    KnownIdsAll(ids, QueueOf(q, sessionId));
    var queue := QueueOf(ReorderActions(q, sessions, sessionId, userId, ids).value, sessionId);
    if |ids| > 0 {
      assert queue == Rebuild(q.queues[sessionId], ids, ids);
      forall i | 0 <= i < |queue| ensures queue[i].order == i {
        assert queue[i].id == ids[i];
        assert LastIndex(ids, ids[i]) >= i;
      }
    }
  }

  /** A reorder that lists a queued id keeps that action, changing at most its order. */
  lemma ReorderKeepsListed(q: Queues, sessions: seq<GameSession>, sessionId: int, userId: int, ids: seq<int>, a: QueuedAction)
    requires VerifyHostAuthorization(sessions, sessionId, userId).None?
    requires UniqueIds(QueueOf(q, sessionId))
    requires a in QueueOf(q, sessionId) && a.id in ids
    ensures exists b :: b in QueueOf(ReorderActions(q, sessions, sessionId, userId, ids).value, sessionId)
                        && b == a.(order := b.order)
  {
    var old_ := QueueOf(q, sessionId);
    var queue := QueueOf(ReorderActions(q, sessions, sessionId, userId, ids).value, sessionId);
    assert queue == Rebuild(old_, ids, ids);
    KnownIdsHas(ids, old_, a.id);
    var j :| 0 <= j < |queue| && IdsOf(queue)[j] == a.id;
    var i :| 0 <= i < |old_| && old_[i] == a;
    var k := LastIndex(IdsOf(old_), a.id);
    assert k == i;
    assert queue[j] == a.(order := queue[j].order);
  }

  lemma {:induction false} KnownIdsHas(ids: seq<int>, queue: seq<QueuedAction>, x: int)
    requires x in ids && x in IdsOf(queue)
    ensures x in KnownIds(ids, queue)
    decreases |ids|
  {
    if ids[|ids| - 1] != x {
      assert x in ids[..|ids| - 1];
      KnownIdsHas(ids[..|ids| - 1], queue, x);
    }
  }

  /** The entries whose id differs, in their original order. */
  function WithoutId(queue: seq<QueuedAction>, id: int): (r: seq<QueuedAction>)
    ensures |r| <= |queue|
    ensures forall i :: 0 <= i < |r| ==> r[i].id != id && r[i] in queue
    ensures forall a :: a in queue && a.id != id ==> a in r
  {
    if |queue| == 0 then []
    else (if queue[0].id == id then [] else [queue[0]]) + WithoutId(queue[1..], id)
  }

  /** The renumbering loop: the shared object of an id ends with the id's last position. */
  function Renumber(queue: seq<QueuedAction>): (r: seq<QueuedAction>)
    ensures |r| == |queue|
    ensures forall i :: 0 <= i < |queue| ==> r[i] == queue[i].(order := LastIndex(IdsOf(queue), queue[i].id))
  {
    seq(|queue|, i requires 0 <= i < |queue| => queue[i].(order := LastIndex(IdsOf(queue), queue[i].id)))
  }

  /** `delete_action`: host only; every entry with the id goes and the rest is renumbered. */
  function DeleteAction(q: Queues, sessions: seq<GameSession>, sessionId: int, userId: int, actionId: int)
    : (r: Result<Queues, string>)
    ensures VerifyHostAuthorization(sessions, sessionId, userId).Some? ==>
              r == Err(VerifyHostAuthorization(sessions, sessionId, userId).value)
    ensures VerifyHostAuthorization(sessions, sessionId, userId).None? ==>
              && r.Ok? && r.value.counter == q.counter
              && (forall i :: 0 <= i < |QueueOf(r.value, sessionId)| ==> QueueOf(r.value, sessionId)[i].id != actionId)
              && QueueOf(r.value, sessionId) == Renumber(WithoutId(QueueOf(q, sessionId), actionId))
              && (forall s :: s != sessionId ==> QueueOf(r.value, s) == QueueOf(q, s))
  {
    match VerifyHostAuthorization(sessions, sessionId, userId)
    case Some(e) => Err(e)
    case None =>
      if sessionId !in q.queues then Ok(q)
      else Ok(q.(queues := q.queues[sessionId := Renumber(WithoutId(q.queues[sessionId], actionId))]))
  }

  lemma {:induction false} WithoutIdUnique(queue: seq<QueuedAction>, id: int)
    requires UniqueIds(queue)
    ensures UniqueIds(WithoutId(queue, id))
    decreases |queue|
  {
    if |queue| > 0 {
      var rest := WithoutId(queue[1..], id);
      WithoutIdUnique(queue[1..], id);
      forall j | 0 <= j < |rest| ensures rest[j].id != queue[0].id {
        var k :| 0 <= k < |queue[1..]| && queue[1..][k] == rest[j];
        assert queue[k + 1] == rest[j];
      }
    }
  }

  /** Filtering out an id distributes over concatenation, so the kept entries stay in order. */
  lemma {:induction false} WithoutIdAppend(a: seq<QueuedAction>, b: seq<QueuedAction>, id: int)
    ensures WithoutId(a + b, id) == WithoutId(a, id) + WithoutId(b, id)
    decreases |a|
  {
    if |a| == 0 {
      assert a + b == b;
    } else {
      assert (a + b)[1..] == a[1..] + b;
      WithoutIdAppend(a[1..], b, id);
    }
  }

  /** A queue without the id is left as it is. */
  lemma {:induction false} WithoutIdAbsent(queue: seq<QueuedAction>, id: int)
    requires forall i :: 0 <= i < |queue| ==> queue[i].id != id
    ensures WithoutId(queue, id) == queue
    decreases |queue|
  {
    if |queue| > 0 {
      WithoutIdAbsent(queue[1..], id);
      assert [queue[0]] + queue[1..] == queue;
    }
  }

  /** On one entry the filter keeps it exactly when its id differs. */
  lemma WithoutIdOne(a: QueuedAction, id: int)
    ensures WithoutId([a], id) == if a.id == id then [] else [a]
  {
    assert [a][1..] == [];
  }

  /** Renumbering a duplicate-free queue gives every entry its position. */
  lemma RenumberUnique(queue: seq<QueuedAction>)
    requires UniqueIds(queue)
    ensures forall i :: 0 <= i < |queue| ==> Renumber(queue)[i] == queue[i].(order := i)
  {
    forall i | 0 <= i < |queue| ensures LastIndex(IdsOf(queue), queue[i].id) == i {
      var l := LastIndex(IdsOf(queue), queue[i].id);
      assert queue[l].id == queue[i].id;
    }
  }

  /** On a duplicate-free queue a delete leaves a duplicate-free queue numbered 0..n-1. */
  lemma DeleteRenumbers(q: Queues, sessions: seq<GameSession>, sessionId: int, userId: int, actionId: int)
    requires VerifyHostAuthorization(sessions, sessionId, userId).None?
    requires UniqueIds(QueueOf(q, sessionId))
    ensures var queue := QueueOf(DeleteAction(q, sessions, sessionId, userId, actionId).value, sessionId);
            UniqueIds(queue) && Numbered(queue)
  {
    if sessionId in q.queues {
      var kept := WithoutId(q.queues[sessionId], actionId);
      WithoutIdUnique(q.queues[sessionId], actionId);
      RenumberUnique(kept);
    }
  }

  function OrderKey(a: QueuedAction): int {
    a.order
  }

  /** `"{character_name}: {action_text}"`. */
  function Line(a: QueuedAction): string {
    a.characterName + ": " + a.actionText
  }

  function Lines(queue: seq<QueuedAction>): (r: seq<string>)
    ensures |r| == |queue| && forall i :: 0 <= i < |queue| ==> r[i] == Line(queue[i])
  {
    seq(|queue|, i requires 0 <= i < |queue| => Line(queue[i]))
  }

  /**
   * `commit_actions` up to the USER story log: host only, non-empty queue;
   * the lines sorted by order (stably) are joined with newlines, stored as one
   * USER log, and the queue is emptied.
   */
  function CommitActions(q: Queues, db: Db, sessionId: int, userId: int, now: int): (r: Result<(Queues, Db), string>)
    ensures VerifyHostAuthorization(db.sessions, sessionId, userId).Some? ==>
              r == Err(VerifyHostAuthorization(db.sessions, sessionId, userId).value)
    ensures VerifyHostAuthorization(db.sessions, sessionId, userId).None? && |QueueOf(q, sessionId)| == 0 ==>
              r == Err(NothingToCommit)
    ensures r.Ok? ==>
              var (q', db') := r.value;
              && QueueOf(q', sessionId) == [] && q'.counter == q.counter
              && (forall s :: s != sessionId ==> QueueOf(q', s) == QueueOf(q, s))
              && |db'.logs| == |db.logs| + 1
              && db' == db.(logs := db'.logs, nextId := db.nextId + 1)
              && db'.logs[..|db.logs|] == db.logs
              && db'.logs[|db.logs|].id == db.nextId && db'.logs[|db.logs|].sessionId == sessionId
              && db'.logs[|db.logs|].role == "USER" && db'.logs[|db.logs|].createdAt == now
              && exists sorted: seq<QueuedAction> ::
                   && Sorting.SortedBy(sorted, OrderKey)
                   && multiset(sorted) == multiset(QueueOf(q, sessionId))
                   && (forall k :: Sorting.WithKey(sorted, OrderKey, k) == Sorting.WithKey(QueueOf(q, sessionId), OrderKey, k))
                   && db'.logs[|db.logs|].content == Join(Lines(sorted), "\n")
  {
    match VerifyHostAuthorization(db.sessions, sessionId, userId)
    case Some(e) => Err(e)
    case None =>
      var queue := QueueOf(q, sessionId);
      if |queue| == 0 then Err(NothingToCommit)
      else
        var sorted := Sorting.SortBy(queue, OrderKey);
        assert forall k :: Sorting.WithKey(sorted, OrderKey, k) == Sorting.WithKey(queue, OrderKey, k) by {
          forall k ensures Sorting.WithKey(sorted, OrderKey, k) == Sorting.WithKey(queue, OrderKey, k) {
            Sorting.SortStable(queue, OrderKey, k);
          }
        }
        var content := Join(Lines(sorted), "\n");
        var db' := db.(logs := db.logs + [StoryLog(db.nextId, sessionId, "USER", content, now)], nextId := db.nextId + 1);
        Ok((q.(queues := q.queues[sessionId := []]), db'))
  }

  /** A numbered queue is committed in submission order. */
  lemma CommitNumberedInQueueOrder(q: Queues, db: Db, sessionId: int, userId: int, now: int)
    requires VerifyHostAuthorization(db.sessions, sessionId, userId).None?
    requires |QueueOf(q, sessionId)| > 0 && Numbered(QueueOf(q, sessionId))
    ensures CommitActions(q, db, sessionId, userId, now).Ok?
    ensures CommitActions(q, db, sessionId, userId, now).value.1.logs[|db.logs|].content
            == Join(Lines(QueueOf(q, sessionId)), "\n")
  {
    var queue := QueueOf(q, sessionId);
    assert Sorting.SortedBy(queue, OrderKey);
    Sorting.SortSortedIdentity(queue, OrderKey);
  }

  // ---------------------------------------------------------------------
  // Phase 1 for one action, phase 2 dice gate
  // ---------------------------------------------------------------------

  const MissingIds := "session_id and character_id are required"
  const SessionNotActive := "Session is not active"
  const CharacterNotFound := "Character not found"
  const JudgmentNotFound := "Judgment not found"

  /** ASCII letters lowered; other characters are kept. */
  function LowerAscii(s: string): (r: string)
    ensures |r| == |s|
    ensures forall i :: 0 <= i < |s| ==> r[i] == if 'A' <= s[i] <= 'Z' then (s[i] - 'A' + 'a') as char else s[i]
  {
    seq(|s|, i requires 0 <= i < |s| => if 'A' <= s[i] <= 'Z' then (s[i] - 'A' + 'a') as char else s[i])
  }

  /** The action-type map with DEXTERITY for unknown names. */
  function ActionTypeOf(name: string): (r: ActionType)
    ensures ParseActionType(name).Some? ==> r == ParseActionType(name).value
    ensures ParseActionType(name).None? ==> r == Dexterity
  {
    ParseActionType(name).GetOr(Dexterity)
  }

  /**
   * `submit_player_action`: field checks, session and character checks, phase 1
   * through the GM service (which pre-rolls a phase-0 row), then one more
   * phase-1 row carrying the lower-cased action-type name. Returns the id of
   * that row and the analysis.
   */
  function SubmitPlayerAction(
    db: Db,
    reg: StreamBuffer.Registry,
    sessionId: int,
    characterId: int,
    actionText: string,
    actionType: string,
    judge: JudgmentNode.JudgeRequest -> JudgmentNode.JudgeReply,
    decode: string -> Option<Json>,
    roll: int,
    now: int): (r: Result<(Db, StreamBuffer.Registry, int, ActionAnalysis), string>)
    requires IsD20(roll)
    ensures sessionId == 0 || characterId == 0 ==> r == Err(MissingIds)
    ensures sessionId != 0 && characterId != 0 && IsBlank(actionText) ==> r == Err(EmptyAction)
    ensures FindSession(db.sessions, sessionId).None? ==> r.Err?
    ensures FindCharacter(db.characters, characterId).None? ==> r.Err?
    ensures r.Ok? ==>
              var (db', _, judgmentId, analysis) := r.value;
              && db.sessions[FindSession(db.sessions, sessionId).value].isActive
              && |db'.judgments| == |db.judgments| + 2
              && db'.judgments[..|db.judgments|] == db.judgments
              && db'.judgments[|db.judgments|].phase == PhasePreRolled
              && db'.judgments[|db.judgments|].diceResult == Some(roll)
              && db'.judgments[|db.judgments| + 1].phase == PhaseAnalyzed
              && db'.judgments[|db.judgments| + 1].id == judgmentId
              && db'.judgments[|db.judgments|].characterId == characterId
              && db'.judgments[|db.judgments| + 1].characterId == characterId
              && db'.judgments[|db.judgments| + 1].actionType == Some(LowerAscii(actionType))
              && db'.judgments[|db.judgments| + 1].difficulty == analysis.difficulty
              && analysis.Valid() && analysis.actionType == ActionTypeOf(LowerAscii(actionType))
  {
    var text := Strip(actionText);
    if sessionId == 0 || characterId == 0 then Err(MissingIds)
    else if text == "" then Err(EmptyAction)
    else
      match FindSession(db.sessions, sessionId)
      case None => Err(SessionNotFound)
      case Some(k) =>
        if !db.sessions[k].isActive then Err(SessionNotActive)
        else if FindCharacter(db.characters, characterId).None? then Err(CharacterNotFound)
        else
          var typeName := LowerAscii(actionType);
          AnalyzeOne(db, reg, sessionId, PlayerAction(characterId, text, ActionTypeOf(typeName)), typeName,
                     judge, decode, roll, now)
  }

  /** Phase 1 of one action through the GM service, then the extra phase-1 row. */
  function AnalyzeOne(
    db: Db,
    reg: StreamBuffer.Registry,
    sessionId: int,
    action: PlayerAction,
    typeName: string,
    judge: JudgmentNode.JudgeRequest -> JudgmentNode.JudgeReply,
    decode: string -> Option<Json>,
    roll: int,
    now: int): (r: Result<(Db, StreamBuffer.Registry, int, ActionAnalysis), string>)
    requires IsD20(roll)
    ensures r.Ok? ==>
              var (db', _, judgmentId, analysis) := r.value;
              && |db'.judgments| == |db.judgments| + 2
              && db'.judgments[..|db.judgments|] == db.judgments
              && db'.judgments[|db.judgments|].phase == PhasePreRolled
              && db'.judgments[|db.judgments|].diceResult == Some(roll)
              && db'.judgments[|db.judgments|].characterId == action.characterId
              && db'.judgments[|db.judgments| + 1]
                 == ActionJudgment(judgmentId, sessionId, action.characterId, None, action.actionText, Some(typeName),
                                   None, analysis.modifier, None, analysis.difficulty,
                                   Some(analysis.difficultyReasoning), None, PhaseAnalyzed, now)
              && analysis.Valid() && analysis.actionType == action.actionType
              && analysis.characterId == action.characterId
  {
    var res := GmAnalysis.AnalyzeActions(db, reg, sessionId, [action], judge, decode, [roll], now);
    if res.Err? then Err(res.error)
    else
      PhaseOneAnalysis(db, reg, sessionId, action, judge, decode, roll, now);
      var db1 := res.value.0;
      var a := res.value.2[0];
      var db2 := AddAnalyzedRow(db1, sessionId, action.characterId, action.actionText, typeName, a, now);
      AnalyzedRowFollows(db, db1, sessionId, action.characterId, action.actionText, typeName, a, now);
      Ok((db2, res.value.1, db1.nextId, a))
  }

  lemma AnalyzedRowFollows(db: Db, db1: Db, sessionId: int, characterId: int, text: string, typeName: string, a: ActionAnalysis, now: int)
    requires |db1.judgments| == |db.judgments| + 1 && db1.judgments[..|db.judgments|] == db.judgments
    ensures var db2 := AddAnalyzedRow(db1, sessionId, characterId, text, typeName, a, now);
            && |db2.judgments| == |db.judgments| + 2
            && db2.judgments[..|db.judgments|] == db.judgments
            && db2.judgments[|db.judgments|] == db1.judgments[|db.judgments|]
            && db2.judgments[|db.judgments| + 1].id == db1.nextId
  {
    var n := |db.judgments|;
    var db2 := AddAnalyzedRow(db1, sessionId, characterId, text, typeName, a, now);
    assert db2.judgments[..n] == db2.judgments[..n + 1][..n];
  }

  /** The extra phase-1 row `submit_player_action` stores after the analysis. */
  function AddAnalyzedRow(db: Db, sessionId: int, characterId: int, text: string, typeName: string, a: ActionAnalysis, now: int)
    : (r: Db)
    ensures |r.judgments| == |db.judgments| + 1 && r.judgments[..|db.judgments|] == db.judgments
    ensures r.judgments[|db.judgments|]
            == ActionJudgment(db.nextId, sessionId, characterId, None, text, Some(typeName), None,
                              a.modifier, None, a.difficulty, Some(a.difficultyReasoning), None, PhaseAnalyzed, now)
    ensures r.nextId == db.nextId + 1 && r.logs == db.logs
  {
    var row := ActionJudgment(db.nextId, sessionId, characterId, None, text, Some(typeName), None,
                              a.modifier, None, a.difficulty, Some(a.difficultyReasoning), None, PhaseAnalyzed, now);
    db.(judgments := db.judgments + [row], nextId := db.nextId + 1)
  }

  /** For a single action, phase 1 returns one analysis of that action and pre-rolls one row for it. */
  lemma PhaseOneAnalysis(
    db: Db, reg: StreamBuffer.Registry, sessionId: int, action: PlayerAction,
    judge: JudgmentNode.JudgeRequest -> JudgmentNode.JudgeReply, decode: string -> Option<Json>,
    roll: int, now: int)
    requires IsD20(roll)
    ensures GmAnalysis.AnalyzeActions(db, reg, sessionId, [action], judge, decode, [roll], now).Ok? ==>
            var (db1, _, analyses) := GmAnalysis.AnalyzeActions(db, reg, sessionId, [action], judge, decode, [roll], now).value;
            && |analyses| == 1 && analyses[0].Valid()
            && analyses[0].characterId == action.characterId
            && analyses[0].actionType == action.actionType
            && |db1.judgments| == |db.judgments| + 1
            && db1.judgments[..|db.judgments|] == db.judgments
            && db1.judgments[|db.judgments|].phase == PhasePreRolled
            && db1.judgments[|db.judgments|].characterId == action.characterId
            && db1.judgments[|db.judgments|].diceResult == Some(roll)
  {
    if GmAnalysis.AnalyzeActions(db, reg, sessionId, [action], judge, decode, [roll], now).Ok? {
      var ctx := ContextLoader.LoadGameContext(db, sessionId, "").value;
      var res := JudgmentNode.AnalyzeAndJudge([action], ctx.characters, ctx.worldPrompt, ctx.storyHistory, judge, decode);
      assert res.Ok?;
      assert |JudgmentNode.Kept([action], ctx.characters)| == 1;
    }
  }

  /**
   * What `roll_dice` reports to the room: the `dice_rolled` payload (the
   * character's name and the stored columns of one phase-2 row) with the
   * `all_dice_rolled` signal, or the error sent back to the caller.
   */
  datatype RollReply =
    | RollRejected(error: string)
    | Rolled(characterName: string, judgmentId: int, diceResult: Option<int>, modifier: int,
             finalValue: Option<int>, difficulty: int, outcome: Option<string>, allRolled: bool)

  /** No phase-0 row of the session is left. */
  predicate NonePending(js: seq<ActionJudgment>, sessionId: int) {
    forall i :: 0 <= i < |js| ==> !(js[i].sessionId == sessionId && js[i].phase == PhasePreRolled)
  }

  /** The broadcast name: the character's row name, or "Character <id>" when there is no row. */
  function CharacterName(chars: seq<Character>, characterId: int): (r: string)
    ensures FindCharacter(chars, characterId).Some? ==> r == chars[FindCharacter(chars, characterId).value].name
    ensures FindCharacter(chars, characterId).None? ==> r == "Character " + IntToString(characterId)
  {
    match FindCharacter(chars, characterId)
    case Some(k) => chars[k].name
    case None => "Character " + IntToString(characterId)
  }

  /** The payload built from a stored judgment row. */
  function Report(name: string, row: ActionJudgment, allRolled: bool): RollReply {
    Rolled(name, row.id, row.diceResult, row.modifier, row.finalValue, row.difficulty, row.outcome, allRolled)
  }

  /** The reply carries exactly the stored columns of `row`. */
  predicate Reports(reply: RollReply, row: ActionJudgment) {
    && reply.Rolled?
    && reply.judgmentId == row.id && reply.diceResult == row.diceResult && reply.modifier == row.modifier
    && reply.finalValue == row.finalValue && reply.difficulty == row.difficulty && reply.outcome == row.outcome
  }

  /**
   * `roll_dice` as written: confirms the pre-rolled die through the GM
   * service, then re-reads the character's phase-2 row with the largest id
   * and broadcasts that row's columns; `all_dice_rolled` follows exactly
   * when no phase-0 row of the session remains. The confirm's own result is
   * not used. A failed confirm keeps whatever the confirm committed.
   */
  function RollDice(db: Db, sessionId: int, characterId: int): (r: (Db, RollReply))
    ensures sessionId == 0 || characterId == 0 ==> r == (db, RollRejected(MissingIds))
    ensures sessionId != 0 && characterId != 0 ==> r.0 == GmNarration.ConfirmDiceRoll(db, sessionId, characterId).0
    ensures r.1.Rolled? ==> (r.1.allRolled <==> NonePending(r.0.judgments, sessionId))
    ensures sessionId != 0 && characterId != 0 ==>
              (GmNarration.ConfirmDiceRoll(db, sessionId, characterId).1.Ok? <==> r.1.Rolled?)
    ensures sessionId != 0 && characterId != 0 && GmNarration.ConfirmDiceRoll(db, sessionId, characterId).1.Err? ==>
              r.1 == RollRejected(GmNarration.ConfirmDiceRoll(db, sessionId, characterId).1.error)
    ensures r.1.Rolled? ==>
              && GmNarration.LatestInPhase(r.0.judgments, sessionId, characterId, PhaseConfirmed).Some?
              && Reports(r.1, r.0.judgments[GmNarration.LatestInPhase(r.0.judgments, sessionId, characterId, PhaseConfirmed).value])
              && r.1.characterName == CharacterName(r.0.characters, characterId)
    ensures r.1 != RollRejected(JudgmentNotFound)
  {
    if sessionId == 0 || characterId == 0 then (db, RollRejected(MissingIds))
    else
      var (db', res) := GmNarration.ConfirmDiceRoll(db, sessionId, characterId);
      match res
      case Err(e) =>
        assert e != JudgmentNotFound by { ConfirmErrors(db, sessionId, characterId); }
        (db', RollRejected(e))
      case Ok(_) =>
        var k := GmNarration.LatestPreRolled(db.judgments, sessionId, characterId).value;
        assert GmNarration.InPhase(db'.judgments[k], sessionId, characterId, PhaseConfirmed);
        // The confirmed row exists, so the source's "Judgment not found" branch is never taken.
        var j := GmNarration.LatestInPhase(db'.judgments, sessionId, characterId, PhaseConfirmed).value;
        (db', Report(CharacterName(db'.characters, characterId), db'.judgments[j], PendingCount(db'.judgments, sessionId) == 0))
  }

  /**
   * On a character's first roll (no phase-2 row of it yet) the row re-read
   * is the one just confirmed, so the broadcast values are the confirm's result.
   */
  lemma FirstRollReportsConfirmed(db: Db, sessionId: int, characterId: int)
    requires sessionId != 0 && characterId != 0
    requires forall i :: 0 <= i < |db.judgments| ==>
               !GmNarration.InPhase(db.judgments[i], sessionId, characterId, PhaseConfirmed)
    requires GmNarration.ConfirmDiceRoll(db, sessionId, characterId).1.Ok?
    ensures var d := GmNarration.ConfirmDiceRoll(db, sessionId, characterId).1.value;
            var reply := RollDice(db, sessionId, characterId).1;
            && reply.Rolled?
            && reply.diceResult == Some(d.diceRoll) && reply.modifier == d.modifier && reply.difficulty == d.difficulty
            && reply.judgmentId == db.judgments[GmNarration.LatestPreRolled(db.judgments, sessionId, characterId).value].id
  {
    var db' := GmNarration.ConfirmDiceRoll(db, sessionId, characterId).0;
    var k := GmNarration.LatestPreRolled(db.judgments, sessionId, characterId).value;
    assert GmNarration.InPhase(db'.judgments[k], sessionId, characterId, PhaseConfirmed);
  }

  /** A character with two pre-rolled rows, ids 5 (die 3) and 7 (die 17), DC 10. */
  function TwoPreRolls(): Db {
    var row := ActionJudgment(5, 1, 2, None, "a", None, Some(3), 0, Some(3), 10, None, Some("failure"), PhasePreRolled, 0);
    Db([], [], [Character(2, 1, "Hero", JObj([]), 0)], [], [],
       [row, row.(id := 7, diceResult := Some(17), finalValue := Some(17), outcome := Some("success"))], 8)
  }

  /**
   * The second roll of that character confirms row 5 (die 3), yet the row
   * re-read is row 7, confirmed by the first roll, so die 17 is broadcast again.
   */
  lemma SecondRollReportsOtherRow()
    ensures var db1 := RollDice(TwoPreRolls(), 1, 2).0;
            && GmNarration.ConfirmDiceRoll(db1, 1, 2).1 == Ok(DiceResult(2, "a", 3, 0, 10))
            && RollDice(db1, 1, 2).1 == Rolled("Hero", 7, Some(17), 0, Some(17), 10, Some("success"), true)
  {
    var db := TwoPreRolls();
    var js := db.judgments;
    assert js[..1] == [js[0]] && [js[0]][..0] == [];
    assert GmNarration.LatestPreRolled(js, 1, 2) == Some(1);
    var db1 := RollDice(db, 1, 2).0;
    var js1 := db1.judgments;
    assert js1 == [js[0], js[1].(phase := PhaseConfirmed)];
    assert js1[..1] == [js1[0]] && [js1[0]][..0] == [];
    assert GmNarration.LatestPreRolled(js1, 1, 2) == Some(0);
    var db2 := RollDice(db1, 1, 2).0;
    var js2 := db2.judgments;
    assert js2 == [js[0].(phase := PhaseConfirmed), js[1].(phase := PhaseConfirmed)];
    assert js2[..1] == [js2[0]] && [js2[0]][..0] == [];
    assert GmNarration.LatestInPhase(js2, 1, 2, PhaseConfirmed) == Some(1);
    assert NonePending(js2, 1);
    assert FindCharacter(db2.characters, 2) == Some(0);
  }

  /**
   * `roll_dice` as evidently intended: the broadcast carries the row the
   * confirm has just moved to phase 2, so it always agrees with the confirm's result.
   */
  function RollDiceConfirmed(db: Db, sessionId: int, characterId: int): (r: (Db, RollReply))
    ensures sessionId == 0 || characterId == 0 ==> r == (db, RollRejected(MissingIds))
    ensures sessionId != 0 && characterId != 0 ==> r.0 == GmNarration.ConfirmDiceRoll(db, sessionId, characterId).0
    ensures r.1.Rolled? ==> (r.1.allRolled <==> NonePending(r.0.judgments, sessionId))
    ensures sessionId != 0 && characterId != 0 ==>
              (GmNarration.ConfirmDiceRoll(db, sessionId, characterId).1.Ok? <==> r.1.Rolled?)
    ensures sessionId != 0 && characterId != 0 && GmNarration.ConfirmDiceRoll(db, sessionId, characterId).1.Err? ==>
              r.1 == RollRejected(GmNarration.ConfirmDiceRoll(db, sessionId, characterId).1.error)
    ensures r.1.Rolled? ==>
              var d := GmNarration.ConfirmDiceRoll(db, sessionId, characterId).1.value;
              && GmNarration.LatestPreRolled(db.judgments, sessionId, characterId).Some?
              && Reports(r.1, r.0.judgments[GmNarration.LatestPreRolled(db.judgments, sessionId, characterId).value])
              && r.1.diceResult == Some(d.diceRoll) && r.1.modifier == d.modifier && r.1.difficulty == d.difficulty
              && r.1.characterName == CharacterName(r.0.characters, characterId)
  {
    if sessionId == 0 || characterId == 0 then (db, RollRejected(MissingIds))
    else
      var (db', res) := GmNarration.ConfirmDiceRoll(db, sessionId, characterId);
      match res
      case Err(e) => (db', RollRejected(e))
      case Ok(_) =>
        var k := GmNarration.LatestPreRolled(db.judgments, sessionId, characterId).value;
        (db', Report(CharacterName(db'.characters, characterId), db'.judgments[k], PendingCount(db'.judgments, sessionId) == 0))
  }

  /** The confirm's own error texts. */
  lemma ConfirmErrors(db: Db, sessionId: int, characterId: int)
    requires GmNarration.ConfirmDiceRoll(db, sessionId, characterId).1.Err?
    ensures GmNarration.ConfirmDiceRoll(db, sessionId, characterId).1.error
            in {GmNarration.ConfirmMissing(sessionId, characterId), GmService.ValidationError}
  {
  }

  /** The number of phase-0 rows of the session. */
  function PendingCount(js: seq<ActionJudgment>, sessionId: int): (r: nat)
    ensures r == 0 <==> NonePending(js, sessionId)
  {
    if |js| == 0 then 0
    else
      var rest := PendingCount(js[1..], sessionId);
      assert NonePending(js[1..], sessionId) && !(js[0].sessionId == sessionId && js[0].phase == PhasePreRolled)
             ==> NonePending(js, sessionId) by {
        if NonePending(js[1..], sessionId) && !(js[0].sessionId == sessionId && js[0].phase == PhasePreRolled) {
          forall i | 0 < i < |js| ensures !(js[i].sessionId == sessionId && js[i].phase == PhasePreRolled) {
            assert js[i] == js[1..][i - 1];
          }
        }
      }
      (if js[0].sessionId == sessionId && js[0].phase == PhasePreRolled then 1 else 0) + rest
  }
}

=== FILE: sorting.dfy ===
/**
 * Python's `sorted(..., key=...)`: a stable sort on an integer key, written as
 * an insertion sort over sequences.
 */
module Sorting {

  predicate SortedBy<T>(s: seq<T>, key: T -> int) {
    forall i, j :: 0 <= i < j < |s| ==> key(s[i]) <= key(s[j])
  }

  /** Puts `x` before the first element whose key is not smaller. */
  function Insert<T>(x: T, s: seq<T>, key: T -> int): (r: seq<T>)
    requires SortedBy(s, key)
    ensures SortedBy(r, key)
    ensures multiset(r) == multiset(s) + multiset{x}
    ensures |r| == |s| + 1
    ensures r[0] == x || (|s| > 0 && r[0] == s[0])
  {
    if |s| == 0 || key(x) <= key(s[0]) then [x] + s
    else
      var t := Insert(x, s[1..], key);
      assert s == [s[0]] + s[1..];
      assert key(s[0]) <= key(t[0]);
      [s[0]] + t
  }

  /** `sorted(s, key=key)`. */
  function SortBy<T>(s: seq<T>, key: T -> int): (r: seq<T>)
    ensures SortedBy(r, key)
    ensures multiset(r) == multiset(s)
    ensures |r| == |s|
  {
    if |s| == 0 then []
    else
      assert s == [s[0]] + s[1..];
      Insert(s[0], SortBy(s[1..], key), key)
  }

  /** The elements of `s` whose key is `k`, in their original order. */
  function WithKey<T>(s: seq<T>, key: T -> int, k: int): seq<T> {
    if |s| == 0 then []
    else if key(s[0]) == k then [s[0]] + WithKey(s[1..], key, k)
    else WithKey(s[1..], key, k)
  }

  lemma {:induction false} InsertWithKey<T>(x: T, s: seq<T>, key: T -> int, k: int)
    requires SortedBy(s, key)
    ensures WithKey(Insert(x, s, key), key, k)
         == (if key(x) == k then [x] else []) + WithKey(s, key, k)
  {
    if |s| == 0 || key(x) <= key(s[0]) {
      assert ([x] + s)[1..] == s;
    } else {
      InsertWithKey(x, s[1..], key, k);
      var t := Insert(x, s[1..], key);
      assert ([s[0]] + t)[1..] == t;
      if key(x) == k {
        assert key(s[0]) != k;
      }
    }
  }

  /**
   * Stability: among elements with equal keys, the sort keeps the input order.
   */
  lemma {:induction false} SortStable<T>(s: seq<T>, key: T -> int, k: int)
    ensures WithKey(SortBy(s, key), key, k) == WithKey(s, key, k)
  {
    if |s| > 0 {
      SortStable(s[1..], key, k);
      InsertWithKey(s[0], SortBy(s[1..], key), key, k);
    }
  }

  /** Sorting an already sorted sequence changes nothing. */
  lemma {:induction false} SortSortedIdentity<T>(s: seq<T>, key: T -> int)
    requires SortedBy(s, key)
    ensures SortBy(s, key) == s
  {
    if |s| > 0 {
      assert SortedBy(s[1..], key);
      SortSortedIdentity(s[1..], key);
    }
  }
}

=== FILE: story_logs.dfy ===
/**
 * The story-log listing of `backend/app/routes/story_logs.py`: a session's
 * logs in ascending creation order, where each USER log carries the
 * judgments linked to the first AI log after it. Timestamps stay integers;
 * their rendering as text is not modelled.
 */
module StoryLogs {
  import opened Common
  import opened Models
  import Sorting
  import ContextLoader
  import Text

  const UnknownName := "Unknown"

  datatype JudgmentSummary = JudgmentSummary(
    id: int,
    characterId: int,
    characterName: string,
    actionText: string,
    actionType: Option<string>,
    diceResult: Option<int>,
    modifier: int,
    finalValue: Option<int>,
    difficulty: int,
    outcome: Option<string>)

  datatype LogView = LogView(id: int, role: string, content: string, createdAt: int, judgments: Option<seq<JudgmentSummary>>)

  /** The position of the last character row with the given id. */
  function LastWithId(chars: seq<Character>, id: int): (r: Option<nat>)
    ensures r.Some? ==> r.value < |chars| && chars[r.value].id == id
                        && forall j :: r.value < j < |chars| ==> chars[j].id != id
    ensures r.None? <==> forall k :: 0 <= k < |chars| ==> chars[k].id != id
  {
    if |chars| == 0 then None
    else if chars[|chars| - 1].id == id then Some(|chars| - 1)
    else LastWithId(chars[..|chars| - 1], id)
  }

  /** The `{id: name}` map over all characters: a later row with the same id wins; unknown ids read "Unknown". */
  function CharacterName(chars: seq<Character>, id: int): (r: string)
    ensures (forall k :: 0 <= k < |chars| ==> chars[k].id != id) ==> r == UnknownName
    ensures forall k :: 0 <= k < |chars| && chars[k].id == id && (forall j :: k < j < |chars| ==> chars[j].id != id)
              ==> r == chars[k].name
  {
    match LastWithId(chars, id)
    case None => UnknownName
    case Some(k) => chars[k].name
  }

  /** The `JudgmentSummary` of one judgment row: its columns as stored, with the character's name. */
  function Summary(j: ActionJudgment, chars: seq<Character>): (s: JudgmentSummary)
    ensures s.id == j.id && s.characterId == j.characterId && s.characterName == CharacterName(chars, j.characterId)
    ensures s.actionText == j.actionText && s.actionType == j.actionType && s.diceResult == j.diceResult
            && s.modifier == j.modifier && s.finalValue == j.finalValue && s.difficulty == j.difficulty
            && s.outcome == j.outcome
  {
    JudgmentSummary(j.id, j.characterId, CharacterName(chars, j.characterId), j.actionText, j.actionType,
                    j.diceResult, j.modifier, j.finalValue, j.difficulty, j.outcome)
  }

  /** The judgments linked to a story log, in table order. */
  function Linked(js: seq<ActionJudgment>, logId: int): (r: seq<ActionJudgment>)
    ensures |r| <= |js|
    ensures forall i :: 0 <= i < |r| ==> r[i] in js && r[i].storyLogId == Some(logId)
    ensures forall j :: j in js && j.storyLogId == Some(logId) ==> j in r
  {
    if |js| == 0 then []
    else (if js[0].storyLogId == Some(logId) then [js[0]] else []) + Linked(js[1..], logId)
  }

  /** The position of the first AI log after position `i`. */
  function NextAi(logs: seq<StoryLog>, i: int): (r: Option<nat>)
    requires 0 <= i < |logs|
    ensures r.Some? ==> i < r.value < |logs| && logs[r.value].role == "AI"
                        && forall k :: i < k < r.value ==> logs[k].role != "AI"
    ensures r.None? <==> forall k :: i < k < |logs| ==> logs[k].role != "AI"
    decreases |logs| - i
  {
    if i + 1 >= |logs| then None
    else if logs[i + 1].role == "AI" then Some(i + 1)
    else NextAi(logs, i + 1)
  }

  /**
   * The judgments shown with the log at position `i`: only USER logs get any,
   * taken from the next AI log; none found is `None`, never an empty list.
   */
  function Attached(logs: seq<StoryLog>, i: int, js: seq<ActionJudgment>, chars: seq<Character>)
    : (r: Option<seq<JudgmentSummary>>)
    requires 0 <= i < |logs|
    ensures r.Some? ==> |r.value| > 0
    ensures logs[i].role != "USER" ==> r.None?
    ensures r.Some? <==> logs[i].role == "USER" && NextAi(logs, i).Some?
                         && exists j :: j in js && j.storyLogId == Some(logs[NextAi(logs, i).value].id)
    ensures r.Some? ==> forall k :: 0 <= k < |r.value| ==>
              exists j :: j in js && j.storyLogId == Some(logs[NextAi(logs, i).value].id) && r.value[k] == Summary(j, chars)
    ensures r.Some? ==> var linked := Linked(js, logs[NextAi(logs, i).value].id);
              && |r.value| == |linked|
              && forall k :: 0 <= k < |linked| ==> r.value[k] == Summary(linked[k], chars)
  {
    if logs[i].role != "USER" then None
    else
      match NextAi(logs, i)
      case None => None
      case Some(n) =>
        var linked := Linked(js, logs[n].id);
        if |linked| == 0 then None
        else
          var sums := seq(|linked|, k requires 0 <= k < |linked| => Summary(linked[k], chars));
          assert forall k :: 0 <= k < |sums| ==> linked[k] in js && sums[k] == Summary(linked[k], chars);
          assert linked[0] in js && linked[0].storyLogId == Some(logs[n].id);
          Some(sums)
  }

  /** The linked judgments distribute over concatenation, so they come out in table order. */
  lemma {:induction false} LinkedAppend(a: seq<ActionJudgment>, b: seq<ActionJudgment>, logId: int)
    ensures Linked(a + b, logId) == Linked(a, logId) + Linked(b, logId)
    decreases |a|
  {
    if |a| == 0 {
      assert a + b == b;
    } else {
      assert (a + b)[1..] == a[1..] + b;
      LinkedAppend(a[1..], b, logId);
    }
  }

  /** One judgment is linked exactly when it points at the log. */
  lemma LinkedOne(j: ActionJudgment, logId: int)
    ensures Linked([j], logId) == if j.storyLogId == Some(logId) then [j] else []
  {
    assert [j][1..] == [];
  }

  function CreatedKey(l: StoryLog): int {
    l.createdAt
  }

  /** The session's logs ordered by creation time (equal times keep table order). */
  function Chronological(logs: seq<StoryLog>, sessionId: int): (r: seq<StoryLog>)
    ensures forall i, j :: 0 <= i < j < |r| ==> r[i].createdAt <= r[j].createdAt
    ensures multiset(r) == multiset(ContextLoader.SessionLogs(logs, sessionId))
    ensures forall l :: l in r <==> l in logs && l.sessionId == sessionId
  {
    var session := ContextLoader.SessionLogs(logs, sessionId);
    var r := Sorting.SortBy(session, CreatedKey);
    assert forall l :: l in r <==> l in multiset(session);
    r
  }

  /** `get_story_logs`. */
  function GetStoryLogs(db: Db, sessionId: int): (r: Result<seq<LogView>, HttpError>)
    ensures r.Err? <==> FindSession(db.sessions, sessionId).None?
    ensures r.Err? ==> r.error.status == 404
    ensures r.Ok? ==>
              var ordered := Chronological(db.logs, sessionId);
              && |r.value| == |ordered|
              && (forall i :: 0 <= i < |ordered| ==>
                    && r.value[i].id == ordered[i].id
                    && r.value[i].role == ordered[i].role
                    && r.value[i].content == ordered[i].content
                    && r.value[i].createdAt == ordered[i].createdAt
                    && r.value[i].judgments == Attached(ordered, i, db.judgments, db.characters))
    ensures r.Ok? ==> forall i, j :: 0 <= i < j < |r.value| ==> r.value[i].createdAt <= r.value[j].createdAt
    ensures r.Ok? ==> forall i :: 0 <= i < |r.value| && r.value[i].role == "AI" ==> r.value[i].judgments.None?
  {
    match FindSession(db.sessions, sessionId)
    case None => Err(HttpError(404, "Session with id " + Text.IntToString(sessionId) + " not found"))
    case Some(_) =>
      var ordered := Chronological(db.logs, sessionId);
      Ok(seq(|ordered|, i requires 0 <= i < |ordered| =>
        LogView(ordered[i].id, ordered[i].role, ordered[i].content, ordered[i].createdAt,
                Attached(ordered, i, db.judgments, db.characters))))
  }

  /**
   * A USER log followed directly by an AI log shows exactly the judgments
   * linked to that AI log, in table order.
   */
  lemma UserShowsFollowingAi(logs: seq<StoryLog>, i: int, js: seq<ActionJudgment>, chars: seq<Character>)
    requires 0 <= i < |logs| - 1
    requires logs[i].role == "USER" && logs[i + 1].role == "AI"
    requires exists j :: j in js && j.storyLogId == Some(logs[i + 1].id)
    ensures Attached(logs, i, js, chars).Some?
    ensures var linked := Linked(js, logs[i + 1].id);
            && |Attached(logs, i, js, chars).value| == |linked|
            && forall k :: 0 <= k < |linked| ==> Attached(logs, i, js, chars).value[k] == Summary(linked[k], chars)
  {
  }
}

=== FILE: stream_buffer.dfy ===
/**
 * Token buffering for narrative streaming (`backend/app/services/stream_buffer.py`):
 * a per-session append-only token log with a character cap and terminal
 * complete/error flags, and a registry of buffers keyed by session id.
 * Times are integer seconds supplied by the caller.
 */
module StreamBuffer {
  import opened Common
  import opened Text

  const DefaultMaxSize := 100000
  const DefaultMaxAge := 300

  datatype Buffer = Buffer(
    sessionId: int,
    tokens: seq<string>,
    isComplete: bool,
    error: Option<string>,
    createdAt: int,
    maxSize: int,
    totalChars: int)
  {
    /** The running count matches the stored tokens and respects the cap. */
    predicate Valid() {
      totalChars == TotalLength(tokens) && totalChars <= maxSize
    }

    /** `if self.error:` is true only for a non-empty message. */
    predicate HasError() {
      error.Some? && |error.value| > 0
    }
  }

  /** `StreamBuffer(session_id, max_size)` created at time `now`. */
  function NewBuffer(sessionId: int, maxSize: int, now: int): (b: Buffer)
    ensures b.tokens == [] && !b.isComplete && b.error.None? && b.totalChars == 0
    ensures b.sessionId == sessionId && b.maxSize == maxSize && b.createdAt == now
    ensures maxSize >= 0 ==> b.Valid()
  {
    Buffer(sessionId, [], false, None, now, maxSize, 0)
  }

  /**
   * `add_token`: refused on a finished buffer; refused on overflow, which also
   * finishes the buffer; otherwise appended.
   */
  function AddToken(b: Buffer, token: string): (r: (Buffer, bool))
    ensures b.isComplete || b.HasError() ==> r == (b, false)
    ensures !b.isComplete && !b.HasError() && b.totalChars + |token| > b.maxSize
            ==> r == (b.(isComplete := true), false)
    ensures !b.isComplete && !b.HasError() && b.totalChars + |token| <= b.maxSize
            ==> r.1 && r.0 == b.(tokens := b.tokens + [token], totalChars := b.totalChars + |token|)
    ensures b.Valid() ==> r.0.Valid()
    ensures r.0.tokens == b.tokens || r.0.tokens == b.tokens + [token]
    ensures r.1 <==> r.0.tokens == b.tokens + [token]
  {
    if b.isComplete || b.HasError() then (b, false)
    else if b.totalChars + |token| > b.maxSize then (b.(isComplete := true), false)
    else
      TotalLengthAppend(b.tokens, [token]);
      assert TotalLength([token]) == |token|;
      assert b.tokens + [token] != b.tokens by { assert |b.tokens + [token]| != |b.tokens|; }
      (b.(tokens := b.tokens + [token], totalChars := b.totalChars + |token|), true)
  }

  /** A full buffer can hold exactly `max_size` characters: reaching the cap is accepted. */
  lemma FillToCapAccepted(b: Buffer, token: string)
    requires b.Valid() && !b.isComplete && !b.HasError()
    requires b.totalChars + |token| == b.maxSize
    ensures AddToken(b, token).1 && AddToken(b, token).0.totalChars == b.maxSize
  {
  }

  /** `get_tokens(start_index)`: the tokens from `start_index` on, a negative index counting as 0. */
  function GetTokens(b: Buffer, start: int): (r: seq<string>)
    ensures start <= 0 ==> r == b.tokens
    ensures 0 <= start <= |b.tokens| ==> b.tokens == b.tokens[..start] + r
    ensures start >= |b.tokens| ==> r == []
  {
    var s := if start < 0 then 0 else start;
    if s >= |b.tokens| then [] else b.tokens[s..]
  }

  /** `mark_complete`: only the completion flag changes. */
  function MarkComplete(b: Buffer): (r: Buffer)
    ensures r.isComplete && r.tokens == b.tokens && r.error == b.error && r.totalChars == b.totalChars
    ensures r.sessionId == b.sessionId && r.createdAt == b.createdAt && r.maxSize == b.maxSize
    ensures b.Valid() ==> r.Valid()
  {
    b.(isComplete := true)
  }

  /** `mark_error`: records the message and completes the buffer. */
  function MarkError(b: Buffer, message: string): (r: Buffer)
    ensures r.isComplete && r.error == Some(message) && r.tokens == b.tokens && r.totalChars == b.totalChars
    ensures r.sessionId == b.sessionId && r.createdAt == b.createdAt && r.maxSize == b.maxSize
    ensures b.Valid() ==> r.Valid()
  {
    b.(error := Some(message), isComplete := true)
  }

  /** `get_full_text`: the accepted tokens joined in order. */
  function GetFullText(b: Buffer): (r: string)
    ensures b.Valid() ==> |r| == b.totalChars <= b.maxSize
  {
    ConcatLength(b.tokens);
    Concat(b.tokens)
  }

  /** A successful add extends the full text by exactly the token. */
  lemma AddExtendsText(b: Buffer, token: string)
    requires AddToken(b, token).1
    ensures GetFullText(AddToken(b, token).0) == GetFullText(b) + token
  {
    ConcatAppend(b.tokens, [token]);
    assert Concat([token]) == token + Concat([]);
  }

  /**
   * Tokens offered one by one until the buffer refuses one, as the producer's
   * loop does; `.1` tells whether it stopped early.
   */
  function Feed(b: Buffer, tokens: seq<string>): (r: (Buffer, bool))
    ensures exists n :: 0 <= n <= |tokens| && r.0.tokens == b.tokens + tokens[..n]
    ensures !r.1 ==> r.0 == b.(tokens := b.tokens + tokens, totalChars := b.totalChars + TotalLength(tokens))
    ensures b.isComplete || b.HasError() ==> r == (b, |tokens| > 0)
    ensures b.Valid() ==> r.0.Valid()
    ensures r.0.sessionId == b.sessionId && r.0.createdAt == b.createdAt && r.0.maxSize == b.maxSize
    ensures r.0.error == b.error
    decreases |tokens|
  {
    if |tokens| == 0 then
      assert b.tokens + tokens[..0] == b.tokens;
      (b, false)
    else
      var (b1, ok) := AddToken(b, tokens[0]);
      if !ok then
        assert b1.tokens == b.tokens + tokens[..0];
        (b1, true)
      else
        var r := Feed(b1, tokens[1..]);
        var n :| 0 <= n <= |tokens[1..]| && r.0.tokens == b1.tokens + tokens[1..][..n];
        assert b.tokens + [tokens[0]] + tokens[1..][..n] == b.tokens + tokens[..n + 1];
        assert [tokens[0]] + tokens[1..] == tokens;
        TotalLengthAppend([tokens[0]], tokens[1..]);
        r
  }

  /** A buffer with room for all tokens accepts every one of them. */
  lemma {:induction false} FeedFits(b: Buffer, tokens: seq<string>)
    requires b.Valid() && !b.isComplete && !b.HasError()
    requires b.totalChars + TotalLength(tokens) <= b.maxSize
    ensures !Feed(b, tokens).1
    decreases |tokens|
  {
    if |tokens| > 0 {
      assert [tokens[0]] + tokens[1..] == tokens;
      TotalLengthAppend([tokens[0]], tokens[1..]);
      var (b1, ok) := AddToken(b, tokens[0]);
      FeedFits(b1, tokens[1..]);
    }
  }

  /** The registry: at most one buffer per session. */
  datatype Registry = Registry(buffers: map<int, Buffer>)

  /** `create_buffer`: a fresh buffer for the session, replacing any old one. */
  function CreateBuffer(reg: Registry, sessionId: int, maxSize: int, now: int): (r: (Registry, Buffer))
    ensures r.0.buffers.Keys == reg.buffers.Keys + {sessionId}
    ensures r.0.buffers[sessionId] == r.1 && r.1.tokens == [] && !r.1.isComplete && r.1.error.None?
    ensures r.1.sessionId == sessionId && r.1.maxSize == maxSize && r.1.createdAt == now && r.1.totalChars == 0
    ensures forall k :: k in reg.buffers && k != sessionId ==> r.0.buffers[k] == reg.buffers[k]
  {
    var b := NewBuffer(sessionId, maxSize, now);
    (Registry(reg.buffers[sessionId := b]), b)
  }

  /** `get_buffer`. */
  function GetBuffer(reg: Registry, sessionId: int): (r: Option<Buffer>)
    ensures r.Some? <==> sessionId in reg.buffers
    ensures r.Some? ==> r.value == reg.buffers[sessionId]
  {
    if sessionId in reg.buffers then Some(reg.buffers[sessionId]) else None
  }

  /** `remove_buffer`: true iff a buffer was present; other sessions are untouched. */
  function RemoveBuffer(reg: Registry, sessionId: int): (r: (Registry, bool))
    ensures r.1 <==> sessionId in reg.buffers
    ensures r.0.buffers.Keys == reg.buffers.Keys - {sessionId}
    ensures forall k :: k in r.0.buffers ==> r.0.buffers[k] == reg.buffers[k]
  {
    if sessionId in reg.buffers then (Registry(reg.buffers - {sessionId}), true)
    else (reg, false)
  }

  /** A buffer the sweep removes: complete and strictly older than `maxAge`. */
  predicate Expired(b: Buffer, now: int, maxAge: int) {
    b.isComplete && now - b.createdAt > maxAge
  }

  /** `cleanup_old_buffers`. */
  function CleanupOldBuffers(reg: Registry, now: int, maxAge: int): (r: Registry)
    ensures forall k :: k in r.buffers <==> k in reg.buffers && !Expired(reg.buffers[k], now, maxAge)
    ensures forall k :: k in r.buffers ==> r.buffers[k] == reg.buffers[k]
  {
    Registry(map k | k in reg.buffers && !Expired(reg.buffers[k], now, maxAge) :: reg.buffers[k])
  }

  /** Incomplete buffers survive every sweep, however old. */
  lemma IncompleteNeverSwept(reg: Registry, now: int, maxAge: int, k: int)
    requires k in reg.buffers && !reg.buffers[k].isComplete
    ensures k in CleanupOldBuffers(reg, now, maxAge).buffers
  {
  }

  /** Sweeping twice at the same time removes nothing more. */
  lemma CleanupIdempotent(reg: Registry, now: int, maxAge: int)
    ensures CleanupOldBuffers(CleanupOldBuffers(reg, now, maxAge), now, maxAge)
         == CleanupOldBuffers(reg, now, maxAge)
  {
  }

  /** `clear_all`. */
  function ClearAll(reg: Registry): (r: Registry)
    ensures |r.buffers| == 0
  {
    Registry(map[])
  }
}

=== FILE: text.dfy ===
/**
 * The parts of Python's `str` behaviour the source relies on: whitespace
 * (`str.isspace`), `strip`, `find`/`rfind`, substring checks, `replace`,
 * `startswith`, `join`, `str(n)` and `int(s)` on plain decimals. Strings are sequences of code points, as in Python.
 */
module Text {
  import opened Common

  /** The characters for which Python's `str.isspace()` holds (and that `strip()` removes). */
  predicate IsSpace(c: char) {
    || ('\U{0009}' <= c <= '\U{000D}')
    || ('\U{001C}' <= c <= '\U{001F}')
    || c == ' '
    || c == '\U{0085}'
    || c == '\U{00A0}'
    || c == '\U{1680}'
    || ('\U{2000}' <= c <= '\U{200A}')
    || c == '\U{2028}'
    || c == '\U{2029}'
    || c == '\U{202F}'
    || c == '\U{205F}'
    || c == '\U{3000}'
  }

  predicate AllSpace(s: string) {
    forall i :: 0 <= i < |s| ==> IsSpace(s[i])
  }

  /** `s.lstrip()`: drops the leading whitespace and nothing else. */
  function LStrip(s: string): (r: string)
    ensures |r| <= |s| && r == s[|s| - |r|..]
    ensures AllSpace(s[..|s| - |r|])
    ensures |r| > 0 ==> !IsSpace(r[0])
  {
    if |s| > 0 && IsSpace(s[0]) then LStrip(s[1..]) else s
  }

  /** `s.rstrip()`: drops the trailing whitespace and nothing else. */
  function RStrip(s: string): (r: string)
    ensures |r| <= |s| && r == s[..|r|]
    ensures AllSpace(s[|r|..])
    ensures |r| > 0 ==> !IsSpace(r[|r| - 1])
  {
    if |s| > 0 && IsSpace(s[|s| - 1]) then RStrip(s[..|s| - 1]) else s
  }

  /**
   * `s.strip()`: the middle of `s` left after dropping whitespace from both
   * ends, with no whitespace left at either end.
   */
  function Strip(s: string): (r: string)
    ensures |r| <= |s|
    ensures |r| > 0 ==> !IsSpace(r[0]) && !IsSpace(r[|r| - 1])
    ensures exists i :: StrippedAt(s, r, i)
  {
    var l := LStrip(s);
    var r := RStrip(l);
    var i := |s| - |l|;
    assert s[i..i + |r|] == l[..|r|];
    assert s[i + |r|..] == l[|r|..];
    assert StrippedAt(s, r, i);
    r
  }

  /** `r` sits at position `i` of `s` and everything around it is whitespace. */
  predicate StrippedAt(s: string, r: string, i: int) {
    && 0 <= i <= |s| - |r|
    && r == s[i..i + |r|]
    && AllSpace(s[..i])
    && AllSpace(s[i + |r|..])
  }

  /** A non-space character of `s` lies at or after every all-whitespace prefix. */
  lemma NonSpaceAfterPrefix(s: string, i: int, j: int)
    requires 0 <= i < |s| && !IsSpace(s[i])
    requires 0 <= j <= |s| && AllSpace(s[..j])
    ensures j <= i
  {
  }

  /** A non-space character of `s` lies before every all-whitespace suffix. */
  lemma NonSpaceBeforeSuffix(s: string, i: int, k: int)
    requires 0 <= i < |s| && !IsSpace(s[i])
    requires 0 <= k <= |s| && AllSpace(s[k..])
    ensures i < k
  {
  }

  /** Two cuts of `s` with whitespace around them and none at their ends are the same string. */
  lemma CutsAgree(s: string, r: string, i: int, t: string, j: int)
    requires StrippedAt(s, r, i) && StrippedAt(s, t, j)
    requires |r| > 0 ==> !IsSpace(r[0]) && !IsSpace(r[|r| - 1])
    requires |t| > 0 ==> !IsSpace(t[0]) && !IsSpace(t[|t| - 1])
    ensures r == t
  {
    if |r| > 0 {
      assert s[i] == r[0] && s[i + |r| - 1] == r[|r| - 1];
      NonSpaceAfterPrefix(s, i, j);
      NonSpaceBeforeSuffix(s, i + |r| - 1, j + |t|);
    }
    if |t| > 0 {
      assert s[j] == t[0] && s[j + |t| - 1] == t[|t| - 1];
      NonSpaceAfterPrefix(s, j, i);
      NonSpaceBeforeSuffix(s, j + |t| - 1, i + |r|);
    }
    assert |r| == |t|;
  }

  /** The contract of `Strip` pins its result down: any other such cut of `s` is the same string. */
  lemma StripUnique(s: string, t: string, j: int)
    requires StrippedAt(s, t, j)
    requires |t| > 0 ==> !IsSpace(t[0]) && !IsSpace(t[|t| - 1])
    ensures t == Strip(s)
  {
    var r := Strip(s);
    var i :| StrippedAt(s, r, i);
    CutsAgree(s, r, i, t, j);
  }

  /** `not s.strip()`: the string is empty or whitespace only. */
  predicate IsBlank(s: string) {
    Strip(s) == []
  }

  /** A blank string is exactly one made of whitespace only. */
  lemma BlankIffAllSpace(s: string)
    ensures IsBlank(s) <==> AllSpace(s)
  {
    var l := LStrip(s);
    if |l| > 0 {
      assert !IsSpace(s[|s| - |l|]);
      assert l[0..] == l;
      assert |RStrip(l)| > 0;
    } else {
      assert s[..|s|] == s;
    }
  }

  /** `s.startswith(p)`. */
  predicate StartsWith(s: string, p: string) {
    |p| <= |s| && s[..|p|] == p
  }

  /** `pat` occurs in `s` at position `i`. */
  predicate OccursAt(s: string, pat: string, i: int) {
    0 <= i && i + |pat| <= |s| && s[i..i + |pat|] == pat
  }

  /** `pat in s`. */
  predicate Contains(s: string, pat: string)
  {
    exists i :: 0 <= i <= |s| && OccursAt(s, pat, i)
  }

  /** `s.find(c)` for a one-character needle: the first index, or -1. */
  function Find(s: string, c: char): (r: int)
    ensures -1 <= r < |s|
    ensures r == -1 <==> c !in s
    ensures r >= 0 ==> s[r] == c && c !in s[..r]
  {
    if |s| == 0 then -1
    else if s[0] == c then 0
    else
      var k := Find(s[1..], c);
      assert s[1..] == s[1..][..];
      if k == -1 then -1 else
        assert s[..k + 1] == [s[0]] + s[1..][..k];
        k + 1
  }

  /** `s.rfind(c)` for a one-character needle: the last index, or -1. */
  function RFind(s: string, c: char): (r: int)
    ensures -1 <= r < |s|
    ensures r == -1 <==> c !in s
    ensures r >= 0 ==> s[r] == c && c !in s[r + 1..]
  {
    if |s| == 0 then -1
    else if s[|s| - 1] == c then |s| - 1
    else
      var k := RFind(s[..|s| - 1], c);
      assert k >= 0 ==> s[k + 1..] == s[..|s| - 1][k + 1..] + [s[|s| - 1]];
      k
  }

  /**
   * `s.replace(pat, rep)`: every non-overlapping occurrence, scanning left to
   * right, is replaced.
   */
  function ReplaceAll(s: string, pat: string, rep: string): string
    requires |pat| > 0
    decreases |s|
  {
    if |s| < |pat| then s
    else if s[..|pat|] == pat then rep + ReplaceAll(s[|pat|..], pat, rep)
    else [s[0]] + ReplaceAll(s[1..], pat, rep)
  }

  /** Replacing a pattern that does not occur leaves the string as it is. */
  lemma {:induction false} ReplaceAbsent(s: string, pat: string, rep: string)
    requires |pat| > 0 && !Contains(s, pat)
    ensures ReplaceAll(s, pat, rep) == s
    decreases |s|
  {
    if |s| < |pat| {
    } else {
      assert s[..|pat|] != pat by { assert !OccursAt(s, pat, 0); }
      assert !Contains(s[1..], pat) by {
        forall i | OccursAt(s[1..], pat, i)
          ensures false
        {
          assert s[1..][i..i + |pat|] == s[i + 1..i + 1 + |pat|];
          assert OccursAt(s, pat, i + 1);
        }
      }
      ReplaceAbsent(s[1..], pat, rep);
    }
  }

  /** `"".join(parts)`. */
  function Concat(parts: seq<string>): string {
    if |parts| == 0 then [] else parts[0] + Concat(parts[1..])
  }

  /** `sep.join(parts)`. */
  function Join(parts: seq<string>, sep: string): string {
    if |parts| == 0 then []
    else if |parts| == 1 then parts[0]
    else parts[0] + sep + Join(parts[1..], sep)
  }

  lemma ContainsSelf(p: string)
    ensures Contains(p, p)
  {
    assert OccursAt(p, p, 0);
  }

  /** What occurs in `a` occurs in `a + b`. */
  lemma ContainsLeft(a: string, b: string, p: string)
    requires Contains(a, p)
    ensures Contains(a + b, p)
  {
    var i :| 0 <= i <= |a| && OccursAt(a, p, i);
    assert (a + b)[i..i + |p|] == a[i..i + |p|];
    assert OccursAt(a + b, p, i);
  }

  /** What occurs in `b` occurs in `a + b`, shifted by `|a|`. */
  lemma ContainsRight(a: string, b: string, p: string)
    requires Contains(b, p)
    ensures Contains(a + b, p)
  {
    var i :| 0 <= i <= |b| && OccursAt(b, p, i);
    assert (a + b)[|a| + i..|a| + i + |p|] == b[i..i + |p|];
    assert OccursAt(a + b, p, |a| + i);
  }

  /** Every part occurs in the joined text. */
  lemma {:induction false} JoinContains(parts: seq<string>, sep: string, k: int)
    requires 0 <= k < |parts|
    ensures Contains(Join(parts, sep), parts[k])
    decreases |parts|
  {
    if |parts| == 1 {
      ContainsSelf(parts[0]);
    } else if k == 0 {
      ContainsSelf(parts[0]);
      ContainsLeft(parts[0], sep + Join(parts[1..], sep), parts[0]);
      assert parts[0] + sep + Join(parts[1..], sep) == parts[0] + (sep + Join(parts[1..], sep));
    } else {
      JoinContains(parts[1..], sep, k - 1);
      ContainsRight(parts[0] + sep, Join(parts[1..], sep), parts[k]);
    }
  }

  /** Concatenation distributes over appending a list of parts. */
  lemma {:induction false} ConcatAppend(a: seq<string>, b: seq<string>)
    ensures Concat(a + b) == Concat(a) + Concat(b)
  {
    if |a| == 0 {
      assert a + b == b;
    } else {
      assert (a + b)[1..] == a[1..] + b;
      ConcatAppend(a[1..], b);
    }
  }

  /** Total length of a list of strings. */
  function TotalLength(parts: seq<string>): nat {
    if |parts| == 0 then 0 else |parts[0]| + TotalLength(parts[1..])
  }

  /** The joined text is exactly as long as its parts together. */
  lemma {:induction false} ConcatLength(parts: seq<string>)
    ensures |Concat(parts)| == TotalLength(parts)
  {
    if |parts| > 0 {
      ConcatLength(parts[1..]);
    }
  }

  lemma {:induction false} TotalLengthAppend(a: seq<string>, b: seq<string>)
    ensures TotalLength(a + b) == TotalLength(a) + TotalLength(b)
  {
    if |a| == 0 {
      assert a + b == b;
    } else {
      assert (a + b)[1..] == a[1..] + b;
      TotalLengthAppend(a[1..], b);
    }
  }

  /** The decimal digits of a natural number, as `str(n)` prints them. */
  function NatToString(n: nat): (r: string)
    ensures |r| > 0
    ensures forall i :: 0 <= i < |r| ==> '0' <= r[i] <= '9'
    decreases n
  {
    var d := [(('0' as int) + n % 10) as char];
    if n < 10 then d else NatToString(n / 10) + d
  }

  /** `str(n)` for an int. */
  function IntToString(n: int): (r: string)
    ensures |r| > 0
  {
    if n < 0 then "-" + NatToString(-n) else NatToString(n)
  }

  predicate IsDigit(c: char) {
    '0' <= c <= '9'
  }

  /** The value of a non-empty run of decimal digits, leading zeros allowed. */
  function DigitsValue(s: string): (r: nat)
    requires AllDigits(s)
    decreases |s|
  {
    if |s| == 0 then 0
    else 10 * DigitsValue(s[..|s| - 1]) + ((s[|s| - 1] as int) - ('0' as int))
  }

  predicate AllDigits(s: string) {
    forall i :: 0 <= i < |s| ==> IsDigit(s[i])
  }

  /** The plain decimal form: an optional sign, then at least one digit. */
  predicate IsDecimal(s: string) {
    && |s| > 0
    && if s[0] == '+' || s[0] == '-' then |s| > 1 && AllDigits(s[1..]) else AllDigits(s)
  }

  /** `int(s)` for the plain decimal form; `None` for any other text. */
  function ParseInt(s: string): (r: Option<int>)
    ensures r.Some? <==> IsDecimal(s)
    ensures r.Some? ==> r.value == if s[0] == '-' then 0 - DigitsValue(s[1..])
                                   else if s[0] == '+' then DigitsValue(s[1..]) else DigitsValue(s)
  {
    if !IsDecimal(s) then None
    else if s[0] == '-' then Some(0 - DigitsValue(s[1..]))
    else if s[0] == '+' then Some(DigitsValue(s[1..]))
    else Some(DigitsValue(s))
  }

  /** Reading back the digits `str(n)` prints gives `n`. */
  lemma {:induction false} NatToStringValue(n: nat)
    ensures DigitsValue(NatToString(n)) == n
    decreases n
  {
    var d := [(('0' as int) + n % 10) as char];
    if n >= 10 {
      var prefix := NatToString(n / 10);
      assert NatToString(n) == prefix + d;
      assert (prefix + d)[..|prefix + d| - 1] == prefix;
      NatToStringValue(n / 10);
    }
  }

  /** `int(str(n)) == n`. */
  lemma IntToStringParses(n: int)
    ensures ParseInt(IntToString(n)) == Some(n)
  {
    if n < 0 {
      var digits := NatToString(-n);
      NatToStringValue(-n);
      assert IntToString(n) == "-" + digits;
      assert ("-" + digits)[1..] == digits;
    } else {
      NatToStringValue(n);
      assert NatToString(n)[0] != '-' && NatToString(n)[0] != '+';
    }
  }
}
